=== FILE: README.md ===
# Shop payments, reviews and bundles — a Dafny model

This project models the sequential core of a Node.js shop that takes payment
by bank transfer. Customers quote a payment code in the transfer's description
(`Utga`), and the shop reads the bank's SMS notification to find the amount and
the code. The model covers:

- **The bank-SMS parser** (`utils/smsParser.js`). `parsePaymentSMS` decides
  whether a notification is incoming and reads the bank, the amount, the
  payment code and the date. Each comes from the first matching pattern of its
  own ordered table. `generatePaymentCode` makes the `ORD-XXXX` codes that
  customers quote. Each regular expression is modelled by a scanner stating
  what it matches. For `match`, this means the leftmost match and, at that
  position, the first way to match in backtracking order. The parser itself is
  imperative: its four loops are methods proved equal to specification
  functions, and the properties are lemmas about those functions.
- **The payment records** (`models/Order.js`, `models/PaymentLog.js`): the
  order's statuses and defaults, the sparse unique index on `paymentCode`, and
  the payment-log entry whose `parsed` sub-record mirrors the parser's result.
- **Reviews** (`models/Review.js`, `controllers/reviewController.js`): the
  review schema's validators and one-review-per-product-and-user index. The
  handlers act on a `ReviewBoard` class holding the stored reviews: add a review
  or a reply, like and dislike toggles on reviews and on replies, delete, and
  update. Every handler keeps the board's invariant. That invariant is:
  - reviews are sound;
  - no user is both in a list's likes and its dislikes, or twice in one list;
  - one review per product and user.
- **Business-owner bundles** (`models/Bundle.js`, `models/User.js`,
  `controllers/businessOwnerController.js`):
  - the tier table and its lookup;
  - the purchase record and the user account's `businessBundle` with their
    enumerations and defaults;
  - a `BusinessOwners` class whose `PurchaseBundle` and `CreateProduct` keep
    `productsUsed <= productsAllowed`;
  - the features and number parsing of the product form;
  - the dashboard's `remaining`.
- **The catalogue query** (`controllers/productController.js`): how
  `viewProducts` and `searchProducts` turn request parameters into a filter, a
  sort order and a window of results, and the paging figures they report.

JavaScript strings are `string` (`seq<char>`) and numbers are `real` or `int`.
Object ids are `nat`. Times are integers in milliseconds and are always
supplied by the caller.

Where the code and its comments disagree, the model follows the code:
- the amount patterns are unanchored, so `2000.00 dungeer` is not read from its
  first pattern, despite the comment on `utils/smsParser.js:26`;
- `bankName` stays `null` when no bank pattern matches;
- the parser model uses the pattern tables as written. The corrected tables
  appear only in the findings below.

## Model

| member | source | states |
|---|---|---|
| SmsPatterns.DetectsFromExists | utils/smsParser.js:84 | `pattern.test(s)` holds exactly when some alternative of the pattern matches at some position of `s` |
| SmsPatterns.KhanDigitsRedundant | utils/smsParser.js:16 | the Khan Bank alternative `5765\d{4}` never matches where `5765` does not, so it never changes the bank found |
| SmsPatterns.MatchFromFound | utils/smsParser.js:102 | the position `match` reports is a match, and no match starts before it |
| SmsPatterns.GroupNone | utils/smsParser.js:102-103 | `match` fails exactly when the pattern matches at no position of the message |
| SmsPatterns.CodeGroupShape | utils/smsParser.js:39-47 | a payment-code group is a non-empty run of `[A-Za-z0-9-]` |
| SmsPatterns.DateGroupShape | utils/smsParser.js:50-55 | every date group is ten characters: digits with `-` or `/` at the separator positions |
| SmsNumerals.ReadNumeral | utils/smsParser.js:104-106 | removing the commas of a well-formed numeral and applying `parseFloat` gives the value the numeral denotes |
| SmsParser.FirstBank | utils/smsParser.js:15-22 | the bank found is one whose pattern matches the message or the sender, and none earlier in the table matches either; none is found only when no pattern matches |
| SmsParser.FindBank | utils/smsParser.js:93-98 | the bank loop with its `break` returns the first bank in table order whose pattern matches the trimmed message or the sender |
| SmsParser.PositiveAmount | utils/smsParser.js:104-107 | a captured amount is kept exactly when `parseFloat` of its comma-free text is a finite positive number, and it is then that number |
| SmsParser.FirstAmountFirst | utils/smsParser.js:101-112 | the amount search returns the reading of the first pattern whose capture reads as a positive number; every earlier pattern fails to match or reads as zero or `NaN`; it finds none exactly when no pattern gives a positive reading |
| SmsParser.FirstCodeFirst | utils/smsParser.js:115-121 | the code search returns the upper-cased, trimmed capture of the first pattern that matches; no earlier pattern matches; it finds none exactly when no pattern matches |
| SmsParser.FirstDateFirst | utils/smsParser.js:124-130 | the date search returns the capture of the first date pattern that matches; no earlier pattern matches; it finds none exactly when no pattern matches |
| SmsParser.AmountGroupFinite | utils/smsParser.js:25-36 | no amount capture reads as `Infinity`, because every capture is made of digits, commas and points; so `amount > 0` keeps exactly the finite positive readings |
| SmsParser.FindAmount | utils/smsParser.js:101-112 | the amount loop with its `break` returns the reading of the first pattern whose capture is a positive number, and none exactly when no pattern gives one; zero or `NaN` captures move on to the next pattern |
| SmsParser.FindCode | utils/smsParser.js:115-121 | the code loop returns the upper-cased, trimmed capture of the first code pattern that matches, with no earlier pattern matching, and none exactly when no pattern matches |
| SmsParser.FindDate | utils/smsParser.js:124-130 | the date loop returns the capture of the first date pattern that matches, with no earlier pattern matching, and none exactly when no pattern matches |
| SmsParser.ParsePaymentSMS | utils/smsParser.js:63-136 | the imperative parser yields exactly the specified record: the default record for a missing or empty message, the early return for outgoing messages, then the four table searches and `isValid` |
| SmsParser.NoMessage | utils/smsParser.js:63-77 | a missing, non-string or empty message gives `isValid` and `isIncoming` false and every extracted field null, and echoes `rawMessage` and `from` |
| SmsParser.EchoesInputs | utils/smsParser.js:64-73 | `rawMessage` and `from` are the inputs, whatever the message says |
| SmsParser.OutgoingDropped | utils/smsParser.js:84-90 | an outgoing word with no incoming word returns the default record; any incoming word disables that exit, and then amount and code come from their tables |
| SmsParser.ValidIff | utils/smsParser.js:133 | `isValid` holds exactly when the message is incoming and a positive amount was read |
| SmsParser.AmountFromGroup | utils/smsParser.js:101-112 | a recorded amount is positive and is `parseFloat` of the comma-free capture of the first amount pattern whose capture reads as a positive number; every earlier pattern fails to match or reads as zero or `NaN` |
| SmsParser.PaymentCodeShape | utils/smsParser.js:115-121 | a recorded payment code is non-empty and made only of `A`-`Z`, `0`-`9` and `-` |
| SmsParser.DateShape | utils/smsParser.js:124-130 | a recorded date has ten characters, digits with `-` or `/` separators |
| SmsParser.DungeerIncoming | utils/smsParser.js:84 | a message containing `dungeer` in any letter case is incoming |
| SmsParser.CodeAfterUtga | utils/smsParser.js:41 | a code written after `Utga: ` is the code read, when `utga:` does not occur earlier and a non-code character or the end follows it |
| SmsParser.DateAfterOgnoo | utils/smsParser.js:51 | a date written after `Ognoo: ` is the date read, when `ognoo:` cannot occur earlier |
| SmsParser.NotificationRead | utils/smsParser.js:63-136 | a notification is valid and incoming, with exactly the stated amount and code, when it has this layout: any text without digits, a well-formed positive amount, ` dungeer`, any text, then `Utga: ` and a code; white space around the message is allowed; `utga:` must not occur before the code, and the code must be followed by a character outside `[A-Za-z0-9-]` or by the end |
| SmsParser.NoticeRead | utils/smsParser.js:10-11 | every message laid out like the documented example is valid and incoming, and yields its amount, description code and date |
| SmsParser.DocumentedExample | utils/smsParser.js:11 | the documented message reads as a valid incoming payment of 2000 with code `ORD-A7X9` and date `2026-01-07` |
| SmsParser.Pick | utils/smsParser.js:147 | `Math.floor(r * chars.length)` of a draw in [0, 1) is a position inside the alphabet |
| SmsParser.GeneratePaymentCode | utils/smsParser.js:143-150 | the four-step loop builds `ORD-` followed by the alphabet characters the four draws select |
| SmsParser.GeneratedCodeShape | utils/smsParser.js:144-148 | a generated code is eight characters: `ORD-` and four alphabet characters, which is a valid payment-code shape |
| SmsParser.AlphabetOmitsLookalikes | utils/smsParser.js:144 | the alphabet has 32 characters and omits `0`, `O`, `1` and `I` |
| SmsParser.EveryCodeGenerated | utils/smsParser.js:146-148 | every `ORD-` code of four alphabet characters is produced by some choice of draws |
| SmsParser.GeneratedCodeRecovered | utils/smsParser.js:115-121 | a generated code written after `Utga: ` is read back unchanged from any message the parser does not drop as outgoing, white space around it included, when `utga:` does not occur earlier and a character outside `[A-Za-z0-9-]` or the end follows the code |
| SmsParser.ParseKeepsCode | utils/smsParser.js:80 | for a non-empty message that is not dropped as outgoing, the code recorded is the one the code table finds in the trimmed message |
| SmsFindings.AmountKeepsLastThreeDigits | utils/smsParser.js:27 | as written, of four or more digits before the cents and ` dungeer`, the first amount pattern captures only the last three |
| SmsFindings.FifteenThousandFiveHundredAsWritten | utils/smsParser.js:27 | as written, `15500 dungeer` is a valid incoming payment of 500 |
| SmsFindings.FifteenThousandFiveHundredIntended | utils/smsParser.js:27 | with the intended amount patterns, `15500 dungeer` reads as 15500 |
| SmsFindings.TwoThousandSkipped | utils/smsParser.js:26-27 | as written, in `2000.00 dungeer` the first amount pattern captures `000.00`, which reads as 0, so the pattern is skipped |
| SmsFindings.TwoThousandIntended | utils/smsParser.js:26-27 | with the intended amount patterns, `2000.00 dungeer` reads as 2000 |
| SmsFindings.IntendedAmountReadsWholeRun | utils/smsParser.js:27 | with the intended patterns, an amount without separators reads as the value of all its digits |
| SmsFindings.ReferenceNeverDecides | utils/smsParser.js:45-46 | as written, wherever `reference` matches, `ref` matches too and comes first, so the `reference` pattern never decides the code |
| SmsFindings.ReferenceReadAsErence | utils/smsParser.js:45 | as written, a code after `Reference: ` is recorded as `ERENCE`, whatever the reference says |
| SmsFindings.IntendedReferenceRead | utils/smsParser.js:45-46 | with the patterns intended, a code after `Reference: ` is recorded as the reference itself |
| Orders.DeliveryStatusOf | models/Order.js:38-42 | `deliveryStatus` is accepted exactly when it is one of `Processing`, `Shipped`, `Delivering`, `Delivered`, keeping its name; absent, it defaults to `Processing` |
| Orders.PaymentStatusOf | models/Order.js:57-61 | `paymentStatus` is accepted exactly when it is one of `pending`, `paid`, `failed`, `refunded`, keeping its name; absent, it defaults to `pending` |
| Orders.OrderEnumRoundTrip | models/Order.js:38-61 | every delivery and payment status is accepted back under its own name |
| Orders.NewOrder | models/Order.js:3-78 | an order is accepted exactly when `userId` and `subtotal` are present and both statuses are valid; the discount defaults to 0, the order date is the one supplied or else the creation time, and the payment code, estimated delivery date and tracking number are those supplied |
| Orders.NewOrderDefaults | models/Order.js:22-61 | an order created from only its required fields is `pending`, `Processing`, dated at its creation, and without payment code, details, discount, estimated delivery date or tracking number |
| Orders.InsertOrder | models/Order.js:51-55 | an order is stored exactly when it has no payment code or its code is not taken, and storing appends it |
| Orders.InsertKeepsUnique | models/Order.js:51-55 | for orders that already respect the index, an insertion is accepted exactly when the result still has no two orders sharing a set payment code |
| Orders.UncodedAlwaysInserted | models/Order.js:54 | orders without a payment code are never refused by the sparse index |
| Orders.OrderWithCode | models/Order.js:84 | the lookup by payment code returns an order that carries the code, and finds nothing exactly when no order carries it |
| Orders.CodeIdentifiesOrder | models/Order.js:51-55 | under the index, the order the lookup finds is the only order carrying that code |
| PaymentLogs.ParsedOf | models/PaymentLog.js:16-23 | the `parsed` sub-record holds the parser's amount, code, bank, date, `isIncoming` and `isValid` unchanged |
| PaymentLogs.ParsedRoundTrip | models/PaymentLog.js:16-23 | `parsed` together with the entry's raw text and sender gives back the parser's whole record |
| PaymentLogs.NewEntry | models/PaymentLog.js:3-40 | an entry is accepted exactly when `from` and `message` are present and non-empty; it starts unmatched, not matched automatically, with no order and no matcher |
| PaymentLogs.LoggedNotification | models/PaymentLog.js:4-23 | logging any non-empty notification with its parser result is accepted, and the parser's record can be read back from the entry |
| Reviews.Stored | models/Review.js:59-64 | the stored text is the input without its surrounding white space: a run of the input with only white space before and after it, neither starting nor ending with white space, and its own trim |
| Reviews.AddKeepsOnePerProductUser | models/Review.js:105 | adding a review keeps the (product, user) index unique exactly when its author has not reviewed that product |
| ReviewController.Pull | controllers/reviewController.js:197 | `$pull` and `filter` remove every occurrence of the user and keep every other user's entries |
| ReviewController.AddToSet | controllers/reviewController.js:198 | `$addToSet` leaves the user present exactly once if absent before, without touching other users |
| ReviewController.FindIndex | controllers/reviewController.js:279 | `findIndex` gives the first position of the user, and -1 exactly when the user is absent |
| ReviewController.Splice | controllers/reviewController.js:281 | `splice(i, 1)` removes exactly the element at `i` |
| ReviewController.ReviewToggle | controllers/reviewController.js:193-198 | a user who already reacted is removed from the list; otherwise the user is added and removed from the opposite list; other users are untouched |
| ReviewController.ReplyToggle | controllers/reviewController.js:276-284 | the user always leaves the opposite list, and ends in the toggled list if absent before; other users are untouched |
| ReviewController.ToggleKeepsReactions | controllers/reviewController.js:196-198 | both toggles keep a user out of both lists at once and never list a user twice |
| ReviewController.ReviewToggleAgrees | controllers/reviewController.js:276-284 | under the reaction invariant, the in-place reply toggle and the atomic review update give the same lists |
| ReviewController.SpliceOnly | controllers/reviewController.js:279-281 | in a list without repeats, splicing out the user's position is removing the user |
| ReviewController.ToggleCounts | controllers/reviewController.js:202-206 | the counts reported after a toggle: the toggled list grows or shrinks by one, and the opposite list loses one exactly when the user is moved out of it |
| ReviewController.ToggleTwice | controllers/reviewController.js:196-198 | a first reaction taken back restores both lists |
| ReviewController.NoDupFromCounts | models/Review.js:87-94 | a list in which no user occurs more than once has no repeats, so its count virtual counts distinct users |
| ReviewController.RatingValue | controllers/reviewController.js:43 | `parseInt` of a rating in 1..5 is an integer in 1..5, the rating rounded down |
| ReviewController.CheckNewReview | controllers/reviewController.js:11-23 | a new review passes the checks exactly when there is a session, a rating in 1..5 and a non-blank comment; the failures are reported in that order: no session gives `LoginRequired`, then a missing or out-of-range rating `InvalidRating`, then a missing or blank comment `EmptyComment`; the stored comment is trimmed |
| ReviewController.Edited | controllers/reviewController.js:397-409 | an edit is refused exactly for a truthy rating outside 1..5 or a whitespace-only comment; otherwise only the rating and comment change, each only when given |
| ReviewController.EditNothing | controllers/reviewController.js:397-409 | an edit with neither rating nor comment changes nothing |
| ReviewController.ConsistentInsert | models/Review.js:105 | storing a sound review under the next id keeps the board's invariant when the author has not reviewed the product |
| ReviewController.ConsistentReplace | models/Review.js:41-105 | replacing a review by a sound one with the same id, product and author keeps the board's invariant |
| ReviewController.ReplyIndex | controllers/reviewController.js:270 | `replies.id(replyId)` finds the first reply with that id, or reports that none has it |
| ReviewController.ReplyListsSound | models/Review.js:3-30 | new reply lists that keep the reaction invariant keep the review sound, its identity unchanged, and its validity unchanged |
| ReviewController.ReviewBoard.AddReview | controllers/reviewController.js:6-59 | a review is stored under the next id, which then advances by one, exactly when the checks pass, the product exists, the author has not reviewed it and the schema accepts it; the comment bound counts UTF-16 code units; any refusal changes nothing |
| ReviewController.ReviewBoard.AddReply | controllers/reviewController.js:130-173 | a reply is appended under the next id, trimmed and with empty lists, exactly when there is a session, a non-blank text and the review exists; otherwise nothing changes |
| ReviewController.ReviewBoard.LikeReview | controllers/reviewController.js:176-213 | with a session and an existing review, the lists become the review toggle's; the counts and `userLiked` reported are those of the new lists; otherwise nothing changes; the id counter never changes |
| ReviewController.ReviewBoard.DislikeReview | controllers/reviewController.js:216-253 | the mirror of `LikeReview` with the lists swapped |
| ReviewController.ReviewBoard.LikeReply | controllers/reviewController.js:256-299 | with a session, the review and the reply, the reply's lists become the reply toggle's and `userLiked` is true exactly when the user had not liked it; a save the validators refuse changes nothing; the validators bound reply texts in UTF-16 code units; the id counter never changes |
| ReviewController.ReviewBoard.DislikeReply | controllers/reviewController.js:302-345 | the mirror of `LikeReply` with the lists swapped |
| ReviewController.ReviewBoard.DeleteReview | controllers/reviewController.js:348-374 | a review is removed exactly when the session user is its author; anyone else is refused and nothing changes; the id counter never changes |
| ReviewController.ReviewBoard.UpdateReview | controllers/reviewController.js:377-423 | only the author may edit; the edit is stored exactly when it is accepted and passes the validators, whose comment bound counts UTF-16 code units, and otherwise nothing changes; the id counter never changes |
| ReviewController.ConsistentRemove | controllers/reviewController.js:367 | deleting a review keeps the board's invariant |
| ReviewController.EditedSound | controllers/reviewController.js:397-411 | an accepted edit of a sound review that the validators accept is sound |
| Bundles.TierOfKey | models/Bundle.js:4-46 | exactly the five keys `starter`, `basic`, `standard`, `premium`, `unlimited` name a tier, each its own |
| Bundles.TierKeyRoundTrip | models/Bundle.js:4-46 | every tier is found again under its own key |
| Bundles.TierTable | models/Bundle.js:5-45 | the allowances and prices are 5/5, 10/10, 15/15, 20/20 and 999/50; a later tier allows more and costs no less |
| Bundles.PropertyOf | models/Bundle.js:4-46 | a key reads a tier entry exactly for the five keys, an inherited member exactly for the inherited names, and nothing otherwise |
| Bundles.GetTierInfo | models/Bundle.js:95-97 | as written, the lookup is null only for keys that are neither a tier nor an inherited member |
| Bundles.GetTierInfoInherited | models/Bundle.js:95-97 | as written, `getTierInfo("constructor")` is not null although `constructor` is not a tier |
| Bundles.TierInfoOf | models/Bundle.js:95-97 | the intended lookup returns a tier's entry exactly for the five keys and null for every other key |
| Bundles.TierInfoAgrees | models/Bundle.js:95-97 | the intended and written lookups agree on the five tier keys |
| Bundles.PaymentMethodOf | models/Bundle.js:67-71 | `paymentMethod` is accepted exactly when it is `card`, `paypal` or `bank_transfer`; absent, it defaults to `card` |
| Bundles.PurchaseStatusOf | models/Bundle.js:72-76 | `paymentStatus` is accepted exactly when it is `pending`, `completed`, `failed` or `refunded`; absent, it defaults to `pending` |
| Bundles.EnumRoundTrip | models/Bundle.js:67-76 | every payment method and status is accepted back under its own name |
| Bundles.NewPurchase | models/Bundle.js:48-87 | a purchase record validates exactly for a tier key; it then carries that tier's allowance and price |
| Users.RoleOf | models/User.js:22-26 | `role` is accepted exactly when it is one of the four roles, keeping its name; absent, it defaults to `customer` |
| Users.BundleTierOf | models/User.js:50-54 | `businessBundle.tier` is accepted exactly when it is `none` or a tier key; absent, it defaults to `none` |
| Users.UserEnumRoundTrip | models/User.js:22-54 | every role and bundle tier is accepted back under its own name |
| Users.NewUser | models/User.js:4-88 | an account is accepted exactly when the trimmed username and email and the password are non-empty and the role is valid; the username is trimmed, the email trimmed and lower-cased, and every other field takes its default |
| Users.Insert | models/User.js:5-17 | an account is stored exactly when neither its username nor its email is taken, and storing keeps both unique |
| Users.EmailCaseInsensitive | models/User.js:11-17 | an address differing from a registered one only in case or surrounding white space is refused |
| Users.FreshAccountDefaults | models/User.js:22-77 | a fresh account is a `customer` with tier `none`, nothing allowed, nothing used and no purchase history |
| BusinessOwnerController.RemainingMeaning | controllers/businessOwnerController.js:263-264 | within the quota, `remaining` is never negative, and `canAddProduct` holds exactly when there is a bundle and something remains |
| BusinessOwnerController.FreshAccountCannotAdd | controllers/businessOwnerController.js:228-229 | a fresh account has no bundle, cannot add a product and is within its quota |
| BusinessOwnerController.Purchased | controllers/businessOwnerController.js:103-118 | buying a tier sets the tier, adds its allowance to the previous one, keeps `productsUsed`, and appends exactly one history entry with the tier, allowance, price and date |
| BusinessOwnerController.PurchaseKeepsQuota | controllers/businessOwnerController.js:104-118 | a purchase keeps `productsUsed <= productsAllowed`, leaves room for one more product and raises `remaining` by the tier's allowance |
| BusinessOwnerController.PurchasesAccumulate | controllers/businessOwnerController.js:103-118 | two purchases add both allowances and two history entries |
| BusinessOwnerController.NonEmpty | controllers/businessOwnerController.js:321 | `filter(f => f)` keeps exactly the non-empty strings, each of them, and a list without empty strings unchanged |
| BusinessOwnerController.NonEmptySingle | controllers/businessOwnerController.js:321 | a single element is kept exactly when it is non-empty |
| BusinessOwnerController.NonEmptyAppend | controllers/businessOwnerController.js:321 | filtering a concatenation is concatenating the filtered parts, so the kept elements stay in their order |
| BusinessOwnerController.TrimAll | controllers/businessOwnerController.js:319 | `map(f => f.trim())` trims every piece and keeps the count |
| BusinessOwnerController.CommaFeaturesJoin | controllers/businessOwnerController.js:319 | a features string, taken as its comma-separated pieces, gives exactly those pieces trimmed, without the blank ones, in order |
| BusinessOwnerController.ParseFeatures | controllers/businessOwnerController.js:316-323 | an array gives its non-empty elements in order; a non-empty string gives non-empty, trimmed pieces without commas; a missing field, the empty string and any other value give the empty list |
| BusinessOwnerController.FeaturesRoundTrip | controllers/businessOwnerController.js:319 | trimmed, non-empty features without commas, joined with commas, are parsed back to the same list |
| BusinessOwnerController.FeaturesDropBlanks | controllers/businessOwnerController.js:321 | an empty array element is dropped wherever it stands, and the other elements keep their order |
| BusinessOwnerController.FeaturesDropBlank | controllers/businessOwnerController.js:321 | `["a", "", "b"]` gives `["a", "b"]` |
| BusinessOwnerController.IntOr | controllers/businessOwnerController.js:332-333 | `parseInt(v) \|\| fallback` is the integer `v` reads as when that is not zero, and the fallback when `v` is missing, reads as `NaN` or reads as 0 |
| BusinessOwnerController.IntOrWritten | controllers/businessOwnerController.js:332-333 | a written non-zero integer is read back as itself |
| BusinessOwnerController.IntOrZero | controllers/businessOwnerController.js:332-333 | a missing value and `0` both give the fallback |
| BusinessOwnerController.IntOrNoDigits | controllers/businessOwnerController.js:332-333 | every value that `parseInt` reads as `NaN` gives the fallback, and `abc` is one |
| BusinessOwnerController.ProductOf | controllers/businessOwnerController.js:325-338 | the product records its owner and parsed features; the price is `parseFloat` of the field, or `NaN` when it is missing; stock falls back to 0 and delivery time to 14, which is never 0 |
| BusinessOwnerController.Dashboard | controllers/businessOwnerController.js:138-152 | `bundleInfo` is present exactly with a bundle, and `remaining` is allowed minus used, never negative within the quota |
| BusinessOwnerController.BusinessOwners.PurchaseBundle | controllers/businessOwnerController.js:73-129 | a key that is not a tier is refused with nothing changed, whether the guard or the purchase record's validation refuses it; a tier records one completed purchase, then updates the buyer's bundle as `Purchased` does when the account exists; the quota invariant holds throughout |
| BusinessOwnerController.BusinessOwners.CreateProduct | controllers/businessOwnerController.js:257-344 | a product is created exactly when the owner can add one and the product schema accepts it; then `productsUsed` grows by exactly one, and otherwise nothing changes |
| BusinessOwnerController.CreateKeepsQuota | controllers/businessOwnerController.js:343 | spending one product keeps the quota and lowers `remaining` by exactly one |
| ProductQuery.CategoryFilter | controllers/productController.js:27-29 | the category constraint is set exactly for a category that is non-blank and not `All`, and its value is the trimmed category |
| ProductQuery.PriceFilter | controllers/productController.js:32-36 | `basePrice` is constrained exactly when a price bound is supplied, with `$gte` only for `minPrice` and `$lte` only for `maxPrice`, each the `parseFloat` reading of its text |
| ProductQuery.PriceFilterReadings | controllers/productController.js:34-35 | `minPrice=1e3` gives `$gte: 1000`, `maxPrice=Infinity` gives an infinite `$lte`, and `maxPrice=abc` gives `NaN` |
| ProductQuery.SearchTerm | controllers/productController.js:50-51 | a search term exists exactly for a non-blank `q`; it is a non-empty prefix of the trimmed `q` of at most 100 UTF-16 code units; it is the whole trimmed `q` when that fits, and otherwise the next character would pass 100 units |
| ProductQuery.WithSearch | controllers/productController.js:53-69 | a search uses the text index when the text search finds something and the regular expressions otherwise, never both, leaving category and price alone |
| ProductQuery.BuildFilter | controllers/productController.js:21-72 | the filter built field by field is the category, price and search constraints combined |
| ProductQuery.NotFilteringIsBase | controllers/productController.js:24 | when `isFiltering` is false the grid's filter is the base filter |
| ProductQuery.BlankCategoryFiltersNothing | controllers/productController.js:24-29 | a blank category makes `isFiltering` true but adds no constraint |
| ProductQuery.CategoryTrimmed | controllers/productController.js:27-29 | padding around a category does not change the constraint, but ` All ` asks for a category named `All` where `All` lifts the constraint |
| ProductQuery.SortOf | controllers/productController.js:77-85 | every sort order uses directions 1 or -1, and an unnamed `sort` keeps the default in-stock, stock, newest order |
| ProductQuery.SortOption | controllers/productController.js:77-85 | the switch that reassigns `sortOption` yields the specified order |
| ProductQuery.SortOfKey | controllers/productController.js:18 | each of the six named keys selects its fixed order, and an absent `sort` means `newest` |
| ProductQuery.SortTableDistinct | controllers/productController.js:79-84 | the six named orders differ from each other and from the default; the two price and the two name orders run in opposite directions |
| ProductQuery.SearchSort | controllers/productController.js:245-286 | the search sorts by text score, then in-stock first, exactly when the term is non-blank and the text search finds something; otherwise by in-stock, then stock quantity, which is the listing's default order without its newest-first key |
| ProductQuery.SearchSortFollowsFilter | controllers/productController.js:250-257 | the search sorts by text score exactly when its filter uses the text index |
| ProductQuery.CeilDiv | controllers/productController.js:75 | `Math.ceil(total / size)` is the fewest pages of `size` that hold `total` results |
| ProductQuery.ViewWindow | controllers/productController.js:19-20 | the listing's window is 12 results from `(page - 1) * 12`, and `NaN` when `page` is not a number |
| ProductQuery.ViewPagesCover | controllers/productController.js:19-20 | every listed product lies on exactly one page, and that page is among the `totalPages` reported |
| ProductQuery.ViewHasMoreMeans | controllers/productController.js:160 | for a page from 1 on, the listing's `hasMore` (`parseInt(page) < totalPages`) holds exactly when some matching product lies after that page's window |
| ProductQuery.ViewNegativeSkip | controllers/productController.js:20 | a listing `page` below 1 gives a skip of at most -12, which the database refuses |
| ProductQuery.Cap | controllers/productController.js:236 | the search asks for at most 50 results and never more than the limit requested |
| ProductQuery.CappedSkip | controllers/productController.js:235-236 | the corrected skip counts capped pages, and equals the written skip whenever the limit is at most 50 |
| ProductQuery.Returned | controllers/productController.js:258-259 | a window returns nothing past the end; `limit(0)` returns every remaining result; any other limit returns at most its magnitude, and fewer only when the window reaches the end |
| ProductQuery.LimitZeroOrNegative | controllers/productController.js:235-236 | with `limit=0` every page's skip is 0, so each page holds every result and `hasMore` is false; on the first page a negative limit returns as many as its magnitude, and on any later page it makes the written skip negative |
| ProductQuery.SearchSkipLosesResults | controllers/productController.js:235-236 | as written, with 100 per page, product 50 is on no page although page 1 reports more results |
| ProductQuery.CappedPagesContiguous | controllers/productController.js:235-236 | with the corrected skip each page starts where the previous one ends |
| ProductQuery.CappedPagesCover | controllers/productController.js:235-236 | with the corrected skip every result lies on exactly one page |
| ProductQuery.HasMoreBeforeLastPage | controllers/productController.js:305-307 | with the corrected skip, `hasMore` holds exactly on the pages before the last of `totalPages` |

## Left out

- Database access is not executed. A lookup becomes a parameter or a field of the class (`productExists`, `textHits`, `accepted`), and so does any data the handlers read or write, such as stored reviews, accounts, purchases and products.
- Concurrency is not modelled: each handler is one sequential step, so the read-then-update race in `likeReview` and `dislikeReview` is not captured.
- Rendering, redirects, flash messages, JSON response bodies and HTTP status codes are not modelled. Handler outcomes are failure values.
- Clocks (`Date.now`, `new Date()`) are supplied as parameters, and `Math.random` as a sequence of draws in [0, 1).
- Password hashing with bcrypt, `comparePassword` and the `updatedAt` and `createdAt` timestamp hooks are not modelled: they are foreign library calls and clock reads.
- The code that matches payment notifications to orders is not part of this model. `Orders.OrderWithCode` is only the lookup the `paymentCode` index supports.
- The Cyrillic alternatives of the patterns are modelled as the Mongolian words they spell. Case folding covers ASCII and the Mongolian Cyrillic letters only.
- The patterns the parser never reaches are kept, but only their detection or capture is stated. One example is the Khan Bank `5765\d{4}` alternative.
- Product images, sizes and colours (multer uploads and `JSON.parse`) are not modelled. The product schema's own validation is the `accepted` parameter of `CreateProduct`.
- Revenue and analytics, `getBuyBundle`, `getProducts`, `updateProduct`, `getAddProduct`'s rendering and the dashboard's order statistics are not modelled: they are floating-point sums, date formatting and rendering over queries.
- `getProductReviews` (pagination and average rating) is not modelled: it is a database aggregation.
- The controller's `home` and single-product handlers are not modelled, nor the sections view of `viewProducts` with its `$sample` randomness. Query execution, `$text` scoring and `select` are not modelled either: the model stops at the filter, sort order and window.
- A negative `skip` is not modelled past computing it. The database refuses it, and each handler then answers with its error response. For the listing, that response renders no products, `hasMore` false and page 1. In the listing a `page` below 1 gives a negative skip (`ProductQuery.ViewNegativeSkip`), and `ViewHasMore` is then the figure the page would have reported, not the error response's. In the search, a `page` below 1 gives one too, and so does a negative `limit` on a page after the first.
- The search's `page` and `limit` are taken as integers. A non-numeric `page` or `limit`, which makes `skip` `NaN`, is not modelled for `searchProducts`.
- ReviewController.ReviewBoard.AddReply: the reply id is the board's counter rather than a fresh ObjectId, and the push skips the schema's length validator as an update does.
- Orders.InsertOrder: an explicit `null` payment code is treated like an absent one; in the database a sparse index indexes an explicit `null`.
- Users.NewUser: `profile` and `lastLogin` are not fields of the model.
- `parseFloat` and `parseInt` read exact values as reals and integers: rounding to the nearest double (of a long digit string, for stock, delivery time or a page number), and the overflow of a huge exponent to `Infinity`, are not modelled.
- SearchTerm: when the 100th UTF-16 unit is the first half of a surrogate pair, `substring` keeps that lone half; the model's strings hold whole characters, so the term stops before the pair.
- ReviewController.RatingValue: the rating is taken as a number; a string rating from a form body is not modelled. For example, `"4abc"` passes the source's checks and stores 4, and `"10e-1"` passes and `parseInt` makes it 10.

## Findings

| source | as written | input that shows it | evidently intended | confidence | as-written member | corrected member |
|---|---|---|---|---|---|---|
| utils/smsParser.js:27 | the amount pattern `\d{1,3}(?:,\d{3})*(?:\.\d{2})?` is unanchored, so for digits without thousands separators it captures only the last three | `15500 dungeer` is a valid payment of 500; `2000.00 dungeer` captures `000.00`, which is skipped as 0 | read every digit of the amount, as the comment on line 26 says | high; not executed | SmsFindings.FifteenThousandFiveHundredAsWritten | SmsFindings.FifteenThousandFiveHundredIntended |
| utils/smsParser.js:45-46 | `ref[:\s]*([A-Z0-9-]+)` is tried before `reference[:\s]*…` and matches wherever it does | `Reference: ABC-1` records the code `ERENCE` | record the reference itself | high; not executed | SmsFindings.ReferenceReadAsErence | SmsFindings.IntendedReferenceRead |
| models/Bundle.js:95-97 | `BUNDLE_TIERS[tier] \|\| null` also finds members inherited from `Object.prototype` | `getTierInfo("constructor")` is the `Object` function, not `null`; the same holds for the guard at controllers/businessOwnerController.js:79 | `null` for every key that is not a tier | high; not executed | Bundles.GetTierInfoInherited | Bundles.TierInfoOf |
| controllers/productController.js:235-236 | `skip` is computed from the requested `limit`, while the page size is capped at 50 | `limit=100`: page 1 returns products 0-49, page 2 starts at 100, and product 50 is on no page although `hasMore` is true | compute `skip` from the capped page size | high; not executed | ProductQuery.SearchSkipLosesResults | ProductQuery.CappedPagesCover |

=== FILE: bundle.dfy ===
/**
 * The bundle tiers a business owner can buy (`BUNDLE_TIERS`), the lookup
 * `getTierInfo`, and the bundle-purchase record with its enumerations.
 */
module Bundles {
  import opened Wrappers

  /** The five tiers, in the order the table lists them. */
  datatype Tier = Starter | Basic | Standard | Premium | Unlimited

  /** One entry of the tier table. `popular` is set on the standard tier only. */
  datatype TierInfo = TierInfo(
    name: string,
    products: nat,
    price: nat,
    description: string,
    color: string,
    icon: string,
    popular: bool)

  /** The key under which a tier is stored, which is also the tier's name in the purchase record. */
  function TierKey(t: Tier): string {
    match t
    case Starter => "starter"
    case Basic => "basic"
    case Standard => "standard"
    case Premium => "premium"
    case Unlimited => "unlimited"
  }

  /** The table's keys, in order. */
  const TierKeys: seq<string> := ["starter", "basic", "standard", "premium", "unlimited"]

  /** The tier stored under `key`, if any: the table's own keys and nothing else. */
  function TierOfKey(key: string): (r: Option<Tier>)
    ensures r.Some? <==> key in TierKeys
    ensures r.Some? ==> TierKey(r.value) == key
  {
    if key == "starter" then Some(Starter)
    else if key == "basic" then Some(Basic)
    else if key == "standard" then Some(Standard)
    else if key == "premium" then Some(Premium)
    else if key == "unlimited" then Some(Unlimited)
    else None
  }

  /** Each tier is found again under its own key, and no two tiers share a key. */
  lemma TierKeyRoundTrip(t: Tier)
    ensures TierOfKey(TierKey(t)) == Some(t)
    ensures TierKey(t) in TierKeys
  {
  }

  /** The entry of `BUNDLE_TIERS` for a tier. */
  function Info(t: Tier): TierInfo {
    match t
    case Starter => TierInfo("Starter", 5, 5, "Perfect for trying out our platform", "#10b981", "fa-seedling", false)
    case Basic => TierInfo("Basic", 10, 10, "Great for small businesses", "#3b82f6", "fa-store", false)
    case Standard => TierInfo("Standard", 15, 15, "Most popular choice", "#8b5cf6", "fa-building", true)
    case Premium => TierInfo("Premium", 20, 20, "For growing businesses", "#f59e0b", "fa-crown", false)
    case Unlimited => TierInfo("Unlimited", 999, 50, "No limits, full access", "#ef4444", "fa-infinity", false)
  }

  /**
   * The table's allowances and prices: 5/5, 10/10, 15/15, 20/20 and
   * 999/50 products/price; every tier allows at least one product, and a
   * tier further down the table allows more and costs no less.
   */
  lemma TierTable(t: Tier, u: Tier)
    ensures (Info(t).products, Info(t).price) == match t
      case Starter => (5, 5)
      case Basic => (10, 10)
      case Standard => (15, 15)
      case Premium => (20, 20)
      case Unlimited => (999, 50)
    ensures Info(t).products > 0
    ensures Rank(t) < Rank(u) ==> Info(t).products < Info(u).products && Info(t).price <= Info(u).price
  {
  }

  /** A tier's position in the table. */
  function Rank(t: Tier): nat {
    match t
    case Starter => 0
    case Basic => 1
    case Standard => 2
    case Premium => 3
    case Unlimited => 4
  }

  /**
   * The names every plain JavaScript object inherits from `Object.prototype`;
   * reading one of them off the tier table yields a function or an object,
   * which is truthy.
   */
  const InheritedNames: set<string> := {
    "constructor", "hasOwnProperty", "isPrototypeOf", "propertyIsEnumerable",
    "toString", "toLocaleString", "valueOf", "__proto__",
    "__defineGetter__", "__defineSetter__", "__lookupGetter__", "__lookupSetter__"}

  /** What `BUNDLE_TIERS[key]` yields: an entry, an inherited member, or `undefined`. */
  datatype Property = Entry(tier: Tier) | InheritedMember(name: string) | Undefined

  /** `BUNDLE_TIERS[key]`: own keys first, then the prototype chain. */
  function PropertyOf(key: string): (r: Property)
    ensures r.Entry? <==> key in TierKeys
    ensures r.Entry? ==> TierKey(r.tier) == key
    ensures r.InheritedMember? <==> key in InheritedNames
  {
    match TierOfKey(key)
    case Some(t) => Entry(t)
    case None => if key in InheritedNames then InheritedMember(key) else Undefined
  }

  /** Whether `!BUNDLE_TIERS[key]` is false, the guard the purchase handler applies. */
  predicate Truthy(p: Property) {
    !p.Undefined?
  }

  /** `getTierInfo(key)` as written: `BUNDLE_TIERS[key] || null`. */
  function GetTierInfo(key: string): (r: Property)
    ensures r.Undefined? <==> key !in TierKeys && key !in InheritedNames
  {
    var p := PropertyOf(key);
    if Truthy(p) then p else Undefined
  }

  /**
   * The lookup as written answers with a non-null value for a key that is
   * not a tier: `getTierInfo("constructor")` returns `Object`.
   */
  lemma GetTierInfoInherited()
    ensures "constructor" !in TierKeys
    ensures !GetTierInfo("constructor").Undefined?
  {
  }

  /** `getTierInfo(key)` as intended: the tier's entry, or null for every other key. */
  function TierInfoOf(key: string): (r: Option<TierInfo>)
    ensures r.Some? <==> key in TierKeys
    ensures r.Some? ==> exists t :: TierKey(t) == key && r.value == Info(t)
  {
    match TierOfKey(key)
    case Some(t) => Some(Info(t))
    case None => None
  }

  /** The intended lookup agrees with the written one on the table's keys. */
  lemma TierInfoAgrees(key: string)
    ensures TierInfoOf(key).Some? <==> GetTierInfo(key).Entry?
    ensures TierInfoOf(key).Some? ==> TierInfoOf(key).value == Info(GetTierInfo(key).tier)
  {
  }

  /** `paymentMethod` of a purchase record. */
  datatype PaymentMethod = Card | Paypal | BankTransfer

  /** `paymentStatus` of a purchase record. */
  datatype PurchaseStatus = Pending | Completed | Failed | Refunded

  function PaymentMethodName(m: PaymentMethod): string {
    match m
    case Card => "card"
    case Paypal => "paypal"
    case BankTransfer => "bank_transfer"
  }

  function PurchaseStatusName(s: PurchaseStatus): string {
    match s
    case Pending => "pending"
    case Completed => "completed"
    case Failed => "failed"
    case Refunded => "refunded"
  }

  /** The enumeration check on `paymentMethod`; an absent value takes the default `card`. */
  function PaymentMethodOf(v: Option<string>): (r: Option<PaymentMethod>)
    ensures v.None? ==> r == Some(Card)
    ensures v.Some? ==> (r.Some? <==> v.value in {"card", "paypal", "bank_transfer"})
    ensures v.Some? && r.Some? ==> PaymentMethodName(r.value) == v.value
  {
    match v
    case None => Some(Card)
    case Some(s) =>
      if s == "card" then Some(Card)
      else if s == "paypal" then Some(Paypal)
      else if s == "bank_transfer" then Some(BankTransfer)
      else None
  }

  /** The enumeration check on `paymentStatus`; an absent value takes the default `pending`. */
  function PurchaseStatusOf(v: Option<string>): (r: Option<PurchaseStatus>)
    ensures v.None? ==> r == Some(Pending)
    ensures v.Some? ==> (r.Some? <==> v.value in {"pending", "completed", "failed", "refunded"})
    ensures v.Some? && r.Some? ==> PurchaseStatusName(r.value) == v.value
  {
    match v
    case None => Some(Pending)
    case Some(s) =>
      if s == "pending" then Some(Pending)
      else if s == "completed" then Some(Completed)
      else if s == "failed" then Some(Failed)
      else if s == "refunded" then Some(Refunded)
      else None
  }

  /** Every status and method is accepted back under its own name. */
  lemma EnumRoundTrip(m: PaymentMethod, s: PurchaseStatus)
    ensures PaymentMethodOf(Some(PaymentMethodName(m))) == Some(m)
    ensures PurchaseStatusOf(Some(PurchaseStatusName(s))) == Some(s)
  {
  }

  /** A bundle purchase as stored. Times are milliseconds since the epoch. */
  datatype BundlePurchase = BundlePurchase(
    userId: nat,
    tier: Tier,
    productsAllowed: nat,
    price: nat,
    paymentMethod: PaymentMethod,
    paymentStatus: PurchaseStatus,
    transactionId: Option<string>,
    purchaseDate: int,
    expiryDate: Option<int>)

  /**
   * Validating the record `new Bundle({...})` builds from a tier name and
   * that name's table property: the tier must be one of the enumeration and
   * the allowance and price must be present, which an inherited member does
   * not supply.
   */
  function NewPurchase(userId: nat, key: string, p: Property, status: PurchaseStatus,
                       transactionId: string, now: int): (r: Option<BundlePurchase>)
    requires p == PropertyOf(key)
    ensures r.Some? <==> key in TierKeys
    ensures r.Some? ==> (TierKey(r.value.tier) == key
      && r.value.productsAllowed == Info(r.value.tier).products
      && r.value.price == Info(r.value.tier).price
      && r.value.paymentMethod == Card && r.value.paymentStatus == status)
  {
    match p
    case Entry(t) =>
      Some(BundlePurchase(userId, t, Info(t).products, Info(t).price, Card, status,
        Some(transactionId), now, None))
    case _ => None
  }
}

=== FILE: business_owner.dfy ===
/**
 * The business owner's product quota: buying a bundle adds the tier's
 * allowance, creating a product spends one unit of it, and the dashboard
 * reports what is left. Also the parsing of the product form's features,
 * stock quantity and delivery time.
 */
module BusinessOwnerController {
  import opened Wrappers
  import opened JsText
  import opened Bundles
  import opened Users

  // ---------------------------------------------------------------- guards

  /** `hasBundle`: a tier other than `none` and a positive allowance. */
  predicate HasBundle(b: BusinessBundle) {
    b.tier != NoBundle && b.productsAllowed > 0
  }

  /** `canAddProduct`: a bundle, and fewer products used than allowed. */
  predicate CanAddProduct(b: BusinessBundle) {
    HasBundle(b) && b.productsUsed < b.productsAllowed
  }

  /** The quota invariant: never more products used than allowed. */
  predicate WithinQuota(b: BusinessBundle) {
    b.productsUsed <= b.productsAllowed
  }

  /** `remaining` on the dashboard. */
  function Remaining(b: BusinessBundle): int {
    b.productsAllowed - b.productsUsed
  }

  /**
   * Within the quota nothing remaining is negative, and a product can be
   * added exactly when there is a bundle and something remains.
   */
  lemma RemainingMeaning(b: BusinessBundle)
    requires WithinQuota(b)
    ensures Remaining(b) >= 0
    ensures CanAddProduct(b) <==> HasBundle(b) && Remaining(b) > 0
  {
  }

  /** A fresh account can add nothing until it buys a bundle. */
  lemma FreshAccountCannotAdd(username: string, email: string, password: string)
    requires NewUser(username, email, password, None).Ok?
    ensures !HasBundle(NewUser(username, email, password, None).value.businessBundle)
    ensures !CanAddProduct(NewUser(username, email, password, None).value.businessBundle)
    ensures WithinQuota(NewUser(username, email, password, None).value.businessBundle)
  {
    FreshAccountDefaults(username, email, password);
  }

  // ---------------------------------------------------------------- purchase

  /**
   * The bundle sub-record after buying tier `t` at time `now`: the tier is
   * replaced, the allowance grows by the tier's product count, the used
   * count is kept, the expiry date is dropped and one history entry is
   * appended.
   */
  function Purchased(b: BusinessBundle, t: Tier, now: int): (r: BusinessBundle)
    ensures r.tier == Bought(t)
    ensures r.productsAllowed == b.productsAllowed + Info(t).products
    ensures r.productsUsed == b.productsUsed
    ensures |r.purchaseHistory| == |b.purchaseHistory| + 1
    ensures r.purchaseHistory[..|b.purchaseHistory|] == b.purchaseHistory
    ensures r.purchaseHistory[|b.purchaseHistory|] == HistoryEntry(TierKey(t), Info(t).products, Info(t).price, now)
  {
    BusinessBundle(Bought(t), b.productsAllowed + Info(t).products, b.productsUsed,
      Some(now), None,
      b.purchaseHistory + [HistoryEntry(TierKey(t), Info(t).products, Info(t).price, now)])
  }

  /** Buying keeps the quota and always leaves room for at least one more product. */
  lemma PurchaseKeepsQuota(b: BusinessBundle, t: Tier, now: int)
    requires WithinQuota(b)
    ensures WithinQuota(Purchased(b, t, now))
    ensures HasBundle(Purchased(b, t, now)) && CanAddProduct(Purchased(b, t, now))
    ensures Remaining(Purchased(b, t, now)) == Remaining(b) + Info(t).products
  {
    TierTable(t, t);
  }

  /** Two purchases add up: the allowance grows by both tiers' counts and the history by two entries. */
  lemma PurchasesAccumulate(b: BusinessBundle, t: Tier, u: Tier, now: int, later: int)
    ensures Purchased(Purchased(b, t, now), u, later).productsAllowed
      == b.productsAllowed + Info(t).products + Info(u).products
    ensures Purchased(Purchased(b, t, now), u, later).productsUsed == b.productsUsed
    ensures |Purchased(Purchased(b, t, now), u, later).purchaseHistory| == |b.purchaseHistory| + 2
  {
  }

  // ---------------------------------------------------------------- product form

  /**
   * A form field as the body parser delivers it: missing, a single string,
   * repeated into an array, or some other value (an object built from
   * bracketed keys).
   */
  datatype FormField = Absent | Text(text: string) | Items(items: seq<string>) | Other

  /** `xs.filter(f => f)` over strings: the non-empty ones, in order. */
  function NonEmpty(xs: seq<string>): (r: seq<string>)
    ensures forall k :: 0 <= k < |r| ==> r[k] != []
    ensures forall x :: x in r <==> x in xs && x != []
    ensures |r| <= |xs|
    ensures (forall k :: 0 <= k < |xs| ==> xs[k] != []) ==> r == xs
  {
    if xs == [] then []
    else (if xs[0] == [] then [] else [xs[0]]) + NonEmpty(xs[1..])
  }

  /** Filtering a single element keeps it exactly when it is non-empty. */
  lemma NonEmptySingle(x: string)
    ensures NonEmpty([x]) == if x == [] then [] else [x]
  {
    assert [x][1..] == [];
  }

  /** Filtering distributes over concatenation, so the kept elements stay in their order. */
  lemma {:induction false} NonEmptyAppend(a: seq<string>, b: seq<string>)
    ensures NonEmpty(a + b) == NonEmpty(a) + NonEmpty(b)
    decreases |a|
  {
    if a == [] {
      assert a + b == b;
    } else {
      assert (a + b)[0] == a[0];
      assert (a + b)[1..] == a[1..] + b;
      NonEmptyAppend(a[1..], b);
    }
  }

  /** `parts.map(f => f.trim())`. */
  function TrimAll(parts: seq<string>): (r: seq<string>)
    ensures |r| == |parts|
    ensures forall k :: 0 <= k < |r| ==> r[k] == Trim(parts[k])
  {
    seq(|parts|, k requires 0 <= k < |parts| => Trim(parts[k]))
  }

  /**
   * The features list: a non-empty string is split at commas and its
   * trimmed, non-empty pieces kept; an array keeps its non-empty elements;
   * a missing field, the empty string and any other value give the empty
   * list.
   */
  function ParseFeatures(f: FormField): (r: seq<string>)
    ensures forall k :: 0 <= k < |r| ==> r[k] != []
    ensures f.Text? ==> forall k :: 0 <= k < |r| ==> ',' !in r[k] && Trim(r[k]) == r[k]
    ensures f.Items? ==> r == NonEmpty(f.items)
    ensures f.Absent? || f.Other? || f == Text([]) ==> r == []
  {
    match f
    case Absent => []
    case Text(s) => if s == [] then [] else CommaFeatures(s)
    case Items(xs) => NonEmpty(xs)
    case Other => []
  }

  /** `s.split(',').map(f => f.trim()).filter(f => f)`. */
  function CommaFeatures(s: string): (r: seq<string>)
    ensures forall k :: 0 <= k < |r| ==> r[k] != [] && ',' !in r[k] && Trim(r[k]) == r[k]
  {
    var pieces := TrimAll(Split(s, ','));
    forall k | 0 <= k < |pieces| ensures ',' !in pieces[k] && Trim(pieces[k]) == pieces[k] {
      assert Split(s, ',')[k] in Split(s, ',');
      TrimIdempotent(Split(s, ',')[k]);
      TrimSubsequence(Split(s, ',')[k], ',');
    }
    NonEmptyKeeps(pieces, ',');
    NonEmpty(pieces)
  }

  /** A character absent from a string is absent from its trim. */
  lemma TrimSubsequence(s: string, c: char)
    requires c !in s
    ensures c !in Trim(s)
  {
    TrimStartSuffix(s);
    var t := TrimStart(s);
    assert t == s[|s| - |t|..];
    assert forall k :: 0 <= k < |t| ==> t[k] == s[|s| - |t| + k];
    assert Trim(s) == TrimEnd(t) == t[..|TrimEnd(t)|];
  }

  /** Filtering keeps the pieces that are trimmed and free of `c`. */
  lemma {:induction false} NonEmptyKeeps(xs: seq<string>, c: char)
    requires forall k :: 0 <= k < |xs| ==> c !in xs[k] && Trim(xs[k]) == xs[k]
    ensures forall k :: 0 <= k < |NonEmpty(xs)| ==> c !in NonEmpty(xs)[k] && Trim(NonEmpty(xs)[k]) == NonEmpty(xs)[k]
    decreases |xs|
  {
    if xs != [] {
      NonEmptyKeeps(xs[1..], c);
    }
  }

  /**
   * A list of trimmed, non-empty features without commas survives being
   * joined with commas and parsed back.
   */
  lemma {:induction false} FeaturesRoundTrip(parts: seq<string>)
    requires |parts| >= 1
    requires forall k :: 0 <= k < |parts| ==> parts[k] != [] && ',' !in parts[k] && Trim(parts[k]) == parts[k]
    ensures ParseFeatures(Text(Join(parts, ','))) == parts
  {
    forall p | p in parts ensures ',' !in p {
    }
    SplitJoin(parts, ',');
    var s := Join(parts, ',');
    assert s != [] by {
      JoinFirst(parts, ',');
    }
    assert TrimAll(Split(s, ',')) == parts;
  }

  /** A join starts with its first part. */
  lemma JoinFirst(parts: seq<string>, sep: char)
    requires |parts| >= 1
    ensures parts[0] <= Join(parts, sep)
  {
  }

  /**
   * Splitting comma-joined pieces and filtering them gives the trimmed
   * pieces that are not blank, in their order.
   */
  lemma {:induction false} CommaFeaturesJoin(parts: seq<string>)
    requires |parts| >= 1
    requires forall k :: 0 <= k < |parts| ==> ',' !in parts[k]
    ensures CommaFeatures(Join(parts, ',')) == NonEmpty(TrimAll(parts))
  {
    forall p | p in parts ensures ',' !in p {
    }
    SplitJoin(parts, ',');
  }

  /** An empty array element is dropped wherever it stands, and the others are kept in order. */
  lemma {:induction false} FeaturesDropBlanks(a: seq<string>, b: seq<string>)
    ensures ParseFeatures(Items(a + [""] + b)) == ParseFeatures(Items(a + b))
  {
    NonEmptyAppend(a + [""], b);
    NonEmptyAppend(a, [""]);
    NonEmptySingle("");
    NonEmptyAppend(a, b);
  }

  /** `["a", "", "b"]` keeps `"a"` and `"b"`. */
  lemma {:induction false} FeaturesDropBlank()
    ensures ParseFeatures(Items(["a", "", "b"])) == ["a", "b"]
  {
    var x: seq<string> := ["a"];
    var y: seq<string> := ["b"];
    FeaturesDropBlanks(x, y);
    assert ["a", "", "b"] == x + [""] + y;
    NonEmptyAppend(x, y);
    NonEmptySingle("a");
    NonEmptySingle("b");
  }

  /** `parseInt(v) || fallback`: `NaN` and `0` both give the fallback. */
  function IntOr(v: Option<string>, fallback: int): (r: int)
    ensures v.Some? && ParseInt(v.value).Some? && ParseInt(v.value).value != 0 ==> r == ParseInt(v.value).value
    ensures v.None? || ParseInt(v.value).None? || ParseInt(v.value) == Some(0) ==> r == fallback
  {
    match v
    case None => fallback
    case Some(s) =>
      match ParseInt(s)
      case None => fallback
      case Some(n) => if n == 0 then fallback else n
  }

  /** A written non-zero integer is read back as itself. */
  lemma IntOrWritten(n: int, fallback: int)
    requires n != 0
    ensures IntOr(Some(IntString(n)), fallback) == n
  {
    ParseIntString(n);
  }

  /** A missing value and a zero fall back. */
  lemma IntOrZero(fallback: int)
    ensures IntOr(Some("0"), fallback) == fallback
    ensures IntOr(None, fallback) == fallback
  {
    ParseIntString(0);
    assert IntString(0) == "0";
  }

  /**
   * A value `parseInt` reads as `NaN` falls back, whatever it is; `abc`,
   * without leading digits, is one.
   */
  lemma IntOrNoDigits(s: string, fallback: int)
    ensures ParseInt(s).None? ==> IntOr(Some(s), fallback) == fallback
    ensures ParseInt("abc").None?
  {
    TrimStartNoSpace("abc");
    assert SignOf("abc") == (false, "abc");
    DigitRunExact("abc", 0, 0, 10);
  }

  /** The product form as submitted. Uploaded images, sizes and colours are not modelled. */
  datatype ProductForm = ProductForm(
    name: string,
    description: string,
    basePrice: Option<string>,
    category: string,
    stockQuantity: Option<string>,
    deliveryTime: Option<string>,
    features: FormField)

  /** The product `createProduct` builds. */
  datatype Product = Product(
    name: string,
    description: string,
    basePrice: Float,
    category: string,
    stockQuantity: int,
    deliveryTime: int,
    features: seq<string>,
    createdBy: nat)

  /**
   * The product built from a form: the price is `parseFloat` of the field
   * (`NaN` when it is missing), stock falls back to 0, delivery time to 14
   * days.
   */
  function ProductOf(form: ProductForm, owner: nat): (p: Product)
    ensures p.createdBy == owner && p.features == ParseFeatures(form.features)
    ensures p.basePrice == if form.basePrice.Some? then ParseFloat(form.basePrice.value) else NaN
    ensures p.stockQuantity == IntOr(form.stockQuantity, 0)
    ensures p.deliveryTime == IntOr(form.deliveryTime, 14) && p.deliveryTime != 0
  {
    Product(form.name, form.description,
      match form.basePrice case None => NaN case Some(s) => ParseFloat(s),
      form.category, IntOr(form.stockQuantity, 0), IntOr(form.deliveryTime, 14),
      ParseFeatures(form.features), owner)
  }

  // ---------------------------------------------------------------- dashboard

  /** The bundle summary the dashboard shows. */
  datatype BundleSummary = BundleSummary(
    tier: string, tierName: string, productsAllowed: nat, productsUsed: nat, remaining: int, color: string)

  /** The dashboard's `bundleInfo`: present only with a bundle. */
  function Dashboard(b: BusinessBundle): (r: Option<BundleSummary>)
    ensures r.Some? <==> HasBundle(b)
    ensures r.Some? ==> r.value.remaining == b.productsAllowed - b.productsUsed
    ensures r.Some? && WithinQuota(b) ==> r.value.remaining >= 0
  {
    match b.tier
    case NoBundle => None
    case Bought(t) =>
      if b.productsAllowed > 0 then
        Some(BundleSummary(TierKey(t), Info(t).name, b.productsAllowed, b.productsUsed,
          Remaining(b), Info(t).color))
      else None
  }

  // ---------------------------------------------------------------- handlers

  /** How a handler ends. */
  datatype Outcome = Done | InvalidTier | LimitReached | ServerError

  /** The accounts, bundle purchases and products the handlers read and write. */
  class BusinessOwners {
    var users: map<nat, User>
    var purchases: seq<BundlePurchase>
    var products: seq<Product>

    /** Every account keeps its quota. */
    predicate Valid()
      reads this
    {
      forall id :: id in users ==> WithinQuota(users[id].businessBundle)
    }

    constructor (accounts: map<nat, User>)
      requires forall id :: id in accounts ==> WithinQuota(accounts[id].businessBundle)
      ensures Valid()
      ensures users == accounts && purchases == [] && products == []
    {
      users := accounts;
      purchases := [];
      products := [];
    }

    /**
     * `purchaseBundle`: a name that is not a property of the tier table is
     * refused with nothing changed; a property that is not a tier (an
     * inherited member) fails when its purchase record is validated, again
     * with nothing changed; a tier is recorded as a completed purchase and
     * then added to the account, which must exist for that second step.
     */
    method PurchaseBundle(userId: nat, tier: string, now: nat) returns (r: Outcome)
      requires Valid()
      modifies this
      ensures Valid()
      ensures products == old(products)
      ensures r == Done <==> tier in TierKeys && userId in old(users)
      ensures !Truthy(PropertyOf(tier)) ==> r == InvalidTier
      ensures tier !in TierKeys ==> purchases == old(purchases) && users == old(users)
      ensures tier in TierKeys ==> (purchases == old(purchases)
        + [NewPurchase(userId, tier, PropertyOf(tier), Completed, "TXN-" + Decimal(now), now).value])
      ensures r == Done ==> users == old(users)[userId := old(users)[userId].(businessBundle :=
        Purchased(old(users)[userId].businessBundle, PropertyOf(tier).tier, now))]
      ensures r != Done ==> users == old(users)
    {
      var property := PropertyOf(tier);
      if !Truthy(property) {
        return InvalidTier;
      }
      var record := NewPurchase(userId, tier, property, Completed, "TXN-" + Decimal(now), now);
      if record.None? {
        return ServerError;
      }
      purchases := purchases + [record.value];
      if userId !in users {
        return ServerError;
      }
      var user := users[userId];
      PurchaseKeepsQuota(user.businessBundle, property.tier, now);
      users := users[userId := user.(businessBundle := Purchased(user.businessBundle, property.tier, now))];
      r := Done;
    }

    /**
     * `createProduct`: refused unless the account can add a product; the
     * product is then saved when the product schema accepts it
     * (`accepted`), and only then is one more product counted as used.
     */
    method CreateProduct(userId: nat, form: ProductForm, accepted: bool) returns (r: Outcome)
      requires Valid()
      modifies this
      ensures Valid()
      ensures purchases == old(purchases)
      ensures r == Done <==> userId in old(users) && CanAddProduct(old(users)[userId].businessBundle) && accepted
      ensures userId in old(users) && !CanAddProduct(old(users)[userId].businessBundle) ==> r == LimitReached
      ensures r == Done ==> (products == old(products) + [ProductOf(form, userId)]
        && users == old(users)[userId := old(users)[userId].(businessBundle :=
          old(users)[userId].businessBundle.(productsUsed := old(users)[userId].businessBundle.productsUsed + 1))])
      ensures r != Done ==> products == old(products) && users == old(users)
    {
      if userId !in users {
        return ServerError;
      }
      var user := users[userId];
      if !CanAddProduct(user.businessBundle) {
        return LimitReached;
      }
      if !accepted {
        return ServerError;
      }
      products := products + [ProductOf(form, userId)];
      var b := user.businessBundle;
      users := users[userId := user.(businessBundle := b.(productsUsed := b.productsUsed + 1))];
      r := Done;
    }
  }

  /** Spending one product keeps the quota and lowers what remains by exactly one. */
  lemma CreateKeepsQuota(b: BusinessBundle)
    requires CanAddProduct(b)
    ensures WithinQuota(b.(productsUsed := b.productsUsed + 1))
    ensures Remaining(b.(productsUsed := b.productsUsed + 1)) == Remaining(b) - 1
  {
  }
}

=== FILE: js_text.dfy ===
/**
 * The JavaScript string and number built-ins the application relies on:
 * the `\s` character class and `String.prototype.trim`, the case folding of
 * case-insensitive regular expressions, `split`, `substring`, `parseInt` and
 * `parseFloat`. Strings are sequences of UTF-16 code units in JavaScript and
 * of code points here; every character the application tests for lies in
 * the Basic Multilingual Plane, where the two agree.
 */
module JsText {
  import opened Wrappers

  /** ECMAScript WhiteSpace or LineTerminator: the `\s` class, and what `trim` removes. */
  predicate IsSpace(c: char) {
    || c == '\t' || c == '\n' || c == '\U{000B}' || c == '\U{000C}' || c == '\r' || c == ' '
    || c == '\U{00A0}' || c == '\U{1680}' || ('\U{2000}' <= c <= '\U{200A}')
    || c == '\U{2028}' || c == '\U{2029}' || c == '\U{202F}' || c == '\U{205F}'
    || c == '\U{3000}' || c == '\U{FEFF}'
  }

  /** The characters the regular-expression `.` does not match. */
  predicate IsLineTerminator(c: char) {
    c == '\n' || c == '\r' || c == '\U{2028}' || c == '\U{2029}'
  }

  /** `\d`: ASCII decimal digits only. */
  predicate IsDigit(c: char) {
    '0' <= c <= '9'
  }

  predicate IsAsciiLetter(c: char) {
    ('a' <= c <= 'z') || ('A' <= c <= 'Z')
  }

  // ---------------------------------------------------------------- trim

  /** The string without its leading white space. */
  function TrimStart(s: string): (r: string)
    ensures |r| <= |s|
    ensures r != [] ==> !IsSpace(r[0])
    ensures forall k {:trigger IsSpace(s[k])} :: 0 <= k < |s| - |r| ==> IsSpace(s[k])
    decreases |s|
  {
    if s != [] && IsSpace(s[0]) then TrimStart(s[1..]) else s
  }

  /** The string without its trailing white space. */
  function TrimEnd(s: string): (r: string)
    ensures |r| <= |s| && r == s[..|r|]
    ensures r != [] ==> !IsSpace(r[|r| - 1])
    ensures forall k {:trigger IsSpace(s[k])} :: |r| <= k < |s| ==> IsSpace(s[k])
    decreases |s|
  {
    if s != [] && IsSpace(s[|s| - 1]) then TrimEnd(s[..|s| - 1]) else s
  }

  /** `String.prototype.trim`. */
  function Trim(s: string): (r: string)
    ensures |r| <= |s|
    ensures r != [] ==> !IsSpace(r[0]) && !IsSpace(r[|r| - 1])
  {
    TrimEnd(TrimStart(s))
  }

  /** A string that starts and ends with a non-space character is its own trim. */
  lemma TrimUnchanged(s: string)
    requires s != [] ==> !IsSpace(s[0]) && !IsSpace(s[|s| - 1])
    ensures Trim(s) == s
  {
  }

  /** Trimming leaves the empty string exactly when every character is white space. */
  lemma TrimEmpty(s: string)
    ensures Trim(s) == [] <==> forall k :: 0 <= k < |s| ==> IsSpace(s[k])
  {
    TrimStartSuffix(s);
  }

  /** What `TrimStart` keeps is a suffix of its input. */
  lemma {:induction false} TrimStartSuffix(s: string)
    ensures TrimStart(s) == s[|s| - |TrimStart(s)|..]
    decreases |s|
  {
    if s != [] && IsSpace(s[0]) {
      TrimStartSuffix(s[1..]);
    }
  }

  /** White space before a non-space character is all `TrimStart` removes. */
  lemma {:induction false} TrimStartConcat(a: string, b: string)
    requires b != [] && !IsSpace(b[0])
    ensures TrimStart(a + b) == TrimStart(a) + b
    decreases |a|
  {
    if a == [] {
      assert a + b == b;
    } else {
      assert (a + b)[0] == a[0];
      if IsSpace(a[0]) {
        assert (a + b)[1..] == a[1..] + b;
        TrimStartConcat(a[1..], b);
      }
    }
  }

  /** White space after a non-space character is all `TrimEnd` removes. */
  lemma {:induction false} TrimEndConcat(a: string, b: string)
    requires a != [] && !IsSpace(a[|a| - 1])
    ensures TrimEnd(a + b) == a + TrimEnd(b)
    decreases |b|
  {
    if b == [] {
      assert a + b == a;
    } else {
      assert (a + b)[|a + b| - 1] == b[|b| - 1];
      if IsSpace(b[|b| - 1]) {
        assert (a + b)[..|a + b| - 1] == a + b[..|b| - 1];
        TrimEndConcat(a, b[..|b| - 1]);
      }
    }
  }

  /**
   * Trimming a text whose middle part starts and ends with a non-space
   * character trims only the parts around it.
   */
  lemma TrimAround(a: string, x: string, b: string)
    requires x != [] && !IsSpace(x[0]) && !IsSpace(x[|x| - 1])
    ensures Trim(a + x + b) == TrimStart(a) + x + TrimEnd(b)
  {
    assert a + x + b == a + (x + b);
    assert (x + b)[0] == x[0];
    TrimStartConcat(a, x + b);
    var t := TrimStart(a) + x;
    assert TrimStart(a) + (x + b) == t + b;
    assert t[|t| - 1] == x[|x| - 1];
    TrimEndConcat(t, b);
  }

  /**
   * `trim` removes exactly the white space at the two ends: what it keeps
   * sits in `s` between a prefix and a suffix made only of white space.
   */
  lemma TrimSplits(s: string)
    ensures var r := Trim(s); var i := |s| - |TrimStart(s)|;
      && i + |r| <= |s| && s[i..i + |r|] == r
      && (forall k :: 0 <= k < i ==> IsSpace(s[k]))
      && (forall k :: i + |r| <= k < |s| ==> IsSpace(s[k]))
  {
    var t := TrimStart(s);
    var r := TrimEnd(t);
    var i := |s| - |t|;
    TrimStartSuffix(s);
    assert t == s[i..];
    assert r == t[..|r|];
    assert s[i..i + |r|] == r;
    forall k | i + |r| <= k < |s| ensures IsSpace(s[k]) {
      assert s[k] == t[k - i];
      assert IsSpace(t[k - i]);
    }
  }

  /** Trimming twice is trimming once. */
  lemma TrimIdempotent(s: string)
    ensures Trim(Trim(s)) == Trim(s)
  {
    TrimUnchanged(Trim(s));
  }

  /** `s.substring(0, n)`. */
  function Take(s: string, n: nat): (r: string)
    ensures |r| <= n && r <= s
    ensures |s| <= n ==> r == s
  {
    if |s| <= n then s else s[..n]
  }

  /** `s.replace(/c/g, '')`: every `c` removed, the other characters kept in order. */
  function Without(s: string, c: char): (r: string)
    ensures c !in r && |r| <= |s|
    ensures c !in s ==> r == s
  {
    if s == [] then []
    else (if s[0] == c then [] else [s[0]]) + Without(s[1..], c)
  }

  /** Removing a character introduces no other character. */
  lemma {:induction false} WithoutSubset(s: string, c: char, d: char)
    ensures d in Without(s, c) ==> d in s
    decreases |s|
  {
    if s != [] {
      WithoutSubset(s[1..], c, d);
      if d in Without(s[1..], c) {
        assert s[1..] <= s[1..] && d in s[1..];
        var k :| 0 <= k < |s[1..]| && s[1..][k] == d;
        assert s[k + 1] == d;
      }
    }
  }

  /** Removing a character distributes over concatenation. */
  lemma {:induction false} WithoutAppend(a: string, b: string, c: char)
    ensures Without(a + b, c) == Without(a, c) + Without(b, c)
  {
    if a != [] {
      assert (a + b)[1..] == a[1..] + b;
      WithoutAppend(a[1..], b, c);
    } else {
      assert a + b == b;
    }
  }

  // ---------------------------------------------------------------- case

  /**
   * The case folding under which a case-insensitive regular expression
   * compares characters: ASCII letters and the Cyrillic letters of the
   * Mongolian alphabet (А-Я, Ѐ-Џ, Ү, Ө) map to lower case, and so do the
   * historic Cyrillic letter variants U+1C80-U+1C85, whose upper case is
   * В, Д, О, С or Т; everything else, digits and punctuation included, is
   * left alone.
   */
  function Fold(c: char): char {
    if c == '\U{1C80}' then 'в'
    else if c == '\U{1C81}' then 'д'
    else if c == '\U{1C82}' then 'о'
    else if c == '\U{1C83}' then 'с'
    else if c == '\U{1C84}' || c == '\U{1C85}' then 'т'
    else LowerChar(c)
  }

  /** `toLowerCase` of one character, for ASCII and the Mongolian Cyrillic alphabet. */
  function LowerChar(c: char): char {
    if 'A' <= c <= 'Z' then (c as int + 32) as char
    else if '\U{0410}' <= c <= '\U{042F}' then (c as int + 32) as char
    else if '\U{0400}' <= c <= '\U{040F}' then (c as int + 80) as char
    else if c == '\U{04AE}' then '\U{04AF}'
    else if c == '\U{04E8}' then '\U{04E9}'
    else c
  }

  /** `toLowerCase` over the characters `LowerChar` covers. */
  function Lower(s: string): (r: string)
    ensures |r| == |s|
    ensures forall k :: 0 <= k < |s| ==> r[k] == LowerChar(s[k])
  {
    seq(|s|, k requires 0 <= k < |s| => LowerChar(s[k]))
  }

  /** `toUpperCase` of an ASCII character. */
  function UpperAscii(c: char): char {
    if 'a' <= c <= 'z' then (c as int - 32) as char else c
  }

  function ToUpperAscii(s: string): (r: string)
    ensures |r| == |s|
    ensures forall k :: 0 <= k < |s| ==> r[k] == UpperAscii(s[k])
  {
    seq(|s|, k requires 0 <= k < |s| => UpperAscii(s[k]))
  }

  /**
   * The literal `w`, written in lower case, occurs at position `i` of `s`
   * under case-insensitive comparison.
   */
  predicate MatchesAt(s: string, i: nat, w: string) {
    i + |w| <= |s| && forall k :: 0 <= k < |w| ==> Fold(s[i + k]) == w[k]
  }

  /** The first position at or after `i` whose character is not white space. */
  function SkipSpaces(s: string, i: nat): (j: nat)
    requires i <= |s|
    ensures i <= j <= |s|
    ensures forall k {:trigger IsSpace(s[k])} :: i <= k < j ==> IsSpace(s[k])
    ensures j == |s| || !IsSpace(s[j])
    decreases |s| - i
  {
    if i < |s| && IsSpace(s[i]) then SkipSpaces(s, i + 1) else i
  }

  // ---------------------------------------------------------------- split

  /** The first index of `c` in `s`. */
  function IndexOf(s: string, c: char): (r: Option<nat>)
    ensures r.Some? ==> r.value < |s| && s[r.value] == c && c !in s[..r.value]
    ensures r.None? ==> c !in s
    decreases |s|
  {
    if s == [] then None
    else if s[0] == c then Some(0)
    else match IndexOf(s[1..], c)
      case None => None
      case Some(k) => assert s[..k + 1] == [s[0]] + s[1..][..k]; Some(k + 1)
  }

  /** The first `c` in `a + [c] + b` is the one after `a` when `a` holds none. */
  lemma IndexOfAfter(a: string, c: char, b: string)
    requires c !in a
    ensures IndexOf(a + [c] + b, c) == Some(|a|)
  {
    var s := a + [c] + b;
    assert s[|a|] == c;
    assert s[..|a|] == a;
  }

  /** `parts.join(sep)`. */
  function Join(parts: seq<string>, sep: char): string
    requires |parts| >= 1
  {
    if |parts| == 1 then parts[0] else parts[0] + [sep] + Join(parts[1..], sep)
  }

  /** `s.split(sep)` for a one-character separator: the pieces between separators, in order. */
  function Split(s: string, sep: char): (parts: seq<string>)
    ensures |parts| >= 1
    ensures forall p :: p in parts ==> sep !in p
    ensures Join(parts, sep) == s
    decreases |s|
  {
    match IndexOf(s, sep)
    case None => [s]
    case Some(k) =>
      var rest := Split(s[k + 1..], sep);
      assert s == s[..k] + [sep] + s[k + 1..];
      [s[..k]] + rest
  }

  /** Splitting a joined list gives the list back when no piece holds the separator. */
  lemma {:induction false} SplitJoin(parts: seq<string>, sep: char)
    requires |parts| >= 1
    requires forall p :: p in parts ==> sep !in p
    ensures Split(Join(parts, sep), sep) == parts
    decreases |parts|
  {
    var s := Join(parts, sep);
    assert parts[0] in parts;
    if |parts| == 1 {
      assert IndexOf(s, sep) == None;
    } else {
      var tail := Join(parts[1..], sep);
      assert s == parts[0] + [sep] + tail;
      IndexOfAfter(parts[0], sep, tail);
      var k := |parts[0]|;
      assert s[..k] == parts[0];
      assert s[k + 1..] == tail;
      assert Split(s, sep) == [parts[0]] + Split(tail, sep);
      forall p | p in parts[1..] ensures sep !in p {
        assert p in parts;
      }
      SplitJoin(parts[1..], sep);
      assert [parts[0]] + parts[1..] == parts;
    }
  }

  // ---------------------------------------------------------------- numbers

  /** A digit of radix 10 or 16 (either case for the letters). */
  predicate IsRadixDigit(c: char, radix: nat) {
    IsDigit(c) || (radix == 16 && (('a' <= c <= 'f') || ('A' <= c <= 'F')))
  }

  function RadixDigitValue(c: char, radix: nat): (v: nat)
    requires radix == 10 || radix == 16
    requires IsRadixDigit(c, radix)
    ensures v < radix
  {
    if IsDigit(c) then c as int - '0' as int
    else if 'a' <= c <= 'f' then c as int - 'a' as int + 10
    else c as int - 'A' as int + 10
  }

  predicate AllDigits(s: string, radix: nat) {
    forall k :: 0 <= k < |s| ==> IsRadixDigit(s[k], radix)
  }

  /** Two strings of digits make one. */
  lemma AllDigitsAppend(a: string, b: string, radix: nat)
    ensures AllDigits(a + b, radix) <==> AllDigits(a, radix) && AllDigits(b, radix)
  {
    if AllDigits(a + b, radix) {
      forall k | 0 <= k < |a| ensures IsRadixDigit(a[k], radix) {
        assert (a + b)[k] == a[k];
      }
      forall k | 0 <= k < |b| ensures IsRadixDigit(b[k], radix) {
        assert (a + b)[|a| + k] == b[k];
      }
    }
    if AllDigits(a, radix) && AllDigits(b, radix) {
      forall k | 0 <= k < |a + b| ensures IsRadixDigit((a + b)[k], radix) {
        if k < |a| {
          assert (a + b)[k] == a[k];
        } else {
          assert (a + b)[k] == b[k - |a|];
        }
      }
    }
  }

  /** The length of the longest run of radix digits starting at `i`. */
  function DigitRun(s: string, i: nat, radix: nat): (n: nat)
    requires i <= |s|
    ensures i + n <= |s|
    ensures forall k {:trigger IsRadixDigit(s[k], radix)} :: i <= k < i + n ==> IsRadixDigit(s[k], radix)
    ensures i + n == |s| || !IsRadixDigit(s[i + n], radix)
    decreases |s| - i
  {
    if i < |s| && IsRadixDigit(s[i], radix) then 1 + DigitRun(s, i + 1, radix) else 0
  }

  /** A run of digits from `i` that ends at `j` is the whole run. */
  lemma DigitRunExact(s: string, i: nat, j: nat, radix: nat)
    requires i <= j <= |s|
    requires forall k :: i <= k < j ==> IsRadixDigit(s[k], radix)
    requires j == |s| || !IsRadixDigit(s[j], radix)
    ensures DigitRun(s, i, radix) == j - i
  {
  }

  /** The value of a numeral, most significant digit first. */
  function DigitsValue(ds: string, radix: nat): nat
    requires radix == 10 || radix == 16
    requires AllDigits(ds, radix)
    decreases |ds|
  {
    if ds == [] then 0
    else radix * DigitsValue(ds[..|ds| - 1], radix) + RadixDigitValue(ds[|ds| - 1], radix)
  }

  function Pow10(n: nat): (p: nat)
    ensures p >= 1
  {
    if n == 0 then 1 else 10 * Pow10(n - 1)
  }

  /** The decimal numeral of `n`, without leading zeros. */
  function Decimal(n: nat): (r: string)
    ensures |r| >= 1 && AllDigits(r, 10)
    ensures r[0] == '0' ==> n == 0
    decreases n
  {
    var last := ['0' + (n % 10) as char];
    if n < 10 then last else Decimal(n / 10) + last
  }

  /** A numeral denotes the number it was printed from. */
  lemma {:induction false} DecimalValue(n: nat)
    ensures DigitsValue(Decimal(n), 10) == n
    decreases n
  {
    if n >= 10 {
      var r := Decimal(n);
      assert r[..|r| - 1] == Decimal(n / 10);
      DecimalValue(n / 10);
    }
  }

  /** The sign handling `parseInt` and `parseFloat` share: optional `-` or `+`. */
  function SignOf(t: string): (r: (bool, string))
    ensures r.1 == t || (t != [] && r.1 == t[1..])
  {
    if t != [] && t[0] == '-' then (true, t[1..])
    else if t != [] && t[0] == '+' then (false, t[1..])
    else (false, t)
  }

  /** A sign applied to a magnitude that may be `NaN`. */
  function Signed(negative: bool, magnitude: Option<int>): Option<int> {
    match magnitude
    case None => None
    case Some(m) => Some(if negative then -m else m)
  }

  /** `parseInt` after the sign: a `0x`/`0X` prefix selects hexadecimal. */
  function UnsignedInt(u: string): (r: Option<int>)
    ensures r.Some? ==> r.value >= 0
  {
    if |u| >= 2 && u[0] == '0' && (u[1] == 'x' || u[1] == 'X') then
      var h := DigitRun(u, 2, 16);
      if h == 0 then None else Some(DigitsValue(u[2..2 + h], 16))
    else
      var d := DigitRun(u, 0, 10);
      if d == 0 then None else Some(DigitsValue(u[..d], 10))
  }

  /**
   * `parseInt(s)` with no radix: leading white space and a sign are skipped,
   * then the longest run of digits is read. No digit at all gives `NaN`,
   * written `None`.
   */
  function ParseInt(s: string): Option<int> {
    var t := TrimStart(s);
    Signed(SignOf(t).0, UnsignedInt(SignOf(t).1))
  }

  /** The value of the digits after a decimal point. */
  function FractionValue(cs: string): (v: real)
    requires AllDigits(cs, 10)
    ensures v >= 0.0
  {
    DigitsValue(cs, 10) as real / Pow10(|cs|) as real
  }

  /** A JavaScript number as `parseFloat` returns it: finite, an infinity, or `NaN`. */
  datatype Float = Finite(value: real) | Infinite(negative: bool) | NaN

  /** `m` times ten to the power `e`, for an exponent of either sign. */
  function Scale(m: real, e: int): (r: real)
    ensures m >= 0.0 ==> r >= 0.0
    ensures e == 0 ==> r == m
  {
    if e >= 0 then m * Pow10(e) as real else m / Pow10(-e) as real
  }

  /**
   * The exponent part `[eE][+-]?digits` at `i`, read only when at least one
   * digit follows the letter and the sign; 0 when there is none.
   */
  function ExponentAt(u: string, i: nat): (e: int)
    requires i <= |u|
    ensures i == |u| ==> e == 0
  {
    if i < |u| && (u[i] == 'e' || u[i] == 'E') then
      var signed := i + 1 < |u| && (u[i + 1] == '-' || u[i + 1] == '+');
      var j := if signed then i + 2 else i + 1;
      var n := DigitRun(u, j, 10);
      if n == 0 then 0
      else if signed && u[i + 1] == '-' then -(DigitsValue(u[j..j + n], 10) as int)
      else DigitsValue(u[j..j + n], 10)
    else 0
  }

  /**
   * `parseFloat` after the sign: digits, optionally a point and more digits,
   * one digit at least, then an optional exponent.
   */
  function UnsignedFloat(u: string): (r: Option<real>)
    ensures r.Some? ==> r.value >= 0.0
  {
    var d1 := DigitRun(u, 0, 10);
    var hasPoint := d1 < |u| && u[d1] == '.';
    var d2 := if hasPoint then DigitRun(u, d1 + 1, 10) else 0;
    var cs := if hasPoint then u[d1 + 1..d1 + 1 + d2] else "";
    var end := if hasPoint then d1 + 1 + d2 else d1;
    if d1 + d2 == 0 then None
    else Some(Scale(DigitsValue(u[..d1], 10) as real + FractionValue(cs), ExponentAt(u, end)))
  }

  /** The word `parseFloat` reads as an infinity. */
  const InfinityWord: string := "Infinity"

  /**
   * `parseFloat(s)`: leading white space and a sign are skipped; then
   * `Infinity`, or else the longest decimal prefix, is read. No digit gives
   * `NaN`.
   */
  function ParseFloat(s: string): Float {
    var t := TrimStart(s);
    var negative := SignOf(t).0;
    var u := SignOf(t).1;
    if InfinityWord <= u then Infinite(negative)
    else match UnsignedFloat(u)
      case None => NaN
      case Some(v) => Finite(if negative then -v else v)
  }

  /** Only a text holding the letter `I` reads as an infinity. */
  lemma ParseFloatInfinite(s: string)
    ensures ParseFloat(s).Infinite? ==> 'I' in s
  {
    var t := TrimStart(s);
    var u := SignOf(t).1;
    if InfinityWord <= u {
      TrimStartSuffix(s);
      assert u[0] == 'I';
      if u == t {
        assert s[|s| - |t|] == 'I';
      } else {
        assert s[|s| - |t| + 1] == 'I';
      }
    }
  }

  /** The decimal form of an integer, with a `-` when negative. */
  function IntString(n: int): string {
    if n < 0 then "-" + Decimal(-n) else Decimal(n)
  }

  /** A string that does not start with white space is its own `TrimStart`. */
  lemma TrimStartNoSpace(s: string)
    requires s != [] && !IsSpace(s[0])
    ensures TrimStart(s) == s
  {
  }

  /** A whole run of decimal digits is read as the number it denotes. */
  lemma UnsignedIntDecimal(ds: string)
    requires |ds| >= 1 && AllDigits(ds, 10)
    ensures UnsignedInt(ds) == Some(DigitsValue(ds, 10) as int)
  {
    assert !(|ds| >= 2 && ds[0] == '0' && (ds[1] == 'x' || ds[1] == 'X')) by {
      if |ds| >= 2 { assert IsRadixDigit(ds[1], 10); }
    }
    DigitRunExact(ds, 0, |ds|, 10);
    assert ds[..|ds|] == ds;
  }

  /** `parseInt` reads back every integer's decimal form. */
  lemma ParseIntString(n: int)
    ensures ParseInt(IntString(n)) == Some(n)
  {
    if n < 0 {
      ParseIntNegative(-n);
    } else {
      ParseIntDecimal(n);
    }
  }

  /** `parseInt` reads a numeral back as the number it was printed from. */
  lemma ParseIntDecimal(m: nat)
    ensures ParseInt(Decimal(m)) == Some(m)
  {
    var ds := Decimal(m);
    DecimalValue(m);
    UnsignedIntDecimal(ds);
    assert IsRadixDigit(ds[0], 10);
    TrimStartNoSpace(ds);
    assert SignOf(ds).1 == ds;
  }

  /** `parseInt` reads a minus sign and a numeral back as the negated number. */
  lemma ParseIntNegative(m: nat)
    ensures ParseInt("-" + Decimal(m)) == Some(-(m as int))
  {
    var ds := Decimal(m);
    var s := "-" + ds;
    DecimalValue(m);
    UnsignedIntDecimal(ds);
    TrimStartNoSpace(s);
    assert s[1..] == ds;
    assert SignOf(s) == (true, ds);
  }

  /** The digit run of a numeral followed by a non-digit is the numeral. */
  lemma {:induction false} DigitRunStops(a: string, c: char, b: string, i: nat, radix: nat)
    requires i <= |a| && AllDigits(a, radix) && !IsRadixDigit(c, radix)
    ensures DigitRun(a + [c] + b, i, radix) == |a| - i
    decreases |a| - i
  {
    if i < |a| {
      assert (a + [c] + b)[i] == a[i];
      DigitRunStops(a, c, b, i + 1, radix);
    } else {
      assert (a + [c] + b)[i] == c;
    }
  }

  /** The digit run of a numeral at the end of a string is the numeral. */
  lemma {:induction false} DigitRunToEnd(p: string, a: string, i: nat, radix: nat)
    requires i <= |a| && AllDigits(a, radix)
    ensures DigitRun(p + a, |p| + i, radix) == |a| - i
    decreases |a| - i
  {
    if i < |a| {
      assert (p + a)[|p| + i] == a[i];
      DigitRunToEnd(p, a, i + 1, radix);
    }
  }

  /** `UnsignedFloat` spelled out for a string that ends with a point and a second digit run. */
  lemma {:induction false} UnsignedFloatPoint(u: string, d1: nat, d2: nat)
    requires 1 <= d1 < |u| && u[d1] == '.' && DigitRun(u, 0, 10) == d1
    requires d1 + 1 + d2 == |u| && DigitRun(u, d1 + 1, 10) == d2
    requires AllDigits(u[..d1], 10) && AllDigits(u[d1 + 1..d1 + 1 + d2], 10)
    ensures UnsignedFloat(u)
         == Some(DigitsValue(u[..d1], 10) as real + FractionValue(u[d1 + 1..d1 + 1 + d2]))
  {
  }

  /** A digit run, a point and a second digit run are read as a decimal number. */
  lemma {:induction false} UnsignedFloatDecimal(ds: string, cs: string)
    requires |ds| >= 1 && AllDigits(ds, 10) && AllDigits(cs, 10)
    ensures UnsignedFloat(ds + "." + cs) == Some(DigitsValue(ds, 10) as real + FractionValue(cs))
  {
    DigitRunStops(ds, '.', cs, 0, 10);
    DigitRunToEnd(ds + ".", cs, 0, 10);
    assert (ds + "." + cs)[|ds|] == '.';
    assert (ds + "." + cs)[..|ds|] == ds;
    assert (ds + "." + cs)[|ds| + 1..|ds| + 1 + |cs|] == cs;
    UnsignedFloatPoint(ds + "." + cs, |ds|, |cs|);
  }

  /** A digit run alone is read as a whole number. */
  lemma UnsignedFloatWhole(ds: string)
    requires |ds| >= 1 && AllDigits(ds, 10)
    ensures UnsignedFloat(ds) == Some(DigitsValue(ds, 10) as real)
  {
    DigitRunExact(ds, 0, |ds|, 10);
    assert ds[..|ds|] == ds;
    assert FractionValue("") == 0.0;
  }

  /** A text that starts with a digit does not start with `Infinity`. */
  lemma NotInfinityWord(u: string)
    requires u != [] && IsDigit(u[0])
    ensures !(InfinityWord <= u)
  {
    assert InfinityWord[0] == 'I';
  }

  /** A text that starts with a digit is read by `UnsignedFloat` alone, and is finite. */
  lemma ParseFloatDigitFirst(u: string, v: real)
    requires u != [] && IsDigit(u[0]) && UnsignedFloat(u) == Some(v)
    ensures ParseFloat(u) == Finite(v)
  {
    TrimStartNoSpace(u);
    NotInfinityWord(u);
  }

  /** `parseFloat` reads a run of digits as the whole number it denotes. */
  lemma ParseFloatWhole(ds: string)
    requires |ds| >= 1 && AllDigits(ds, 10)
    ensures ParseFloat(ds) == Finite(DigitsValue(ds, 10) as real)
  {
    assert IsRadixDigit(ds[0], 10);
    UnsignedFloatWhole(ds);
    ParseFloatDigitFirst(ds, DigitsValue(ds, 10) as real);
  }

  /** `parseFloat` reads `ds.cs` as the decimal number it denotes. */
  lemma {:induction false} ParseFloatFraction(ds: string, cs: string)
    requires |ds| >= 1 && AllDigits(ds, 10) && AllDigits(cs, 10)
    ensures ParseFloat(ds + ("." + cs)) == Finite(DigitsValue(ds, 10) as real + FractionValue(cs))
  {
    var u := ds + "." + cs;
    assert ds + ("." + cs) == u;
    assert IsRadixDigit(ds[0], 10);
    assert u[0] == ds[0];
    UnsignedFloatDecimal(ds, cs);
    ParseFloatDigitFirst(u, DigitsValue(ds, 10) as real + FractionValue(cs));
  }

  /** Digits, `e` and more digits are read by `UnsignedFloat` as a scaled whole number. */
  lemma {:induction false} UnsignedFloatExponent(ds: string, es: string)
    requires |ds| >= 1 && AllDigits(ds, 10) && |es| >= 1 && AllDigits(es, 10)
    ensures UnsignedFloat(ds + "e" + es) == Some(Scale(DigitsValue(ds, 10) as real, DigitsValue(es, 10)))
  {
    var u := ds + "e" + es;
    DigitRunStops(ds, 'e', es, 0, 10);
    DigitRunToEnd(ds + ['e'], es, 0, 10);
    assert u == (ds + ['e']) + es;
    assert u[|ds|] == 'e';
    assert u[..|ds|] == ds;
    assert u[|ds| + 1..|ds| + 1 + |es|] == es;
    assert IsRadixDigit(es[0], 10);
    assert ExponentAt(u, |ds|) == DigitsValue(es, 10);
    assert FractionValue("") == 0.0;
  }

  /**
   * `parseFloat` reads an exponent: digits, `e` and more digits are the
   * first number scaled by ten to the power of the second.
   */
  lemma {:induction false} ParseFloatExponent(ds: string, es: string)
    requires |ds| >= 1 && AllDigits(ds, 10) && |es| >= 1 && AllDigits(es, 10)
    ensures ParseFloat(ds + "e" + es)
         == Finite(Scale(DigitsValue(ds, 10) as real, DigitsValue(es, 10)))
  {
    var u := ds + "e" + es;
    assert IsRadixDigit(ds[0], 10);
    assert u[0] == ds[0];
    var m, e := DigitsValue(ds, 10) as real, DigitsValue(es, 10);
    UnsignedFloatExponent(ds, es);
    ParseFloatDigitFirst(u, Scale(m, e));
  }

  /** `parseFloat` reads `Infinity` and `-Infinity` as the two infinities. */
  lemma ParseFloatInfinity()
    ensures ParseFloat(InfinityWord) == Infinite(false)
    ensures ParseFloat("-" + InfinityWord) == Infinite(true)
  {
    TrimStartNoSpace(InfinityWord);
    TrimStartNoSpace("-" + InfinityWord);
    assert ("-" + InfinityWord)[1..] == InfinityWord;
  }

  // ---------------------------------------------------------------- UTF-16

  /** The UTF-16 code units a character takes: two above U+FFFF. */
  function Utf16Units(c: char): (n: nat)
    ensures 1 <= n <= 2
  {
    if c as int > 0xFFFF then 2 else 1
  }

  /** `s.length` in JavaScript: the number of UTF-16 code units. */
  function Utf16Length(s: string): (n: nat)
    ensures |s| <= n <= 2 * |s|
  {
    if s == [] then 0 else Utf16Length(s[..|s| - 1]) + Utf16Units(s[|s| - 1])
  }

  /**
   * `s.substring(0, n)` on whole characters: the longest prefix of at most
   * `n` code units.
   */
  function TakeUnits(s: string, n: nat): (r: string)
    ensures r <= s && Utf16Length(r) <= n
    ensures r == s || Utf16Length(r) + Utf16Units(s[|r|]) > n
    ensures Utf16Length(s) <= n ==> r == s
    decreases |s|
  {
    if Utf16Length(s) <= n then s else TakeUnits(s[..|s| - 1], n)
  }
}

=== FILE: order.dfy ===
/**
 * An order as stored: its lines and totals, the promotion applied, the
 * delivery status, and the payment fields used to match a bank transfer to
 * the order (the payment code the customer quotes, the payment status and
 * the details read from the bank's notification).
 */
module Orders {
  import opened Wrappers

  /** `deliveryStatus`. */
  datatype DeliveryStatus = Processing | Shipped | Delivering | Delivered

  function DeliveryStatusName(s: DeliveryStatus): string {
    match s
    case Processing => "Processing"
    case Shipped => "Shipped"
    case Delivering => "Delivering"
    case Delivered => "Delivered"
  }

  /** The enumeration check on `deliveryStatus`; an absent value takes the default `Processing`. */
  function DeliveryStatusOf(v: Option<string>): (r: Option<DeliveryStatus>)
    ensures v.None? ==> r == Some(Processing)
    ensures v.Some? ==> (r.Some? <==> v.value in {"Processing", "Shipped", "Delivering", "Delivered"})
    ensures v.Some? && r.Some? ==> DeliveryStatusName(r.value) == v.value
  {
    match v
    case None => Some(Processing)
    case Some(s) =>
      if s == "Processing" then Some(Processing)
      else if s == "Shipped" then Some(Shipped)
      else if s == "Delivering" then Some(Delivering)
      else if s == "Delivered" then Some(Delivered)
      else None
  }

  /** `paymentStatus`. */
  datatype PaymentStatus = Pending | Paid | Failed | Refunded

  function PaymentStatusName(s: PaymentStatus): string {
    match s
    case Pending => "pending"
    case Paid => "paid"
    case Failed => "failed"
    case Refunded => "refunded"
  }

  /** The enumeration check on `paymentStatus`; an absent value takes the default `pending`. */
  function PaymentStatusOf(v: Option<string>): (r: Option<PaymentStatus>)
    ensures v.None? ==> r == Some(Pending)
    ensures v.Some? ==> (r.Some? <==> v.value in {"pending", "paid", "failed", "refunded"})
    ensures v.Some? && r.Some? ==> PaymentStatusName(r.value) == v.value
  {
    match v
    case None => Some(Pending)
    case Some(s) =>
      if s == "pending" then Some(Pending)
      else if s == "paid" then Some(Paid)
      else if s == "failed" then Some(Failed)
      else if s == "refunded" then Some(Refunded)
      else None
  }

  /** Every status is accepted back under its own name, and no two statuses share a name. */
  lemma OrderEnumRoundTrip(d: DeliveryStatus, p: PaymentStatus)
    ensures DeliveryStatusOf(Some(DeliveryStatusName(d))) == Some(d)
    ensures PaymentStatusOf(Some(PaymentStatusName(p))) == Some(p)
  {
  }

  /** One line of `products`. Every field is optional in the schema. */
  datatype OrderLine = OrderLine(productId: Option<nat>, name: Option<string>, price: Option<real>, quantity: Option<real>)

  /** `promoCode`. */
  datatype PromoCode = PromoCode(code: Option<string>, discountAmount: real, promoCodeId: Option<nat>)

  /**
   * `paymentDetails`: how the order was paid (`method`, here `methodName`), with what was read from the
   * bank's notification (the code quoted in the transfer's description, the
   * amount, the bank and the raw text) and whether the match was made
   * automatically or by hand, and by whom. Times are milliseconds since the
   * epoch.
   */
  datatype PaymentDetails = PaymentDetails(
    methodName: Option<string>,
    transactionId: Option<string>,
    amount: Option<real>,
    paymentCode: Option<string>,
    senderName: Option<string>,
    bankName: Option<string>,
    receivedAt: Option<int>,
    rawSMS: Option<string>,
    verifiedAutomatically: Option<bool>,
    manuallyMatched: Option<bool>,
    matchedBy: Option<nat>)

  /** An order as stored. Object ids are modelled as numbers. */
  datatype Order = Order(
    userId: nat,
    products: seq<OrderLine>,
    subtotal: real,
    promoCode: PromoCode,
    totalAmount: Option<real>,
    orderDate: int,
    deliveryStatus: DeliveryStatus,
    estimatedDeliveryDate: Option<int>,
    trackingNumber: Option<string>,
    paymentCode: Option<string>,
    paymentStatus: PaymentStatus,
    paymentDetails: Option<PaymentDetails>)

  /** Why an order is refused. */
  datatype OrderRefusal = MissingField(field: string) | BadEnum(field: string) | DuplicatePaymentCode

  /** The fields of `new Order({...})` a caller may supply. */
  datatype OrderForm = OrderForm(
    userId: Option<nat>,
    products: seq<OrderLine>,
    subtotal: Option<real>,
    promoCode: Option<string>,
    discountAmount: Option<real>,
    promoCodeId: Option<nat>,
    totalAmount: Option<real>,
    orderDate: Option<int>,
    deliveryStatus: Option<string>,
    estimatedDeliveryDate: Option<int>,
    trackingNumber: Option<string>,
    paymentCode: Option<string>,
    paymentStatus: Option<string>,
    paymentDetails: Option<PaymentDetails>)

  /**
   * Validating `new Order({...})` at time `now`: `userId` and `subtotal` are
   * required, the two statuses must be in their enumerations, and absent
   * fields take their defaults (no discount, `Processing`, `pending`, the
   * order date `now` unless one is supplied).
   */
  function NewOrder(form: OrderForm, now: int): (r: Result<Order, OrderRefusal>)
    ensures r.Ok? <==> (form.userId.Some? && form.subtotal.Some?
      && DeliveryStatusOf(form.deliveryStatus).Some? && PaymentStatusOf(form.paymentStatus).Some?)
    ensures r.Ok? ==> (r.value.userId == form.userId.value && r.value.subtotal == form.subtotal.value
      && r.value.orderDate == (if form.orderDate.Some? then form.orderDate.value else now)
      && r.value.paymentCode == form.paymentCode
      && r.value.estimatedDeliveryDate == form.estimatedDeliveryDate
      && r.value.trackingNumber == form.trackingNumber
      && Some(r.value.deliveryStatus) == DeliveryStatusOf(form.deliveryStatus)
      && Some(r.value.paymentStatus) == PaymentStatusOf(form.paymentStatus))
    ensures r.Ok? && form.discountAmount.None? ==> r.value.promoCode.discountAmount == 0.0
    ensures r.Ok? && form.discountAmount.Some? ==> r.value.promoCode.discountAmount == form.discountAmount.value
  {
    if form.userId.None? then Err(MissingField("userId"))
    else if form.subtotal.None? then Err(MissingField("subtotal"))
    else match (DeliveryStatusOf(form.deliveryStatus), PaymentStatusOf(form.paymentStatus))
      case (None, _) => Err(BadEnum("deliveryStatus"))
      case (_, None) => Err(BadEnum("paymentStatus"))
      case (Some(d), Some(p)) =>
        var discount := match form.discountAmount case None => 0.0 case Some(x) => x;
        var date := if form.orderDate.Some? then form.orderDate.value else now;
        Ok(Order(form.userId.value, form.products, form.subtotal.value,
          PromoCode(form.promoCode, discount, form.promoCodeId), form.totalAmount, date, d,
          form.estimatedDeliveryDate, form.trackingNumber, form.paymentCode, p, form.paymentDetails))
  }

  /** An order created with only its required fields starts unpaid, in processing, with no code and no discount. */
  lemma NewOrderDefaults(userId: nat, subtotal: real, now: int)
    ensures var r := NewOrder(OrderForm(Some(userId), [], Some(subtotal), None, None, None, None, None, None, None, None, None, None, None), now);
      && r.Ok? && r.value.paymentStatus == Pending && r.value.deliveryStatus == Processing
      && r.value.paymentCode.None? && r.value.promoCode.discountAmount == 0.0 && r.value.paymentDetails.None?
      && r.value.estimatedDeliveryDate.None? && r.value.trackingNumber.None? && r.value.orderDate == now
  {
  }

  /**
   * The sparse unique index on `paymentCode`: orders without a code are
   * not indexed, and no two orders with a code share it.
   */
  predicate UniquePaymentCodes(orders: seq<Order>) {
    forall i, j :: 0 <= i < j < |orders| && orders[i].paymentCode.Some? ==>
      orders[i].paymentCode != orders[j].paymentCode
  }

  /** Whether some stored order carries `code`. */
  predicate PaymentCodeTaken(orders: seq<Order>, code: string) {
    exists i :: 0 <= i < |orders| && orders[i].paymentCode == Some(code)
  }

  /** Inserting an order under the sparse unique index. */
  function InsertOrder(orders: seq<Order>, o: Order): (r: Result<seq<Order>, OrderRefusal>)
    ensures r.Ok? <==> (o.paymentCode.None? || !PaymentCodeTaken(orders, o.paymentCode.value))
    ensures r.Ok? ==> r.value == orders + [o]
    ensures r.Err? ==> r.error == DuplicatePaymentCode
  {
    if o.paymentCode.Some? && PaymentCodeTaken(orders, o.paymentCode.value) then Err(DuplicatePaymentCode)
    else Ok(orders + [o])
  }

  /**
   * The index's guarantee: appending to a set of orders that respects the
   * index keeps it respected exactly when the insertion is accepted.
   */
  lemma InsertKeepsUnique(orders: seq<Order>, o: Order)
    requires UniquePaymentCodes(orders)
    ensures InsertOrder(orders, o).Ok? <==> UniquePaymentCodes(orders + [o])
  {
    var m := orders + [o];
    if InsertOrder(orders, o).Ok? {
      forall i, j | 0 <= i < j < |m| && m[i].paymentCode.Some?
        ensures m[i].paymentCode != m[j].paymentCode
      {
        assert m[i] == orders[i];
        if j == |orders| {
          assert m[j] == o;
        } else {
          assert m[j] == orders[j];
        }
      }
    } else {
      var i :| 0 <= i < |orders| && orders[i].paymentCode == o.paymentCode;
      assert m[i] == orders[i] && m[|orders|] == o;
    }
  }

  /** Any number of orders without a payment code may be stored: the index ignores them. */
  lemma UncodedAlwaysInserted(orders: seq<Order>, o: Order)
    requires o.paymentCode.None?
    ensures InsertOrder(orders, o).Ok?
  {
  }

  /** The order a payment code identifies, if a stored order carries it. */
  function OrderWithCode(orders: seq<Order>, code: string): (r: Option<nat>)
    ensures r.Some? ==> r.value < |orders| && orders[r.value].paymentCode == Some(code)
    ensures r.None? <==> !PaymentCodeTaken(orders, code)
  {
    if orders == [] then None
    else if orders[|orders| - 1].paymentCode == Some(code) then Some(|orders| - 1)
    else
      OrderWithCode(orders[..|orders| - 1], code)
  }

  /** Under the index a code names at most one order: the one `OrderWithCode` finds. */
  lemma CodeIdentifiesOrder(orders: seq<Order>, code: string, i: nat)
    requires UniquePaymentCodes(orders) && i < |orders| && orders[i].paymentCode == Some(code)
    ensures OrderWithCode(orders, code) == Some(i)
  {
    var k := OrderWithCode(orders, code).value;
    assert orders[k].paymentCode == orders[i].paymentCode;
  }
}

=== FILE: payment_log.dfy ===
/**
 * The payment log: one entry per bank notification received, holding the
 * sender, the text, what the parser read from it, and whether (and how) it
 * was matched to an order.
 */
module PaymentLogs {
  import opened Wrappers
  import SmsParser

  /** `parsed`: the parser's record without the raw text and the sender. */
  datatype Parsed = Parsed(
    amount: Option<real>,
    paymentCode: Option<string>,
    bankName: Option<string>,
    date: Option<string>,
    isIncoming: Option<bool>,
    isValid: Option<bool>)

  /** The `parsed` sub-record stored for a parser result. */
  function ParsedOf(p: SmsParser.Payment): (r: Parsed)
    ensures r.isIncoming == Some(p.isIncoming) && r.isValid == Some(p.isValid)
    ensures r.amount == p.amount && r.paymentCode == p.paymentCode
    ensures r.bankName == p.bankName && r.date == p.date
  {
    Parsed(p.amount, p.paymentCode, p.bankName, p.date, Some(p.isIncoming), Some(p.isValid))
  }

  /** A stored `parsed` sub-record put back together with the raw text and the sender. */
  function PaymentOf(d: Parsed, rawMessage: Option<string>, from: string): SmsParser.Payment
    requires d.isIncoming.Some? && d.isValid.Some?
  {
    SmsParser.Payment(d.isValid.value, d.isIncoming.value, d.amount, d.paymentCode, d.bankName, d.date,
      rawMessage, from)
  }

  /** Storing a parser result loses nothing but the raw text and the sender, which the entry keeps beside it. */
  lemma ParsedRoundTrip(p: SmsParser.Payment)
    ensures PaymentOf(ParsedOf(p), p.rawMessage, p.from) == p
  {
  }

  /** A log entry. Times are milliseconds since the epoch; object ids are numbers. */
  datatype Entry = Entry(
    from: string,
    message: string,
    timestamp: int,
    parsed: Option<Parsed>,
    matched: bool,
    matchedOrderId: Option<nat>,
    matchedAutomatically: bool,
    matchedBy: Option<nat>)

  /** Why an entry is refused: a required field is missing or empty. */
  datatype LogRefusal = MissingField(field: string)

  /**
   * Validating `new PaymentLog({...})` at time `now`: the sender and the
   * text are required (an empty string does not count), and the entry
   * starts unmatched, with no order and no one who matched it.
   */
  function NewEntry(from: Option<string>, message: Option<string>, parsed: Option<Parsed>, now: int)
    : (r: Result<Entry, LogRefusal>)
    ensures r.Ok? <==> from.Some? && from.value != [] && message.Some? && message.value != []
    ensures r.Ok? ==> (r.value.from == from.value && r.value.message == message.value
      && r.value.parsed == parsed && r.value.timestamp == now)
    ensures r.Ok? ==> (!r.value.matched && !r.value.matchedAutomatically
      && r.value.matchedOrderId.None? && r.value.matchedBy.None?)
    ensures from.None? || from.value == [] ==> r == Err(MissingField("from"))
  {
    if from.None? || from.value == [] then Err(MissingField("from"))
    else if message.None? || message.value == [] then Err(MissingField("message"))
    else Ok(Entry(from.value, message.value, now, parsed, false, None, false, None))
  }

  /**
   * Logging a notification together with what the parser read from it: the
   * entry is accepted for any non-empty sender and text, and the parser's
   * record can be read back from it.
   */
  lemma LoggedNotification(from: string, message: string, now: int)
    requires from != [] && message != []
    ensures var r := NewEntry(Some(from), Some(message), Some(ParsedOf(SmsParser.Parse(Some(message), from))), now);
      && r.Ok? && r.value.parsed.Some?
      && PaymentOf(r.value.parsed.value, Some(message), from) == SmsParser.Parse(Some(message), from)
  {
    var p := SmsParser.Parse(Some(message), from);
    assert p.rawMessage == Some(message) && p.from == from by {
      SmsParser.EchoesInputs(Some(message), from);
    }
    ParsedRoundTrip(p);
  }
}

=== FILE: product_query.dfy ===
/**
 * How the catalogue listing (`viewProducts`) and the live search
 * (`searchProducts`) turn request parameters into a database query: the
 * filter, the sort order, and the window of results (skip and limit), plus
 * the paging figures reported back.
 */
module ProductQuery {
  import opened Wrappers
  import opened JsText

  /** JavaScript truthiness of a query parameter: present and not the empty string. */
  predicate Truthy(v: Option<string>) {
    v.Some? && v.value != []
  }

  /** `basePrice: { $gte, $lte }`, each bound present or not, each the `parseFloat` of its parameter. */
  datatype PriceBounds = PriceBounds(gte: Option<Float>, lte: Option<Float>)

  /**
   * The query filter. Every filter also carries `isActive: { $ne: false }`,
   * which is left implicit. `text` is `$text: { $search }`; `regex` is the
   * `$or` of case-insensitive matches on name, description and category.
   */
  datatype Filter = Filter(
    category: Option<string>,
    basePrice: Option<PriceBounds>,
    text: Option<string>,
    regex: Option<string>)

  /** The filter every listing starts from: active products only. */
  const BaseFilter: Filter := Filter(None, None, None, None)

  // ---------------------------------------------------------------- the filter

  /** The category constraint: the trimmed value, when the value is not blank and not `All`. */
  function CategoryFilter(category: Option<string>): (r: Option<string>)
    ensures r.Some? <==> (category.Some? && Trim(category.value) != [] && category.value != "All")
    ensures r.Some? ==> r.value == Trim(category.value) && Trim(r.value) == r.value && r.value != []
  {
    TrimIdempotent(if category.Some? then category.value else []);
    if Truthy(category) && Trim(category.value) != [] && category.value != "All" then Some(Trim(category.value))
    else None
  }

  /**
   * The price constraint: a bound for each of `minPrice` and `maxPrice` that
   * is supplied, read by `parseFloat`, and none at all without either. A
   * bound that does not read as a number is `NaN`.
   */
  function PriceFilter(minPrice: Option<string>, maxPrice: Option<string>): (r: Option<PriceBounds>)
    ensures r.Some? <==> Truthy(minPrice) || Truthy(maxPrice)
    ensures r.Some? ==> (r.value.gte.Some? <==> Truthy(minPrice)) && (r.value.lte.Some? <==> Truthy(maxPrice))
    ensures r.Some? && Truthy(minPrice) ==> r.value.gte.value == ParseFloat(minPrice.value)
    ensures r.Some? && Truthy(maxPrice) ==> r.value.lte.value == ParseFloat(maxPrice.value)
  {
    if Truthy(minPrice) || Truthy(maxPrice) then
      Some(PriceBounds(
        if Truthy(minPrice) then Some(ParseFloat(minPrice.value)) else None,
        if Truthy(maxPrice) then Some(ParseFloat(maxPrice.value)) else None))
    else None
  }

  /**
   * Price bounds are read as JavaScript reads numbers: `1e3` is 1000,
   * `Infinity` sets no upper bound, and `abc` is `NaN`.
   */
  lemma PriceFilterReadings()
    ensures PriceFilter(Some("1e3"), Some("Infinity")) == Some(PriceBounds(Some(Finite(1000.0)), Some(Infinite(false))))
    ensures PriceFilter(None, Some("abc")) == Some(PriceBounds(None, Some(NaN)))
  {
    ReadsThousand();
    ParseFloatInfinity();
    ReadsNaN();
  }

  /** `parseFloat("1e3")` is 1000. */
  lemma ReadsThousand()
    ensures ParseFloat("1e3") == Finite(1000.0)
  {
    var one, three := "1", "3";
    DigitValue(one, 1);
    DigitValue(three, 3);
    ParseFloatExponent(one, three);
    assert one + "e" + three == "1e3";
    ScaleThousand();
  }

  /** One times ten to the third is 1000. */
  lemma ScaleThousand()
    ensures Scale(1.0, 3) == 1000.0
  {
    assert Pow10(3) == 10 * Pow10(2) == 10 * (10 * Pow10(1)) == 1000;
  }

  /** The value of a one-digit string. */
  lemma DigitValue(d: string, v: nat)
    requires |d| == 1 && '0' <= d[0] <= '9' && v == d[0] as int - '0' as int
    ensures AllDigits(d, 10) && DigitsValue(d, 10) == v
  {
    assert IsRadixDigit(d[0], 10);
    assert d[..0] == [];
  }

  /** `parseFloat("abc")` is `NaN`. */
  lemma ReadsNaN()
    ensures ParseFloat("abc") == NaN
  {
    TrimStartNoSpace("abc");
    assert !IsRadixDigit("abc"[0], 10);
    assert DigitRun("abc", 0, 10) == 0;
    assert UnsignedFloat("abc").None?;
  }

  /** Longest search term sent to the database, in UTF-16 code units. */
  const MaxTerm: nat := 100

  /**
   * The search term: `q` trimmed, then cut to its first 100 UTF-16 code
   * units; none when `q` is absent or blank. The cut keeps as much of the
   * trimmed `q` as fits.
   */
  function SearchTerm(q: Option<string>): (r: Option<string>)
    ensures r.Some? <==> q.Some? && Trim(q.value) != []
    ensures r.Some? ==> (r.value != [] && Utf16Length(r.value) <= MaxTerm && r.value <= Trim(q.value))
    ensures r.Some? ==> (r.value == Trim(q.value)
      || Utf16Length(r.value) + Utf16Units(Trim(q.value)[|r.value|]) > MaxTerm)
    ensures r.Some? && Utf16Length(Trim(q.value)) <= MaxTerm ==> r.value == Trim(q.value)
  {
    if Truthy(q) && Trim(q.value) != [] then Some(TakeUnits(Trim(q.value), MaxTerm)) else None
  }

  /**
   * The search constraint: the text index when the text search finds
   * something (`textHits`, the count the database reports for the filter
   * with the text search added), and otherwise the three regular
   * expressions on the same term.
   */
  function WithSearch(f: Filter, q: Option<string>, textHits: nat): (r: Filter)
    requires f.text.None? && f.regex.None?
    ensures r.category == f.category && r.basePrice == f.basePrice
    ensures r.text.Some? <==> SearchTerm(q).Some? && textHits > 0
    ensures r.regex.Some? <==> SearchTerm(q).Some? && textHits == 0
    ensures r.text.Some? ==> r.text == SearchTerm(q)
    ensures r.regex.Some? ==> r.regex == SearchTerm(q)
  {
    match SearchTerm(q)
    case None => f
    case Some(term) => if textHits > 0 then f.(text := Some(term)) else f.(regex := Some(term))
  }

  /** The filter a listing or a search applies. */
  function ListFilter(q: Option<string>, category: Option<string>, minPrice: Option<string>,
                      maxPrice: Option<string>, textHits: nat): Filter
  {
    WithSearch(Filter(CategoryFilter(category), PriceFilter(minPrice, maxPrice), None, None), q, textHits)
  }

  /**
   * The filter built field by field, as both handlers do: the base filter,
   * then the category, then the price bounds, then the search. The search
   * handler passes no prices.
   */
  method BuildFilter(q: Option<string>, category: Option<string>, minPrice: Option<string>,
                     maxPrice: Option<string>, textHits: nat) returns (f: Filter)
    ensures f == ListFilter(q, category, minPrice, maxPrice, textHits)
  {
    f := BaseFilter;
    if Truthy(category) && Trim(category.value) != [] && category.value != "All" {
      f := f.(category := Some(Trim(category.value)));
    }
    assert f == Filter(CategoryFilter(category), None, None, None);
    if Truthy(minPrice) || Truthy(maxPrice) {
      var bounds := PriceBounds(None, None);
      if Truthy(minPrice) {
        bounds := bounds.(gte := Some(ParseFloat(minPrice.value)));
      }
      if Truthy(maxPrice) {
        bounds := bounds.(lte := Some(ParseFloat(maxPrice.value)));
      }
      f := f.(basePrice := Some(bounds));
    }
    assert f == Filter(CategoryFilter(category), PriceFilter(minPrice, maxPrice), None, None);
    if Truthy(q) && Trim(q.value) != [] {
      var term := TakeUnits(Trim(q.value), MaxTerm);
      if textHits > 0 {
        f := f.(text := Some(term));
      } else {
        f := f.(regex := Some(term));
      }
    }
  }

  /**
   * Whether the listing shows the filtered grid rather than the sections:
   * any of a search, a category other than `All`, or a price bound.
   */
  predicate IsFiltering(q: Option<string>, category: Option<string>, minPrice: Option<string>, maxPrice: Option<string>) {
    Truthy(q) || (Truthy(category) && category.value != "All") || Truthy(minPrice) || Truthy(maxPrice)
  }

  /** Without filtering the grid's filter is the base filter: every constraint needs a filtering parameter. */
  lemma NotFilteringIsBase(q: Option<string>, category: Option<string>, minPrice: Option<string>,
                           maxPrice: Option<string>, textHits: nat)
    requires !IsFiltering(q, category, minPrice, maxPrice)
    ensures ListFilter(q, category, minPrice, maxPrice, textHits) == BaseFilter
  {
  }

  /**
   * The converse fails: a blank category counts as filtering, so the grid
   * is shown, yet it adds no constraint.
   */
  lemma BlankCategoryFiltersNothing(textHits: nat)
    ensures IsFiltering(None, Some(" "), None, None)
    ensures ListFilter(None, Some(" "), None, None, textHits) == BaseFilter
  {
    assert Trim(" ") == [] by {
      assert TrimStart(" ") == [];
    }
  }

  /**
   * Padding around a category is ignored: ` Shoes ` and `Shoes` select the
   * same products. `All` is compared before trimming, though, so ` All `
   * asks for a category named `All` instead of lifting the constraint.
   */
  lemma CategoryTrimmed(category: string)
    requires Trim(category) != [] && Trim(category) != "All"
    ensures CategoryFilter(Some(category)) == CategoryFilter(Some(Trim(category))) == Some(Trim(category))
    ensures CategoryFilter(Some(" All ")) == Some("All") && CategoryFilter(Some("All")).None?
  {
    TrimIdempotent(category);
    assert Trim(" All ") == "All" by {
      assert TrimStart(" All ") == "All ";
      assert TrimEnd("All ") == "All";
    }
  }

  // ---------------------------------------------------------------- the sort order

  /** A sort order: fields with direction 1 (ascending) or -1 (descending), most significant first. */
  type SortOrder = seq<(string, int)>

  /** The order used for any `sort` value the listing does not name. */
  const DefaultSort: SortOrder := [("inStock", -1), ("stockQuantity", -1), ("createdAt", -1)]

  /** The sort keys the listing names, in the order its switch lists them. */
  const SortKeys: seq<string> := ["price-low", "price-high", "newest", "popular", "name-az", "name-za"]

  /** The order the listing uses for `sort`; an absent `sort` means `newest`. */
  function SortOf(sort: Option<string>): (r: SortOrder)
    ensures forall k :: 0 <= k < |r| ==> r[k].1 == 1 || r[k].1 == -1
    ensures sort.Some? && sort.value !in SortKeys ==> r == DefaultSort
  {
    var key := if sort.None? then "newest" else sort.value;
    if key == "price-low" then [("basePrice", 1), ("inStock", -1)]
    else if key == "price-high" then [("basePrice", -1), ("inStock", -1)]
    else if key == "newest" then [("createdAt", -1), ("inStock", -1)]
    else if key == "popular" then [("stockQuantity", -1), ("inStock", -1)]
    else if key == "name-az" then [("name", 1)]
    else if key == "name-za" then [("name", -1)]
    else DefaultSort
  }

  /** The order chosen by reassigning a default through the switch on `sort`. */
  method SortOption(sort: Option<string>) returns (order: SortOrder)
    ensures order == SortOf(sort)
  {
    var key := if sort.None? then "newest" else sort.value;
    order := DefaultSort;
    if key == "price-low" {
      order := [("basePrice", 1), ("inStock", -1)];
    } else if key == "price-high" {
      order := [("basePrice", -1), ("inStock", -1)];
    } else if key == "newest" {
      order := [("createdAt", -1), ("inStock", -1)];
    } else if key == "popular" {
      order := [("stockQuantity", -1), ("inStock", -1)];
    } else if key == "name-az" {
      order := [("name", 1)];
    } else if key == "name-za" {
      order := [("name", -1)];
    }
  }

  /** The orders the named keys select, in the order of `SortKeys`. */
  const SortTable: seq<SortOrder> := [
    [("basePrice", 1), ("inStock", -1)],
    [("basePrice", -1), ("inStock", -1)],
    [("createdAt", -1), ("inStock", -1)],
    [("stockQuantity", -1), ("inStock", -1)],
    [("name", 1)],
    [("name", -1)]]

  /** Each named key selects its entry of the table, and an absent key is `newest`. */
  lemma SortOfKey(i: nat)
    requires i < |SortKeys|
    ensures SortOf(Some(SortKeys[i])) == SortTable[i]
    ensures SortOf(None) == SortTable[2]
  {
    if i == 0 {
    } else if i == 1 {
    } else if i == 2 {
    } else if i == 3 {
    } else if i == 4 {
    } else {
    }
  }

  /**
   * The six named keys give six different orders, none of them the
   * default; the two price orders and the two name orders are each other's
   * reverse on their first field.
   */
  lemma SortTableDistinct(i: nat, j: nat)
    requires i < |SortTable| && j < |SortTable|
    ensures SortTable[i] != DefaultSort
    ensures i != j ==> SortTable[i] != SortTable[j]
    ensures SortTable[0][0].1 == -SortTable[1][0].1 && SortTable[4][0].1 == -SortTable[5][0].1
  {
    var a, b := SortTable[i], SortTable[j];
    assert |a| < |DefaultSort|;
    if i != j {
      assert (|a|, a[0].1, a[0].0[0]) != (|b|, b[0].1, b[0].0[0]);
    }
  }

  /**
   * The search's result order: by text score, then in-stock first, when the
   * text index finds something; otherwise in-stock first, then by stock.
   */
  datatype SearchOrder = ByTextScore(tieBreak: SortOrder) | ByFields(order: SortOrder)

  /**
   * The order `searchProducts` sorts by. Without a text hit, whether the
   * regular expressions or no term at all select the results, it is the
   * listing's default order without its newest-first tie-break.
   */
  function SearchSort(q: Option<string>, textHits: nat): (r: SearchOrder)
    ensures r.ByTextScore? <==> SearchTerm(q).Some? && textHits > 0
    ensures r.ByTextScore? ==> r.tieBreak == [("inStock", -1)]
    ensures r.ByFields? ==> r.order == DefaultSort[..2]
  {
    if SearchTerm(q).Some? && textHits > 0 then ByTextScore([("inStock", -1)])
    else ByFields([("inStock", -1), ("stockQuantity", -1)])
  }

  /**
   * The search sorts by text score exactly when its filter uses the text
   * index, which is what gives the results a score.
   */
  lemma SearchSortFollowsFilter(q: Option<string>, category: Option<string>, textHits: nat)
    ensures SearchSort(q, textHits).ByTextScore? <==> ListFilter(q, category, None, None, textHits).text.Some?
  {
  }

  // ---------------------------------------------------------------- the listing's pages

  /** The listing's page size. */
  const PageSize: nat := 12

  /** `Math.ceil(total / size)`. */
  function CeilDiv(total: nat, size: nat): (r: nat)
    requires size > 0
    ensures r * size >= total
    ensures r > 0 ==> (r - 1) * size < total
  {
    (total + size - 1) / size
  }

  /** `parseInt(page)`, with an absent page meaning the first; `None` is `NaN`. */
  function PageOf(page: Option<string>): (r: Option<int>)
    ensures page.None? ==> r == Some(1)
    ensures page.Some? ==> r == ParseInt(page.value)
  {
    match page
    case None => Some(1)
    case Some(s) => ParseInt(s)
  }

  /** The listing's window for a page: `skip` and `limit`; a `NaN` page gives a `NaN` skip. */
  function ViewWindow(page: Option<string>): (r: (Option<int>, nat))
    ensures r.1 == PageSize
    ensures PageOf(page).None? <==> r.0.None?
    ensures PageOf(page).Some? ==> r.0.value == (PageOf(page).value - 1) * PageSize
  {
    match PageOf(page)
    case None => (None, PageSize)
    case Some(p) => (Some((p - 1) * PageSize), PageSize)
  }

  /**
   * The listing's pages cover every matching product exactly once: product
   * `k` (counting from 0) lies in the window of page `k / 12 + 1`, which is
   * one of the `totalPages` reported, and in no other page's window.
   */
  lemma ViewPagesCover(total: nat, k: nat)
    requires k < total
    ensures var p := k / PageSize + 1;
      && 1 <= p <= CeilDiv(total, PageSize)
      && ViewWindow(Some(IntString(p))).0 == Some((p - 1) * PageSize)
      && (p - 1) * PageSize <= k < p * PageSize
    ensures forall q: int :: 1 <= q && q != k / PageSize + 1 ==> !((q - 1) * PageSize <= k < q * PageSize)
  {
    var p := k / PageSize + 1;
    ParseIntString(p);
    forall q: int | 1 <= q && q != p ensures !((q - 1) * PageSize <= k < q * PageSize) {
      if q < p {
        assert q * PageSize <= (p - 1) * PageSize;
      } else {
        assert (q - 1) * PageSize >= p * PageSize;
      }
    }
  }

  /** The listing's `hasMore`: `parseInt(page) < totalPages`, false for a `NaN` page. */
  predicate ViewHasMore(page: Option<string>, total: nat) {
    PageOf(page).Some? && PageOf(page).value < CeilDiv(total, PageSize)
  }

  /**
   * The listing reports more results after page `p` exactly when some
   * matching product lies beyond that page's window.
   */
  lemma ViewHasMoreMeans(p: int, total: nat)
    requires p >= 1
    ensures ViewHasMore(Some(IntString(p)), total) <==> (p - 1) * PageSize + PageSize < total
  {
    ParseIntString(p);
    var n := CeilDiv(total, PageSize);
    assert (p - 1) * PageSize + PageSize == p * PageSize;
    if p < n {
      MulMonotone(p, n - 1, PageSize);
    } else {
      MulMonotone(n, p, PageSize);
    }
  }

  /**
   * A listing page below 1 gives a negative skip, which the database
   * refuses: `page=0` skips -12.
   */
  lemma ViewNegativeSkip(p: int)
    requires p < 1
    ensures ViewWindow(Some(IntString(p))).0 == Some((p - 1) * PageSize)
    ensures (p - 1) * PageSize <= -(PageSize as int)
  {
    ParseIntString(p);
    MulMonotone(p - 1, -1, PageSize);
  }

  // ---------------------------------------------------------------- the search's pages

  /** The search's page-size cap. */
  const MaxLimit: int := 50

  /** `Math.min(limit, 50)`: the number of results the search asks for. */
  function Cap(limit: int): (r: int)
    ensures r <= MaxLimit && r <= limit
    ensures r == limit || r == MaxLimit
  {
    if limit < MaxLimit then limit else MaxLimit
  }

  /** The search's `skip` as written: from the limit requested, before the cap. */
  function SearchSkip(page: int, limit: int): int {
    (page - 1) * limit
  }

  /** The search's `skip` as intended: from the capped limit, so that pages follow each other. */
  function CappedSkip(page: int, limit: int): (r: int)
    ensures r == (page - 1) * Cap(limit)
    ensures limit <= MaxLimit ==> r == SearchSkip(page, limit)
  {
    (page - 1) * Cap(limit)
  }

  /**
   * The number of results the database returns for `skip(skip).limit(limit)`
   * when `total` match: a limit of 0 sets no limit, a negative limit asks for
   * as many as its magnitude, and nothing is returned past the end.
   */
  function Returned(skip: int, limit: int, total: nat): (r: nat)
    requires skip >= 0
    ensures skip >= total ==> r == 0
    ensures skip < total ==> skip + r <= total
    ensures limit == 0 ==> skip + r >= total
    ensures limit != 0 ==> r <= Abs(limit) && (r < Abs(limit) ==> skip + r >= total)
  {
    var remaining := if skip >= total then 0 else total - skip;
    if limit == 0 || remaining < Abs(limit) then remaining else Abs(limit)
  }

  /** `|n|`. */
  function Abs(n: int): nat {
    if n < 0 then -n else n
  }

  /**
   * `limit=0` asks for no limit and makes every page's skip 0: each page
   * holds every result and reports that none follow. A negative limit on the
   * first page behaves as its magnitude; on any later page it makes the
   * written skip negative, which the database refuses.
   */
  lemma LimitZeroOrNegative(page: int, limit: int, total: nat)
    ensures SearchSkip(page, 0) == 0 && Returned(0, Cap(0), total) == total
      && !HasMore(0, Returned(0, Cap(0), total), total)
    ensures limit < 0 ==> (SearchSkip(1, limit) == 0
      && Returned(0, Cap(limit), total) == Returned(0, -limit, total))
    ensures limit < 0 && page >= 2 ==> SearchSkip(page, limit) < 0
  {
    if limit < 0 && page >= 2 {
      assert (page - 1) * limit <= 1 * limit by {
        MulMonotone(1, page - 1, -limit);
      }
    }
  }

  /** `hasMore`: results remain after this page. */
  predicate HasMore(skip: int, returned: nat, total: nat) {
    skip + returned < total
  }

  /**
   * With the written skip, a request for more than 50 per page loses
   * results: asking for 100 per page, page 1 returns products 0 to 49 and
   * page 2 starts at product 100, so product 50 is on no page, although
   * page 1 reports that more results follow.
   */
  lemma SearchSkipLosesResults(total: nat)
    requires total > 100
    ensures forall page: int :: page >= 1 ==>
      !(SearchSkip(page, 100) <= 50 < SearchSkip(page, 100) + Cap(100))
    ensures HasMore(SearchSkip(1, 100), Returned(SearchSkip(1, 100), Cap(100), total), total)
    ensures SearchSkip(2, 100) == 100
  {
    forall page: int | page >= 1 ensures !(SearchSkip(page, 100) <= 50 < SearchSkip(page, 100) + Cap(100)) {
      if page >= 2 {
        assert SearchSkip(page, 100) >= 100;
      }
    }
  }

  /** With the capped skip, each page starts where the one before it ends. */
  lemma CappedPagesContiguous(page: int, limit: int)
    ensures CappedSkip(page + 1, limit) == CappedSkip(page, limit) + Cap(limit)
  {
  }

  /** With the capped skip and a positive limit, every result lies on exactly one page. */
  lemma CappedPagesCover(k: nat, limit: int)
    requires limit >= 1
    ensures var p := k / Cap(limit) + 1;
      CappedSkip(p, limit) <= k < CappedSkip(p, limit) + Cap(limit)
    ensures forall q: int :: q >= 1 && q != k / Cap(limit) + 1 ==>
      !(CappedSkip(q, limit) <= k < CappedSkip(q, limit) + Cap(limit))
  {
    var c := Cap(limit);
    var p := k / c + 1;
    DivWindow(k, c);
    forall q: int | q >= 1 && q != p ensures !(CappedSkip(q, limit) <= k < CappedSkip(q, limit) + c) {
      assert CappedSkip(q, limit) + c == q * c;
      if q < p {
        MulMonotone(q, p - 1, c);
      } else {
        MulMonotone(p, q - 1, c);
      }
    }
  }

  /** Multiplying by a non-negative factor keeps order. */
  lemma MulMonotone(a: int, b: int, c: int)
    requires a <= b && c >= 0
    ensures a * c <= b * c
  {
    assert b * c - a * c == (b - a) * c;
  }

  /** Integer division places `k` in the window of its quotient. */
  lemma DivWindow(k: nat, c: int)
    requires c > 0
    ensures (k / c) * c <= k < (k / c + 1) * c
  {
    assert k == (k / c) * c + k % c;
    assert (k / c + 1) * c == (k / c) * c + c;
  }

  /**
   * With the capped skip, `hasMore` agrees with `totalPages`: results remain
   * after page `p` exactly when `p` is not the last page.
   */
  lemma HasMoreBeforeLastPage(page: int, limit: int, total: nat)
    requires page >= 1 && limit >= 1
    ensures var skip := CappedSkip(page, limit);
      HasMore(skip, Returned(skip, Cap(limit), total), total) <==> page < CeilDiv(total, Cap(limit))
  {
    var c := Cap(limit);
    var skip := (page - 1) * c;
    assert skip >= 0;
    var n := CeilDiv(total, c);
    assert page * c == skip + c;
    assert HasMore(skip, Returned(skip, c, total), total) <==> page * c < total;
    if page < n {
      MulMonotone(page, n - 1, c);
    } else {
      MulMonotone(n, page, c);
    }
  }
}

=== FILE: review.dfy ===
/**
 * A product review and its replies as stored: the rating bounds, the
 * trimmed and length-limited texts, the like and dislike lists with their
 * count virtuals, and the one-review-per-product-and-user index.
 */
module Reviews {
  import opened Wrappers
  import opened JsText

  type UserId = nat

  /** A reply to a review. */
  datatype Reply = Reply(id: nat, user: UserId, text: string, likes: seq<UserId>, dislikes: seq<UserId>)

  /** A review of a product. */
  datatype Review = Review(
    id: nat,
    product: nat,
    user: UserId,
    rating: int,
    comment: string,
    likes: seq<UserId>,
    dislikes: seq<UserId>,
    replies: seq<Reply>)

  /** `maxlength` of a review's comment. */
  const MaxComment: nat := 1000

  /** `maxlength` of a reply's text. */
  const MaxReplyText: nat := 500

  /** The `likesCount` and `dislikesCount` virtuals of a review. */
  function ReviewCounts(r: Review): (nat, nat) {
    (|r.likes|, |r.dislikes|)
  }

  /** The `likesCount` and `dislikesCount` virtuals of a reply. */
  function ReplyCounts(p: Reply): (nat, nat) {
    (|p.likes|, |p.dislikes|)
  }

  /**
   * The schema's validators on a reply: text required (non-empty) and at
   * most 500 characters, counted as JavaScript counts string length, in
   * UTF-16 code units.
   */
  predicate ReplyPasses(p: Reply) {
    p.text != [] && Utf16Length(p.text) <= MaxReplyText
  }

  /**
   * The schema's validators on a review, which `save` runs on the whole
   * document, replies included: a rating from 1 to 5, a non-empty comment
   * of at most 1000 UTF-16 code units, and every reply valid.
   */
  predicate ReviewPasses(r: Review) {
    && 1 <= r.rating <= 5
    && r.comment != [] && Utf16Length(r.comment) <= MaxComment
    && forall k :: 0 <= k < |r.replies| ==> ReplyPasses(r.replies[k])
  }

  /**
   * `trim: true`: the value stored for a comment or a reply text. It is the
   * part of the input left when the white space at both ends is removed: a
   * run of the input, with only white space before and after it, that
   * neither starts nor ends with white space.
   */
  function Stored(s: string): (r: string)
    ensures exists i: nat :: Padded(s, r, i)
    ensures r != [] ==> !IsSpace(r[0]) && !IsSpace(r[|r| - 1])
    ensures Trim(r) == r
  {
    TrimIdempotent(s);
    TrimSplits(s);
    assert Padded(s, Trim(s), |s| - |TrimStart(s)|);
    Trim(s)
  }

  /** `s` is `r` starting at position `i`, with only white space before and after it. */
  predicate Padded(s: string, r: string, i: nat) {
    && i + |r| <= |s| && s[i..i + |r|] == r
    && (forall k :: 0 <= k < i ==> IsSpace(s[k]))
    && (forall k :: i + |r| <= k < |s| ==> IsSpace(s[k]))
  }

  /** The unique index on (product, user): no two reviews by one user of one product. */
  predicate OnePerProductUser(reviews: map<nat, Review>) {
    forall a, b :: a in reviews && b in reviews && a != b ==>
      (reviews[a].product, reviews[a].user) != (reviews[b].product, reviews[b].user)
  }

  /** Whether `user` already has a review of `product`: the `findOne` the handler makes. */
  predicate HasReviewed(reviews: map<nat, Review>, product: nat, user: UserId) {
    exists id :: id in reviews && reviews[id].product == product && reviews[id].user == user
  }

  /**
   * Adding a review under a fresh key keeps the index unique exactly when
   * its author has no review of that product yet.
   */
  lemma AddKeepsOnePerProductUser(reviews: map<nat, Review>, id: nat, r: Review)
    requires OnePerProductUser(reviews) && id !in reviews
    ensures OnePerProductUser(reviews[id := r]) <==> !HasReviewed(reviews, r.product, r.user)
  {
    var m := reviews[id := r];
    if HasReviewed(reviews, r.product, r.user) {
      var other :| other in reviews && reviews[other].product == r.product && reviews[other].user == r.user;
      assert other in m && id in m && other != id;
      assert (m[other].product, m[other].user) == (m[id].product, m[id].user);
    } else {
      forall a, b | a in m && b in m && a != b
        ensures (m[a].product, m[a].user) != (m[b].product, m[b].user)
      {
        if a == id {
          assert b in reviews;
        } else if b == id {
          assert a in reviews;
        }
      }
    }
  }
}

=== FILE: review_controller.dfy ===
/**
 * The review handlers: adding, editing and deleting a review (with the
 * author check), adding a reply, and the like and dislike toggles on
 * reviews and on replies. Each handler is one sequential step on the
 * stored reviews.
 */
module ReviewController {
  import opened Wrappers
  import opened JsText
  import opened Reviews

  // ---------------------------------------------------------------- list operations

  /** `$pull` of `u`, and equally `filter(id => id !== u)`: every `u` removed, the rest kept in order. */
  function Pull(xs: seq<UserId>, u: UserId): (r: seq<UserId>)
    ensures u !in r
    ensures forall v :: v != u ==> multiset(r)[v] == multiset(xs)[v]
    ensures u !in xs ==> r == xs
  {
    if xs == [] then []
    else
      assert xs == [xs[0]] + xs[1..];
      (if xs[0] == u then [] else [xs[0]]) + Pull(xs[1..], u)
  }

  /** `$addToSet` of `u`: appended unless already present. */
  function AddToSet(xs: seq<UserId>, u: UserId): (r: seq<UserId>)
    ensures u in r
    ensures forall v :: v != u ==> multiset(r)[v] == multiset(xs)[v]
    ensures multiset(r)[u] == if u in xs then multiset(xs)[u] else 1
  {
    if u in xs then xs else xs + [u]
  }

  /** `findIndex(id => id === u)`: the first position of `u`, or `None` for -1. */
  function FindIndex(xs: seq<UserId>, u: UserId): (r: Option<nat>)
    ensures r.Some? ==> r.value < |xs| && xs[r.value] == u && u !in xs[..r.value]
    ensures r.None? <==> u !in xs
  {
    if xs == [] then None
    else if xs[0] == u then Some(0)
    else match FindIndex(xs[1..], u)
      case None => None
      case Some(k) => assert xs[..k + 1] == [xs[0]] + xs[1..][..k]; Some(k + 1)
  }

  /** `splice(i, 1)`: the element at `i` removed. */
  function Splice(xs: seq<UserId>, i: nat): (r: seq<UserId>)
    requires i < |xs|
    ensures |r| == |xs| - 1
    ensures multiset(r) == multiset(xs) - multiset{xs[i]}
  {
    assert xs == xs[..i] + [xs[i]] + xs[i + 1..];
    xs[..i] + xs[i + 1..]
  }

  /** No user appears twice in a list. */
  predicate NoDup(xs: seq<UserId>) {
    forall i, j :: 0 <= i < j < |xs| ==> xs[i] != xs[j]
  }

  /** The reaction invariant: neither list repeats a user and no user is in both. */
  predicate Reactions(likes: seq<UserId>, dislikes: seq<UserId>) {
    NoDup(likes) && NoDup(dislikes) && forall u :: u in likes ==> u !in dislikes
  }

  lemma {:induction false} NoDupCount(xs: seq<UserId>, u: UserId)
    requires NoDup(xs)
    ensures multiset(xs)[u] == if u in xs then 1 else 0
    decreases |xs|
  {
    if xs != [] {
      assert xs == [xs[0]] + xs[1..];
      assert NoDup(xs[1..]) by {
        forall i, j | 0 <= i < j < |xs[1..]| ensures xs[1..][i] != xs[1..][j] {
          assert xs[1..][i] == xs[i + 1] && xs[1..][j] == xs[j + 1];
        }
      }
      NoDupCount(xs[1..], u);
      if xs[0] == u {
        assert u !in xs[1..] by {
          forall k | 0 <= k < |xs[1..]| ensures xs[1..][k] != u {
            assert xs[1..][k] == xs[k + 1];
          }
        }
      }
    }
  }

  /** A list in which no user is counted twice has no repeats. */
  lemma NoDupFromCounts(xs: seq<UserId>)
    requires forall v :: multiset(xs)[v] <= 1
    ensures NoDup(xs)
  {
    forall i, j | 0 <= i < j < |xs| ensures xs[i] != xs[j] {
      var a, b := xs[..j], xs[j..];
      assert xs == a + b;
      assert a[i] == xs[i] && b[0] == xs[j];
      assert multiset(xs)[xs[j]] == multiset(a)[xs[j]] + multiset(b)[xs[j]];
      assert multiset(b)[xs[j]] >= 1;
      assert multiset(a)[xs[i]] >= 1;
    }
  }

  // ---------------------------------------------------------------- toggles

  /**
   * The update `likeReview` applies, with `mine` the list being toggled and
   * `other` the opposite one: a user already in `mine` is pulled from it;
   * otherwise the user is added to `mine` and pulled from `other`.
   * `dislikeReview` is the same update with the two lists swapped.
   */
  function ReviewToggle(mine: seq<UserId>, other: seq<UserId>, u: UserId): (r: (seq<UserId>, seq<UserId>))
    ensures u in mine ==> u !in r.0 && r.1 == other
    ensures u !in mine ==> u in r.0 && u !in r.1
    ensures forall v :: v != u ==> multiset(r.0)[v] == multiset(mine)[v] && multiset(r.1)[v] == multiset(other)[v]
  {
    if u in mine then (Pull(mine, u), other) else (AddToSet(mine, u), Pull(other, u))
  }

  /**
   * The update `likeReply` makes in place, with the same roles: the user is
   * always filtered out of `other`; the first occurrence in `mine` is
   * spliced out if there is one, and otherwise the user is pushed.
   */
  function ReplyToggle(mine: seq<UserId>, other: seq<UserId>, u: UserId): (r: (seq<UserId>, seq<UserId>))
    ensures u !in r.1
    ensures u !in mine ==> u in r.0
    ensures forall v :: v != u ==> multiset(r.0)[v] == multiset(mine)[v] && multiset(r.1)[v] == multiset(other)[v]
  {
    var other' := Pull(other, u);
    match FindIndex(mine, u)
    case Some(i) => (Splice(mine, i), other')
    case None => (mine + [u], other')
  }

  /**
   * Both toggles keep the reaction invariant: the acting user ends in at most
   * one list, and nobody is listed twice.
   */
  lemma ToggleKeepsReactions(mine: seq<UserId>, other: seq<UserId>, u: UserId)
    requires Reactions(mine, other)
    ensures Reactions(ReviewToggle(mine, other, u).0, ReviewToggle(mine, other, u).1)
    ensures Reactions(ReplyToggle(mine, other, u).0, ReplyToggle(mine, other, u).1)
  {
    ReviewToggleAgrees(mine, other, u);
    if u in mine {
      PullKeepsNoDup(mine, u);
    } else {
      PullKeepsNoDup(other, u);
      AddKeepsNoDup(mine, u);
      var r := ReviewToggle(mine, other, u);
      assert r == (mine + [u], Pull(other, u));
      forall v | v in r.0 ensures v !in r.1 {
        if v != u {
          assert v in mine;
        }
      }
    }
  }

  /** Pulling keeps a list free of repeats and adds nobody to it. */
  lemma PullKeepsNoDup(xs: seq<UserId>, u: UserId)
    requires NoDup(xs)
    ensures NoDup(Pull(xs, u))
    ensures forall v :: v in Pull(xs, u) ==> v in xs
  {
    var r := Pull(xs, u);
    forall v ensures multiset(r)[v] <= 1 {
      NoDupCount(xs, v);
    }
    NoDupFromCounts(r);
    forall v | v in r ensures v in xs {
      assert multiset(r)[v] > 0;
    }
  }

  /** Appending a user who is not yet listed keeps the list free of repeats. */
  lemma AddKeepsNoDup(xs: seq<UserId>, u: UserId)
    requires NoDup(xs) && u !in xs
    ensures NoDup(xs + [u])
  {
    var r := xs + [u];
    forall i, j | 0 <= i < j < |r| ensures r[i] != r[j] {
      assert r[i] == xs[i];
      if j < |xs| {
        assert r[j] == xs[j];
      }
    }
  }

  /**
   * Under the reaction invariant the in-place reply toggle and the atomic
   * review update produce the same lists.
   */
  lemma ReviewToggleAgrees(mine: seq<UserId>, other: seq<UserId>, u: UserId)
    requires Reactions(mine, other)
    ensures ReplyToggle(mine, other, u) == ReviewToggle(mine, other, u)
  {
    match FindIndex(mine, u)
    case None =>
    case Some(i) =>
      assert other == Pull(other, u);
      assert Splice(mine, i) == Pull(mine, u) by {
        SpliceOnly(mine, i);
      }
  }

  /** Removing the only occurrence of a user is pulling it. */
  lemma {:induction false} SpliceOnly(xs: seq<UserId>, i: nat)
    requires NoDup(xs) && i < |xs|
    ensures Splice(xs, i) == Pull(xs, xs[i])
  {
    var u := xs[i];
    var a, b := xs[..i], xs[i + 1..];
    assert u !in a by {
      forall k | 0 <= k < |a| ensures a[k] != u {
        assert a[k] == xs[k];
      }
    }
    assert u !in b by {
      forall k | 0 <= k < |b| ensures b[k] != u {
        assert b[k] == xs[i + 1 + k];
      }
    }
    assert xs == a + ([u] + b);
    calc {
      Pull(xs, u);
    == { PullAppend(a, [u] + b, u); }
      Pull(a, u) + Pull([u] + b, u);
    == { PullAppend([u], b, u); }
      Pull(a, u) + (Pull([u], u) + Pull(b, u));
    == { PullOne(u); }
      a + b;
    }
  }

  lemma PullOne(u: UserId)
    ensures Pull([u], u) == []
  {
    assert [u][1..] == [];
  }

  /** Pulling distributes over concatenation. */
  lemma {:induction false} PullAppend(a: seq<UserId>, b: seq<UserId>, u: UserId)
    ensures Pull(a + b, u) == Pull(a, u) + Pull(b, u)
    decreases |a|
  {
    if a == [] {
      assert a + b == b;
    } else {
      assert (a + b)[1..] == a[1..] + b;
      PullAppend(a[1..], b, u);
    }
  }

  /**
   * The like counts a toggle reports: under the invariant the toggled list
   * grows or shrinks by exactly one, and the opposite list loses one entry
   * exactly when the user is moved out of it.
   */
  lemma ToggleCounts(mine: seq<UserId>, other: seq<UserId>, u: UserId)
    requires Reactions(mine, other)
    ensures u in mine ==> |ReviewToggle(mine, other, u).0| == |mine| - 1 && |ReviewToggle(mine, other, u).1| == |other|
    ensures u !in mine ==> |ReviewToggle(mine, other, u).0| == |mine| + 1
    ensures u !in mine ==> |ReviewToggle(mine, other, u).1| == |other| - (if u in other then 1 else 0)
  {
    var r := ReviewToggle(mine, other, u);
    NoDupCount(mine, u);
    NoDupCount(other, u);
    MultisetSize(mine, r.0, u);
    MultisetSize(other, r.1, u);
  }

  /** Two lists that agree on every user but `u` differ in length by their counts of `u`. */
  lemma MultisetSize(xs: seq<UserId>, ys: seq<UserId>, u: UserId)
    requires forall v :: v != u ==> multiset(ys)[v] == multiset(xs)[v]
    ensures |ys| - multiset(ys)[u] == |xs| - multiset(xs)[u]
  {
    var a := multiset(xs)[u := 0];
    var b := multiset(ys)[u := 0];
    assert a == b;
    assert |multiset(xs)| == |a| + multiset(xs)[u] by {
      assert multiset(xs) == a + multiset{}[u := multiset(xs)[u]];
    }
    assert |multiset(ys)| == |b| + multiset(ys)[u] by {
      assert multiset(ys) == b + multiset{}[u := multiset(ys)[u]];
    }
  }

  /** A reaction by a user who had none, taken back, leaves both lists as they were. */
  lemma ToggleTwice(mine: seq<UserId>, other: seq<UserId>, u: UserId)
    requires u !in mine && u !in other
    ensures ReviewToggle(ReviewToggle(mine, other, u).0, ReviewToggle(mine, other, u).1, u) == (mine, other)
  {
    PullAppend(mine, [u], u);
    assert Pull([u], u) == [];
    assert mine + [] == mine;
  }

  // ---------------------------------------------------------------- validation

  /** Why a handler refuses. */
  datatype Failure =
    | LoginRequired | InvalidRating | EmptyComment | EmptyReply
    | ProductNotFound | AlreadyReviewed | ReviewNotFound | ReplyNotFound
    | NotAuthor | ServerError

  /** `parseInt` of a rating that passed the range check. */
  function RatingValue(rating: real): (r: int)
    requires 1.0 <= rating <= 5.0
    ensures 1 <= r <= 5 && r as real <= rating < r as real + 1.0
  {
    rating.Floor
  }

  /**
   * The checks `addReview` makes before touching the database: a session,
   * a rating from 1 to 5, and a comment that is not blank. The result is
   * the author, the stored rating and the stored (trimmed) comment.
   */
  function CheckNewReview(session: Option<UserId>, rating: Option<real>, comment: Option<string>)
    : (r: Result<(UserId, int, string), Failure>)
    ensures r.Ok? <==> (session.Some? && rating.Some? && 1.0 <= rating.value <= 5.0
      && comment.Some? && Trim(comment.value) != [])
    ensures session.None? ==> r == Err(LoginRequired)
    ensures session.Some? && (rating.None? || rating.value < 1.0 || rating.value > 5.0) ==> r == Err(InvalidRating)
    ensures (session.Some? && rating.Some? && 1.0 <= rating.value <= 5.0
      && (comment.None? || Trim(comment.value) == [])) ==> r == Err(EmptyComment)
    ensures r.Ok? ==> (r.value.0 == session.value && 1 <= r.value.1 <= 5
      && r.value.1 == RatingValue(rating.value) && r.value.2 == Trim(comment.value))
  {
    if session.None? then Err(LoginRequired)
    else if rating.None? || rating.value == 0.0 || rating.value < 1.0 || rating.value > 5.0 then Err(InvalidRating)
    else if comment.None? || comment.value == [] || Trim(comment.value) == [] then Err(EmptyComment)
    else Ok((session.value, RatingValue(rating.value), Trim(comment.value)))
  }

  /**
   * The edit `updateReview` makes: a truthy rating must lie in 1..5 and
   * replaces the old one; a non-empty comment must not be blank and
   * replaces the old one trimmed; absent (or falsy) values leave the field
   * as it was. Nothing else about the review changes.
   */
  function Edited(r: Review, rating: Option<real>, comment: Option<string>): (e: Result<Review, Failure>)
    ensures e.Ok? <==> ((rating.None? || rating.value == 0.0 || 1.0 <= rating.value <= 5.0)
      && (comment.None? || comment.value == [] || Trim(comment.value) != []))
    ensures e.Ok? ==> e.value == r.(rating := e.value.rating, comment := e.value.comment)
    ensures e.Ok? ==> e.value.rating == (if rating.None? || rating.value == 0.0 then r.rating else RatingValue(rating.value))
    ensures e.Ok? ==> e.value.comment == (if comment.None? || comment.value == [] then r.comment else Trim(comment.value))
  {
    if rating.Some? && rating.value != 0.0 && (rating.value < 1.0 || rating.value > 5.0) then Err(InvalidRating)
    else
      var r1 := if rating.Some? && rating.value != 0.0 then r.(rating := RatingValue(rating.value)) else r;
      if comment.Some? && comment.value != [] && Trim(comment.value) == [] then Err(EmptyComment)
      else Ok(if comment.Some? && comment.value != [] then r1.(comment := Trim(comment.value)) else r1)
  }

  /** Editing with neither a rating nor a comment changes nothing. */
  lemma EditNothing(r: Review)
    ensures Edited(r, None, None) == Ok(r)
  {
  }

  // ---------------------------------------------------------------- stored reviews

  /** A reply's lists satisfy the reaction invariant and its text is not empty. */
  predicate ReplySound(p: Reply) {
    p.text != [] && Reactions(p.likes, p.dislikes)
  }

  /** The well-formedness every stored review keeps. */
  predicate Sound(r: Review) {
    && 1 <= r.rating <= 5
    && r.comment != [] && Utf16Length(r.comment) <= MaxComment && Trim(r.comment) == r.comment
    && Reactions(r.likes, r.dislikes)
    && forall k :: 0 <= k < |r.replies| ==> ReplySound(r.replies[k])
  }

  /** The state invariant: ids below the counter, sound reviews, one review per product and user. */
  predicate Consistent(reviews: map<nat, Review>, nextId: nat) {
    && (forall id :: id in reviews ==> id < nextId && reviews[id].id == id && Sound(reviews[id]))
    && OnePerProductUser(reviews)
  }

  /** Storing a sound review under the next id keeps the invariant when its author has not reviewed the product. */
  lemma ConsistentInsert(reviews: map<nat, Review>, nextId: nat, r: Review)
    requires Consistent(reviews, nextId) && Sound(r) && r.id == nextId
    requires !HasReviewed(reviews, r.product, r.user)
    ensures Consistent(reviews[nextId := r], nextId + 1)
  {
    AddKeepsOnePerProductUser(reviews, nextId, r);
  }

  /** Replacing a review by a sound one with the same id, product and author keeps the invariant. */
  lemma ConsistentReplace(reviews: map<nat, Review>, nextId: nat, id: nat, r: Review)
    requires Consistent(reviews, nextId) && id in reviews && Sound(r)
    requires r.id == id && r.product == reviews[id].product && r.user == reviews[id].user
    ensures Consistent(reviews[id := r], nextId)
  {
    var m := reviews[id := r];
    forall a, b | a in m && b in m && a != b
      ensures (m[a].product, m[a].user) != (m[b].product, m[b].user)
    {
      assert (m[a].product, m[a].user) == (reviews[a].product, reviews[a].user);
      assert (m[b].product, m[b].user) == (reviews[b].product, reviews[b].user);
    }
  }

  /** The first reply with the given id: `review.replies.id(replyId)`. */
  function ReplyIndex(replies: seq<Reply>, id: nat): (r: Option<nat>)
    ensures r.Some? ==> r.value < |replies| && replies[r.value].id == id
    ensures r.Some? ==> forall k :: 0 <= k < r.value ==> replies[k].id != id
    ensures r.None? ==> forall k :: 0 <= k < |replies| ==> replies[k].id != id
    decreases |replies|
  {
    if replies == [] then None
    else if replies[0].id == id then Some(0)
    else match ReplyIndex(replies[1..], id)
      case None => None
      case Some(k) => Some(k + 1)
  }

  /** The review with the `i`-th reply's lists replaced. */
  function WithReplyLists(r: Review, i: nat, likes: seq<UserId>, dislikes: seq<UserId>): Review
    requires i < |r.replies|
  {
    r.(replies := r.replies[i := r.replies[i].(likes := likes, dislikes := dislikes)])
  }

  /**
   * Replacing a reply's lists by lists that keep the reaction invariant
   * keeps the review sound, leaves its id, product and author alone, and
   * does not change whether it passes the schema's validators.
   */
  lemma ReplyListsSound(r: Review, i: nat, likes: seq<UserId>, dislikes: seq<UserId>)
    requires Sound(r) && i < |r.replies| && Reactions(likes, dislikes)
    ensures Sound(WithReplyLists(r, i, likes, dislikes))
    ensures ReviewPasses(WithReplyLists(r, i, likes, dislikes)) == ReviewPasses(r)
    ensures WithReplyLists(r, i, likes, dislikes).id == r.id
    ensures WithReplyLists(r, i, likes, dislikes).product == r.product
    ensures WithReplyLists(r, i, likes, dislikes).user == r.user
  {
    var w := WithReplyLists(r, i, likes, dislikes);
    assert forall k :: 0 <= k < |r.replies| ==> w.replies[k].text == r.replies[k].text;
    assert ReplySound(w.replies[i]);
  }

  /** What a toggle reports back. */
  datatype Reaction = Reaction(likesCount: nat, dislikesCount: nat, userLiked: bool, userDisliked: bool)

  // ---------------------------------------------------------------- handlers

  /** The stored reviews, keyed by id. Ids are drawn from a counter. */
  class ReviewBoard {
    var reviews: map<nat, Review>
    var nextId: nat

    predicate Valid()
      reads this
    {
      Consistent(reviews, nextId)
    }

    constructor ()
      ensures Valid() && reviews == map[] && nextId == 0
    {
      reviews := map[];
      nextId := 0;
    }

    /**
     * `addReview`: the checks of `CheckNewReview`, then the product must
     * exist (`productExists`, the result of the product lookup), the user
     * must not have reviewed it, and the new review must pass the schema's
     * validators; only then is it stored, with no likes, dislikes or replies.
     */
    method AddReview(session: Option<UserId>, product: nat, productExists: bool,
                     rating: Option<real>, comment: Option<string>) returns (r: Result<nat, Failure>)
      requires Valid()
      modifies this
      ensures Valid()
      ensures r.Ok? <==> (CheckNewReview(session, rating, comment).Ok? && productExists
        && !HasReviewed(old(reviews), product, session.value)
        && Utf16Length(CheckNewReview(session, rating, comment).value.2) <= MaxComment)
      ensures (CheckNewReview(session, rating, comment).Ok? && productExists
        && HasReviewed(old(reviews), product, session.value)) ==> r == Err(AlreadyReviewed)
      ensures r.Ok? ==> r.value !in old(reviews) && reviews == old(reviews)[r.value := Review(r.value, product,
        session.value, RatingValue(rating.value), Trim(comment.value), [], [], [])]
      ensures r.Ok? ==> r.value == old(nextId) && nextId == old(nextId) + 1
      ensures r.Err? ==> reviews == old(reviews) && nextId == old(nextId)
    {
      var checked := CheckNewReview(session, rating, comment);
      if checked.Err? {
        return Err(checked.error);
      }
      var (user, stars, text) := checked.value;
      if !productExists {
        return Err(ProductNotFound);
      }
      if HasReviewed(reviews, product, user) {
        return Err(AlreadyReviewed);
      }
      var review := Review(nextId, product, user, stars, text, [], [], []);
      if !ReviewPasses(review) {
        return Err(ServerError);
      }
      TrimIdempotent(comment.value);
      ConsistentInsert(reviews, nextId, review);
      reviews := reviews[nextId := review];
      r := Ok(nextId);
      nextId := nextId + 1;
    }

    /**
     * `addReply`: a session and a non-blank text, then the review must
     * exist; the trimmed reply is pushed with no likes or dislikes. The push
     * is an update, which does not run the schema's length validator.
     */
    method AddReply(session: Option<UserId>, reviewId: nat, text: Option<string>) returns (r: Result<nat, Failure>)
      requires Valid()
      modifies this
      ensures Valid()
      ensures r.Ok? <==> session.Some? && text.Some? && Trim(text.value) != [] && reviewId in old(reviews)
      ensures r.Ok? ==> reviews == old(reviews)[reviewId := old(reviews)[reviewId].(replies :=
        old(reviews)[reviewId].replies + [Reply(r.value, session.value, Trim(text.value), [], [])])]
      ensures r.Ok? ==> r.value == old(nextId) && nextId == old(nextId) + 1
      ensures r.Err? ==> reviews == old(reviews) && nextId == old(nextId)
    {
      if session.None? {
        return Err(LoginRequired);
      }
      if text.None? || text.value == [] || Trim(text.value) == [] {
        return Err(EmptyReply);
      }
      if reviewId !in reviews {
        return Err(ReviewNotFound);
      }
      var review := reviews[reviewId];
      var reply := Reply(nextId, session.value, Trim(text.value), [], []);
      var updated := review.(replies := review.replies + [reply]);
      assert Sound(updated) by {
        assert forall k :: 0 <= k < |review.replies| ==> updated.replies[k] == review.replies[k];
        assert ReplySound(reply);
      }
      ConsistentReplace(reviews, nextId, reviewId, updated);
      ConsistentGrow(reviews[reviewId := updated], nextId);
      reviews := reviews[reviewId := updated];
      r := Ok(nextId);
      nextId := nextId + 1;
    }

    /**
     * `likeReview`: the review's lists become `ReviewToggle(likes, dislikes)`;
     * the reply reports the new counts and whether the user now likes it.
     */
    method LikeReview(session: Option<UserId>, reviewId: nat) returns (r: Result<Reaction, Failure>)
      requires Valid()
      modifies this
      ensures Valid() && nextId == old(nextId)
      ensures r.Ok? <==> session.Some? && reviewId in old(reviews)
      ensures r.Ok? ==> var rv := old(reviews)[reviewId];
        var lists := ReviewToggle(rv.likes, rv.dislikes, session.value);
        && reviews == old(reviews)[reviewId := rv.(likes := lists.0, dislikes := lists.1)]
        && r.value == Reaction(|lists.0|, |lists.1|, session.value !in rv.likes, false)
      ensures r.Err? ==> reviews == old(reviews)
    {
      if session.None? {
        return Err(LoginRequired);
      }
      if reviewId !in reviews {
        return Err(ReviewNotFound);
      }
      var user := session.value;
      var review := reviews[reviewId];
      var already := user in review.likes;
      var lists := ReviewToggle(review.likes, review.dislikes, user);
      ToggleKeepsReactions(review.likes, review.dislikes, user);
      var updated := review.(likes := lists.0, dislikes := lists.1);
      ConsistentReplace(reviews, nextId, reviewId, updated);
      reviews := reviews[reviewId := updated];
      r := Ok(Reaction(|lists.0|, |lists.1|, !already, false));
    }

    /** `dislikeReview`: the mirror image of `LikeReview`, with the two lists swapped. */
    method DislikeReview(session: Option<UserId>, reviewId: nat) returns (r: Result<Reaction, Failure>)
      requires Valid()
      modifies this
      ensures Valid() && nextId == old(nextId)
      ensures r.Ok? <==> session.Some? && reviewId in old(reviews)
      ensures r.Ok? ==> var rv := old(reviews)[reviewId];
        var lists := ReviewToggle(rv.dislikes, rv.likes, session.value);
        && reviews == old(reviews)[reviewId := rv.(dislikes := lists.0, likes := lists.1)]
        && r.value == Reaction(|lists.1|, |lists.0|, false, session.value !in rv.dislikes)
      ensures r.Err? ==> reviews == old(reviews)
    {
      if session.None? {
        return Err(LoginRequired);
      }
      if reviewId !in reviews {
        return Err(ReviewNotFound);
      }
      var user := session.value;
      var review := reviews[reviewId];
      var already := user in review.dislikes;
      var lists := ReviewToggle(review.dislikes, review.likes, user);
      ToggleKeepsReactions(review.dislikes, review.likes, user);
      var updated := review.(dislikes := lists.0, likes := lists.1);
      ConsistentReplace(reviews, nextId, reviewId, updated);
      reviews := reviews[reviewId := updated];
      r := Ok(Reaction(|lists.1|, |lists.0|, false, !already));
    }

    /**
     * `likeReply`: the reply's lists become `ReplyToggle(likes, dislikes)`
     * and the review is saved, which fails, changing nothing, when the
     * review does not pass the schema's validators.
     */
    method LikeReply(session: Option<UserId>, reviewId: nat, replyId: nat) returns (r: Result<Reaction, Failure>)
      requires Valid()
      modifies this
      ensures Valid() && nextId == old(nextId)
      ensures r.Ok? <==> (session.Some? && reviewId in old(reviews)
        && ReplyIndex(old(reviews)[reviewId].replies, replyId).Some? && ReviewPasses(old(reviews)[reviewId]))
      ensures r.Ok? ==> var rv := old(reviews)[reviewId];
        var i := ReplyIndex(rv.replies, replyId).value;
        var lists := ReplyToggle(rv.replies[i].likes, rv.replies[i].dislikes, session.value);
        && reviews == old(reviews)[reviewId := WithReplyLists(rv, i, lists.0, lists.1)]
        && r.value == Reaction(|lists.0|, |lists.1|, session.value !in rv.replies[i].likes, false)
      ensures r.Err? ==> reviews == old(reviews)
    {
      if session.None? {
        return Err(LoginRequired);
      }
      if reviewId !in reviews {
        return Err(ReviewNotFound);
      }
      var review := reviews[reviewId];
      var found := ReplyIndex(review.replies, replyId);
      if found.None? {
        return Err(ReplyNotFound);
      }
      var i := found.value;
      var reply := review.replies[i];
      var lists := ReplyToggle(reply.likes, reply.dislikes, session.value);
      assert ReplySound(reply);
      ToggleKeepsReactions(reply.likes, reply.dislikes, session.value);
      var updated := WithReplyLists(review, i, lists.0, lists.1);
      ReplyListsSound(review, i, lists.0, lists.1);
      if !ReviewPasses(updated) {
        return Err(ServerError);
      }
      ConsistentReplace(reviews, nextId, reviewId, updated);
      reviews := reviews[reviewId := updated];
      r := Ok(Reaction(|lists.0|, |lists.1|, FindIndex(reply.likes, session.value).None?, false));
    }

    /** `dislikeReply`: the mirror image of `LikeReply`, with the two lists swapped. */
    method DislikeReply(session: Option<UserId>, reviewId: nat, replyId: nat) returns (r: Result<Reaction, Failure>)
      requires Valid()
      modifies this
      ensures Valid() && nextId == old(nextId)
      ensures r.Ok? <==> (session.Some? && reviewId in old(reviews)
        && ReplyIndex(old(reviews)[reviewId].replies, replyId).Some? && ReviewPasses(old(reviews)[reviewId]))
      ensures r.Ok? ==> var rv := old(reviews)[reviewId];
        var i := ReplyIndex(rv.replies, replyId).value;
        var lists := ReplyToggle(rv.replies[i].dislikes, rv.replies[i].likes, session.value);
        && reviews == old(reviews)[reviewId := WithReplyLists(rv, i, lists.1, lists.0)]
        && r.value == Reaction(|lists.1|, |lists.0|, false, session.value !in rv.replies[i].dislikes)
      ensures r.Err? ==> reviews == old(reviews)
    {
      if session.None? {
        return Err(LoginRequired);
      }
      if reviewId !in reviews {
        return Err(ReviewNotFound);
      }
      var review := reviews[reviewId];
      var found := ReplyIndex(review.replies, replyId);
      if found.None? {
        return Err(ReplyNotFound);
      }
      var i := found.value;
      var reply := review.replies[i];
      var lists := ReplyToggle(reply.dislikes, reply.likes, session.value);
      assert ReplySound(reply);
      ToggleKeepsReactions(reply.dislikes, reply.likes, session.value);
      ReactionsSymmetric(lists.0, lists.1);
      var updated := WithReplyLists(review, i, lists.1, lists.0);
      ReplyListsSound(review, i, lists.1, lists.0);
      if !ReviewPasses(updated) {
        return Err(ServerError);
      }
      ConsistentReplace(reviews, nextId, reviewId, updated);
      reviews := reviews[reviewId := updated];
      r := Ok(Reaction(|lists.1|, |lists.0|, false, FindIndex(reply.dislikes, session.value).None?));
    }

    /** `deleteReview`: only the review's author may delete it. */
    method DeleteReview(session: Option<UserId>, reviewId: nat) returns (r: Result<(), Failure>)
      requires Valid()
      modifies this
      ensures Valid() && nextId == old(nextId)
      ensures r.Ok? <==> session.Some? && reviewId in old(reviews) && old(reviews)[reviewId].user == session.value
      ensures (session.Some? && reviewId in old(reviews) && old(reviews)[reviewId].user != session.value) ==> r == Err(NotAuthor)
      ensures r.Ok? ==> reviews == old(reviews) - {reviewId}
      ensures r.Err? ==> reviews == old(reviews)
    {
      if session.None? {
        return Err(LoginRequired);
      }
      if reviewId !in reviews {
        return Err(ReviewNotFound);
      }
      if reviews[reviewId].user != session.value {
        return Err(NotAuthor);
      }
      ConsistentRemove(reviews, nextId, reviewId);
      reviews := reviews - {reviewId};
      r := Ok(());
    }

    /**
     * `updateReview`: only the author may edit; the edit is `Edited`, and
     * the review is stored only when it then passes the schema's validators.
     */
    method UpdateReview(session: Option<UserId>, reviewId: nat, rating: Option<real>, comment: Option<string>)
      returns (r: Result<Review, Failure>)
      requires Valid()
      modifies this
      ensures Valid() && nextId == old(nextId)
      ensures r.Ok? <==> (session.Some? && reviewId in old(reviews) && old(reviews)[reviewId].user == session.value
        && Edited(old(reviews)[reviewId], rating, comment).Ok?
        && ReviewPasses(Edited(old(reviews)[reviewId], rating, comment).value))
      ensures (session.Some? && reviewId in old(reviews) && old(reviews)[reviewId].user != session.value) ==> r == Err(NotAuthor)
      ensures r.Ok? ==> (r.value == Edited(old(reviews)[reviewId], rating, comment).value
        && reviews == old(reviews)[reviewId := r.value])
      ensures r.Err? ==> reviews == old(reviews)
    {
      if session.None? {
        return Err(LoginRequired);
      }
      if reviewId !in reviews {
        return Err(ReviewNotFound);
      }
      var review := reviews[reviewId];
      if review.user != session.value {
        return Err(NotAuthor);
      }
      var edited := Edited(review, rating, comment);
      if edited.Err? {
        return Err(edited.error);
      }
      if !ReviewPasses(edited.value) {
        return Err(ServerError);
      }
      EditedSound(review, rating, comment);
      ConsistentReplace(reviews, nextId, reviewId, edited.value);
      reviews := reviews[reviewId := edited.value];
      r := Ok(edited.value);
    }
  }

  /** Raising the id counter keeps the invariant. */
  lemma ConsistentGrow(reviews: map<nat, Review>, nextId: nat)
    requires Consistent(reviews, nextId)
    ensures Consistent(reviews, nextId + 1)
  {
  }

  /** Removing a review keeps the invariant. */
  lemma ConsistentRemove(reviews: map<nat, Review>, nextId: nat, id: nat)
    requires Consistent(reviews, nextId)
    ensures Consistent(reviews - {id}, nextId)
  {
  }

  /** The reaction invariant does not depend on which list is called the likes. */
  lemma ReactionsSymmetric(a: seq<UserId>, b: seq<UserId>)
    requires Reactions(a, b)
    ensures Reactions(b, a)
  {
  }

  /** An accepted edit of a sound review that passes the validators is sound. */
  lemma EditedSound(r: Review, rating: Option<real>, comment: Option<string>)
    requires Sound(r) && Edited(r, rating, comment).Ok? && ReviewPasses(Edited(r, rating, comment).value)
    ensures Sound(Edited(r, rating, comment).value)
  {
    if comment.Some? && comment.value != [] {
      TrimIdempotent(comment.value);
    }
  }
}

=== FILE: sms_findings.dfy ===
/**
 * Two places where the parser's pattern tables do not read what their own
 * comments describe, each stated twice: about the tables as written, and
 * about the tables as evidently intended.
 *
 * 1. `\d{1,3}` leads every amount pattern, and nothing stops a match from
 *    starting inside a longer run of digits: `15500 dungeer` is read as 500.
 *    The intended tables let the leading digits be the whole run (`\d+`).
 * 2. `ref[:\s]*` comes before `reference[:\s]*`, and it matches wherever the
 *    longer one does: `Reference: ORD-A7X9` yields the code `ERENCE`. The
 *    intended table tries `reference` first.
 */
module SmsFindings {
  import opened Wrappers
  import opened JsText
  import opened SmsPatterns
  import opened SmsNumerals
  import opened SmsParser

  // ---------------------------------------------------------------- amounts cut to their last three digits

  /** The amount patterns with `\d+` in place of `\d{1,3}` for the leading digits. */
  const IntendedAmountPatterns: seq<Capture> := [
    NumeralBefore("dungeer", true), NumeralBefore("төгрөг", true), NumeralBefore("togrog", true),
    NumeralBefore("mnt", true), NumeralAfter("орлого", true), NumeralAfter("amount", true)
  ]

  /** Cents as a numeral writes them: two digits, or none. */
  predicate CentsOk(c: Option<string>) {
    c.Some? ==> |c.value| == 2 && AllDigits(c.value, 10)
  }

  /** An amount written with the digits `ds` and no separators, the cents `c`, then ` dungeer`. */
  function Written(ds: string, c: Option<string>): string {
    ds + CentsText(c) + " dungeer"
  }

  /** Every end in `ends` lies after `lo` and at most at `hi`. */
  predicate EndsWithin(ends: seq<nat>, lo: nat, hi: nat) {
    forall k :: 0 <= k < |ends| ==> lo < ends[k] <= hi
  }

  /** Inside a run of digits, the numeral pattern can only stop after one of its first `a` digits. */
  lemma {:induction false} EndsInsideDigits(s: string, i: nat, a: nat)
    requires i + a < |s|
    requires forall k :: i < k <= i + a ==> IsDigit(s[k])
    ensures EndsWithin(LeadEnds(s, i, a), i, i + a)
    decreases a
  {
    if a > 0 {
      EndsInsideDigits(s, i, a - 1);
      EndsInsideDigitsStep(s, i, a);
    }
  }

  /** A digit after the first `a` leading digits adds the one end right after them. */
  lemma {:induction false} EndsInsideDigitsStep(s: string, i: nat, a: nat)
    requires 0 < a && i + a < |s| && IsDigit(s[i + a])
    requires EndsWithin(LeadEnds(s, i, a - 1), i, i + a - 1)
    ensures EndsWithin(LeadEnds(s, i, a), i, i + a)
  {
    var p := i + a;
    DigitStopsGroups(s, p);
    var le := LeadEnds(s, i, a - 1);
    assert LeadEnds(s, i, a) == [p] + le;
    EndsPrepend(p, le, i, a);
  }

  /** Ends strictly after `i` and up to `i + a - 1`, with `i + a` put first, stay within `i + a`. */
  lemma {:induction false} EndsPrepend(p: nat, le: seq<nat>, i: nat, a: nat)
    requires 0 < a && p == i + a
    requires EndsWithin(le, i, i + a - 1)
    ensures EndsWithin([p] + le, i, i + a)
  {
    forall k | 0 <= k < |[p] + le| ensures i < ([p] + le)[k] <= i + a {
      if k > 0 {
        assert ([p] + le)[k] == le[k - 1];
      }
    }
  }

  /** A digit at `p` starts neither a group nor cents: the only end from `p` is `p`. */
  lemma {:induction false} DigitStopsGroups(s: string, p: nat)
    requires p < |s| && IsDigit(s[p])
    ensures GroupEnds(s, p, GroupRun(s, p)) == [p]
  {
    assert GroupRun(s, p) == 0;
    assert CentsEnds(s, p) == [p];
  }

  /** A run of `n` digits from `i` makes the digit run from `i` at least `n` long. */
  lemma {:induction false} RunAtLeast(s: string, i: nat, n: nat)
    requires i + n <= |s| && forall k :: i <= k < i + n ==> IsDigit(s[k])
    ensures DigitRun(s, i, 10) >= n
    decreases n
  {
    if n > 0 {
      RunAtLeast(s, i + 1, n - 1);
    }
  }

  /** No end followed by a digit is followed by a keyword that starts with a letter. */
  lemma {:induction false} NoKeywordAfterDigits(s: string, ends: seq<nat>, kw: string)
    requires kw != [] && 'a' <= kw[0] <= 'z'
    requires forall k :: 0 <= k < |ends| ==> ends[k] < |s| && IsDigit(s[ends[k]])
    ensures FirstEndBefore(s, ends, kw).None?
  {
    forall e | e in ends ensures !MatchesAt(s, SkipSpaces(s, e), kw) {
      var k :| 0 <= k < |ends| && ends[k] == e;
      assert IsDigit(s[e]);
      assert SkipSpaces(s, e) == e;
      FoldDigit(s[e]);
    }
  }

  /** A digit folds to itself. */
  lemma {:induction false} FoldDigit(c: char)
    requires IsDigit(c)
    ensures Fold(c) == c
  {
  }

  /** Where four digits follow, no numeral starting there is followed by a keyword. */
  lemma {:induction false} NoCaptureInsideRun(s: string, j: nat, kw: string)
    requires kw != [] && 'a' <= kw[0] <= 'z'
    requires j + 3 < |s| && forall k :: j <= k <= j + 3 ==> IsDigit(s[k])
    ensures CaptureAt(s, j, NumeralBefore(kw, false)).None?
  {
    RunAtLeast(s, j, 3);
    EndsInsideDigits(s, j, 3);
    NoKeywordAfterDigits(s, NumeralEnds(s, j), kw);
  }

  /** A written amount is its digits, then its cents, then ` dungeer`, character by character. */
  lemma {:induction false} WrittenChars(ds: string, c: Option<string>)
    ensures var s := Written(ds, c); var t := CentsText(c); var e := |ds| + |t|;
      && |s| == e + 8
      && (forall k :: 0 <= k < |ds| ==> s[k] == ds[k])
      && (forall k :: 0 <= k < |t| ==> s[|ds| + k] == t[k])
      && (forall k :: 0 <= k < 8 ==> s[e + k] == " dungeer"[k])
  {
    var s := Written(ds, c);
    var t := CentsText(c);
    var e := |ds| + |t|;
    forall k | 0 <= k < 8 ensures s[e + k] == " dungeer"[k] {
    }
  }

  /** The digits of a written amount come first. */
  lemma {:induction false} WrittenDigits(ds: string, c: Option<string>)
    requires AllDigits(ds, 10)
    ensures forall k :: 0 <= k < |ds| ==> IsDigit(Written(ds, c)[k])
  {
    var s := Written(ds, c);
    WrittenChars(ds, c);
    forall k | 0 <= k < |ds| ensures IsDigit(s[k]) {
      assert s[k] == ds[k] && IsRadixDigit(ds[k], 10);
    }
  }

  /** After the digits and the cents of a written amount, one space and then `dungeer`. */
  lemma {:induction false} WrittenKeyword(ds: string, c: Option<string>)
    ensures var s := Written(ds, c); var e := |ds| + |CentsText(c)|;
      && e + 8 == |s| && s[e] == ' ' && MatchesAt(s, e + 1, "dungeer") && SkipSpaces(s, e) == e + 1
  {
    var s := Written(ds, c);
    var e := |ds| + |CentsText(c)|;
    WrittenChars(ds, c);
    forall k | 0 <= k < 8 ensures s[e..e + 8][k] == (" " + "dungeer")[k] {
      assert s[e + k] == " dungeer"[k];
    }
    DungeerFolded();
    SpaceThenWord(s, e, "dungeer");
  }

  /** What follows the digits of a written amount: a space, or the cents and then a space. */
  lemma {:induction false} WrittenCents(ds: string, c: Option<string>)
    requires CentsOk(c)
    ensures var s := Written(ds, c);
      && (c.None? ==> s[|ds|] == ' ')
      && (c.Some? ==> HasCents(s, |ds|) && s[|ds| + 3] == ' ')
  {
    var s := Written(ds, c);
    WrittenChars(ds, c);
    if c.Some? {
      var t := CentsText(c);
      assert s[|ds|] == t[0] == '.' && s[|ds| + 1] == t[1] == c.value[0] && s[|ds| + 2] == t[2] == c.value[1];
      assert IsRadixDigit(c.value[0], 10) && IsRadixDigit(c.value[1], 10);
      assert s[|ds| + 3] == " dungeer"[0];
    } else {
      assert s[|ds| + 0] == " dungeer"[0];
    }
  }

  /** From position `i` within the digits, a written amount spells the rest of the digits and the cents. */
  lemma {:induction false} WrittenSlice(ds: string, c: Option<string>, i: nat)
    requires i <= |ds|
    ensures var s := Written(ds, c); var e := |ds| + |CentsText(c)|;
      e <= |s| && s[i..e] == ds[i..] + CentsText(c)
  {
    var s := Written(ds, c);
    var t := CentsText(c);
    var e := |ds| + |t|;
    WrittenChars(ds, c);
    forall k | 0 <= k < e - i ensures s[i..e][k] == (ds[i..] + t)[k] {
      if i + k < |ds| {
        assert s[i + k] == ds[i + k];
      } else {
        assert s[|ds| + (i + k - |ds|)] == t[i + k - |ds|];
      }
    }
  }

  /**
   * As written: of the digits before the cents and ` dungeer`, the first
   * amount pattern captures only the last three.
   */
  lemma {:induction false} AmountKeepsLastThreeDigits(ds: string, c: Option<string>)
    requires |ds| >= 4 && AllDigits(ds, 10) && CentsOk(c)
    ensures Group(Written(ds, c), NumeralBefore("dungeer", false)) == Some(ds[|ds| - 3..] + CentsText(c))
  {
    var s := Written(ds, c);
    var i := |ds| - 3;
    var num := Numeral(ds[i..], [], c);
    LastThreeLayout(ds, c);
    NoCaptureBeforeLastThree(ds, c);
    DungeerGroup(s, i, num);
  }

  /** The last three digits and the cents form a numeral followed by `dungeer`. */
  lemma {:induction false} LastThreeLayout(ds: string, c: Option<string>)
    requires |ds| >= 4 && AllDigits(ds, 10) && CentsOk(c)
    ensures NumeralThenDungeer(Written(ds, c), |ds| - 3, Numeral(ds[|ds| - 3..], [], c))
    ensures Text(Numeral(ds[|ds| - 3..], [], c)) == ds[|ds| - 3..] + CentsText(c)
  {
    var s := Written(ds, c);
    var i := |ds| - 3;
    var num := Numeral(ds[i..], [], c);
    LastThreeDigits(ds);
    assert WellFormed(num);
    assert Text(num) == ds[i..] + CentsText(c);
    WrittenSlice(ds, c, i);
    WrittenKeyword(ds, c);
  }

  /** No numeral starting before the last three digits is followed by `dungeer`. */
  lemma {:induction false} NoCaptureBeforeLastThree(ds: string, c: Option<string>)
    requires |ds| >= 4 && AllDigits(ds, 10) && CentsOk(c)
    ensures forall j :: 0 <= j < |ds| - 3 ==> CaptureAt(Written(ds, c), j, NumeralBefore("dungeer", false)).None?
  {
    var s := Written(ds, c);
    WrittenDigits(ds, c);
    forall j | 0 <= j < |ds| - 3 ensures CaptureAt(s, j, NumeralBefore("dungeer", false)).None? {
      NoCaptureInsideRun(s, j, "dungeer");
    }
  }

  /** The last three of four or more digits are digits. */
  lemma {:induction false} LastThreeDigits(ds: string)
    requires |ds| >= 4 && AllDigits(ds, 10)
    ensures AllDigits(ds[|ds| - 3..], 10)
  {
    var last := ds[|ds| - 3..];
    forall k | 0 <= k < 3 ensures IsRadixDigit(last[k], 10) {
      assert last[k] == ds[|ds| - 3 + k];
    }
  }

  /**
   * As written, an amount without cents: the first amount pattern reads the
   * last three digits; when they read as 0 it is skipped and the search
   * moves on.
   */
  lemma {:induction false} AmountFromLastThreeDigits(ds: string)
    requires |ds| >= 4 && AllDigits(ds, 10)
    ensures var v := DigitsValue(ds[|ds| - 3..], 10) as real;
      FirstAmount(Written(ds, None), AmountPatterns, 0)
        == if v > 0.0 then Some(v) else FirstAmount(Written(ds, None), AmountPatterns, 1)
  {
    var last := ds[|ds| - 3..];
    AmountKeepsLastThreeDigits(ds, None);
    LastThreeDigits(ds);
    var t := last + CentsText(None);
    assert t == last;
    ReadDigitsOnly(t);
    FirstPatternReads(Written(ds, None), AmountPatterns, t);
  }

  /** As written, an amount with cents: the same, with the cents added to the last three digits. */
  lemma {:induction false} AmountFromLastThreeDigitsAndCents(ds: string, cs: string)
    requires |ds| >= 4 && AllDigits(ds, 10) && |cs| == 2 && AllDigits(cs, 10)
    ensures var v := DigitsValue(ds[|ds| - 3..], 10) as real + FractionValue(cs);
      FirstAmount(Written(ds, Some(cs)), AmountPatterns, 0)
        == if v > 0.0 then Some(v) else FirstAmount(Written(ds, Some(cs)), AmountPatterns, 1)
  {
    var last := ds[|ds| - 3..];
    AmountKeepsLastThreeDigits(ds, Some(cs));
    LastThreeDigits(ds);
    var t := last + CentsText(Some(cs));
    ReadDigitsPointCents(t, last, cs);
    FirstPatternReads(Written(ds, Some(cs)), AmountPatterns, t);
  }

  /** The first pattern of a table decides the amount when its group reads as a positive number. */
  lemma {:induction false} FirstPatternReads(s: string, table: seq<Capture>, t: string)
    requires |table| > 0 && Group(s, table[0]) == Some(t) && ParseFloat(Without(t, ',')).Finite?
    ensures var v := ParseFloat(Without(t, ',')).value;
      FirstAmount(s, table, 0) == if v > 0.0 then Some(v) else FirstAmount(s, table, 1)
  {
    FirstAmountStep(s, table, 0);
  }

  /** The first end the whole-lead numeral tries from 0 is the end of the digits and the cents. */
  lemma {:induction false} WholeEndsStart(ds: string, c: Option<string>)
    requires |ds| >= 1 && AllDigits(ds, 10) && CentsOk(c)
    ensures var ends := WholeNumeralEnds(Written(ds, c), 0);
      ends != [] && ends[0] == |ds| + |CentsText(c)|
  {
    var s := Written(ds, c);
    var n := |ds|;
    WrittenDigits(ds, c);
    WrittenCents(ds, c);
    WrittenKeyword(ds, c);
    DigitRunExact(s, 0, n, 10);
    assert WholeNumeralEnds(s, 0) == LeadEnds(s, 0, n);
    assert GroupRun(s, n) == 0;
    LeadEndsHead(s, 0, n);
    GroupEndsHead(s, n, 0);
    assert HasCents(s, n) <==> c.Some?;
  }

  /** Intended: the whole-lead pattern captures all the digits and the cents. */
  lemma {:induction false} IntendedGroupWholeRun(ds: string, c: Option<string>)
    requires |ds| >= 1 && AllDigits(ds, 10) && CentsOk(c)
    ensures Group(Written(ds, c), NumeralBefore("dungeer", true)) == Some(ds + CentsText(c))
  {
    var s := Written(ds, c);
    var p := NumeralBefore("dungeer", true);
    var e: nat := |ds| + |CentsText(c)|;
    WholeCapture(ds, c);
    MatchFromFirst(s, p, 0, 0);
    WrittenSlice(ds, c, 0);
    assert ds[0..] == ds;
    GroupAtFirst(s, p, 0, (0, e), ds + CentsText(c));
  }

  /** Intended: the whole-lead pattern matches at 0, up to the end of the digits and the cents. */
  lemma {:induction false} WholeCapture(ds: string, c: Option<string>)
    requires |ds| >= 1 && AllDigits(ds, 10) && CentsOk(c)
    ensures CaptureAt(Written(ds, c), 0, NumeralBefore("dungeer", true)) == Some((0, |ds| + |CentsText(c)|))
  {
    var s := Written(ds, c);
    WrittenKeyword(ds, c);
    WholeEndsStart(ds, c);
    FirstEndTaken(s, WholeNumeralEnds(s, 0), "dungeer");
  }

  /** `parseFloat` of digits with no comma gives their value. */
  lemma {:induction false} ReadDigitsOnly(ds: string)
    requires |ds| >= 1 && AllDigits(ds, 10)
    ensures ParseFloat(Without(ds, ',')) == Finite(DigitsValue(ds, 10) as real)
  {
    DigitsHaveNoComma(ds);
    ParseFloatWhole(ds);
  }

  /** `parseFloat` of `ds.cs`, written as `t`, with no comma gives its value. */
  lemma {:induction false} ReadDigitsPointCents(t: string, ds: string, cs: string)
    requires |ds| >= 1 && AllDigits(ds, 10) && |cs| == 2 && AllDigits(cs, 10)
    requires t == ds + ("." + cs)
    ensures ParseFloat(Without(t, ',')) == Finite(DigitsValue(ds, 10) as real + FractionValue(cs))
  {
    assert Without(t, ',') == t by {
      DigitsHaveNoComma(ds);
      DigitsHaveNoComma(cs);
      assert ',' !in t;
    }
    ParseFloatFraction(ds, cs);
  }

  /** Intended, an amount without cents: the amount read is the value of all the digits, when positive. */
  lemma {:induction false} IntendedAmountReadsWholeRun(ds: string)
    requires |ds| >= 1 && AllDigits(ds, 10)
    ensures var v := DigitsValue(ds, 10) as real;
      FirstAmount(Written(ds, None), IntendedAmountPatterns, 0)
        == if v > 0.0 then Some(v) else FirstAmount(Written(ds, None), IntendedAmountPatterns, 1)
  {
    IntendedGroupWholeRun(ds, None);
    var t := ds + CentsText(None);
    assert t == ds;
    ReadDigitsOnly(t);
    FirstPatternReads(Written(ds, None), IntendedAmountPatterns, t);
  }

  /** Intended, an amount with cents: the value of all the digits and the cents, when positive. */
  lemma {:induction false} IntendedAmountReadsWholeRunAndCents(ds: string, cs: string)
    requires |ds| >= 1 && AllDigits(ds, 10) && |cs| == 2 && AllDigits(cs, 10)
    ensures var v := DigitsValue(ds, 10) as real + FractionValue(cs);
      FirstAmount(Written(ds, Some(cs)), IntendedAmountPatterns, 0)
        == if v > 0.0 then Some(v) else FirstAmount(Written(ds, Some(cs)), IntendedAmountPatterns, 1)
  {
    IntendedGroupWholeRun(ds, Some(cs));
    var t := ds + CentsText(Some(cs));
    ReadDigitsPointCents(t, ds, cs);
    FirstPatternReads(Written(ds, Some(cs)), IntendedAmountPatterns, t);
  }

  /** The digits of `15500` and of its last three digits, `500`, read as numbers. */
  lemma {:induction false} FifteenThousandFiveHundredDigits()
    ensures AllDigits("15500", 10) && DigitsValue("15500", 10) == 15500
    ensures "15500"[2..] == "500" && DigitsValue("500", 10) == 500
  {
    FifteenThousandFiveHundredValue();
    FiveHundredValue();
  }

  /** `15500` denotes 15500. */
  lemma {:induction false} FifteenThousandFiveHundredValue()
    ensures AllDigits("15500", 10) && DigitsValue("15500", 10) == 15500
  {
    assert DigitsValue("1", 10) == 1 by { assert "1"[..0] == ""; }
    assert DigitsValue("15", 10) == 15 by { assert "15"[..1] == "1"; }
    assert DigitsValue("155", 10) == 155 by { assert "155"[..2] == "15"; }
    assert DigitsValue("1550", 10) == 1550 by { assert "1550"[..3] == "155"; }
    assert DigitsValue("15500", 10) == 15500 by { assert "15500"[..4] == "1550"; }
  }

  /** `500` denotes 500. */
  lemma {:induction false} FiveHundredValue()
    ensures AllDigits("500", 10) && DigitsValue("500", 10) == 500
  {
    assert DigitsValue("5", 10) == 5 by { assert "5"[..0] == ""; }
    assert DigitsValue("50", 10) == 50 by { assert "50"[..1] == "5"; }
    assert DigitsValue("500", 10) == 500 by { assert "500"[..2] == "50"; }
  }

  /** `15500 dungeer` is trimmed already and reads as incoming. */
  lemma {:induction false} FifteenThousandFiveHundredLayout()
    ensures var s := Written("15500", None);
      s != [] && Trim(s) == s && Detects(s, IncomingPattern)
  {
    var s := Written("15500", None);
    FifteenThousandFiveHundredValue();
    WrittenDigits("15500", None);
    WrittenKeyword("15500", None);
    FoldToLetter(s[12], 'r');
    TrimUnchanged(s);
    DungeerIncoming(s, 6);
  }

  /** As written, `15500 dungeer` is a valid incoming payment of 500. */
  lemma {:induction false} FifteenThousandFiveHundredAsWritten(from: string)
    ensures var r := Parse(Some(Written("15500", None)), from);
      r.isValid && r.amount == Some(500.0)
  {
    FifteenThousandFiveHundredDigits();
    AmountFromLastThreeDigits("15500");
    FifteenThousandFiveHundredLayout();
    ParseTrimmed(Written("15500", None), from);
  }

  /** With the intended patterns, `15500 dungeer` is read as 15500. */
  lemma {:induction false} FifteenThousandFiveHundredIntended()
    ensures FirstAmount(Written("15500", None), IntendedAmountPatterns, 0) == Some(15500.0)
  {
    FifteenThousandFiveHundredDigits();
    IntendedAmountReadsWholeRun("15500");
  }

  /** The digits `2000` and the cents `00` read as numbers. */
  lemma {:induction false} TwoThousandDigits()
    ensures AllDigits("2000", 10) && DigitsValue("2000", 10) == 2000
    ensures "2000"[1..] == "000" && DigitsValue("000", 10) == 0
    ensures AllDigits("00", 10) && FractionValue("00") == 0.0
  {
    TwoThousandValue();
    ZerosValue();
  }

  /** `2000` denotes 2000. */
  lemma {:induction false} TwoThousandValue()
    ensures AllDigits("2000", 10) && DigitsValue("2000", 10) == 2000
  {
    assert DigitsValue("2", 10) == 2 by { assert "2"[..0] == ""; }
    assert DigitsValue("20", 10) == 20 by { assert "20"[..1] == "2"; }
    assert DigitsValue("200", 10) == 200 by { assert "200"[..2] == "20"; }
    assert DigitsValue("2000", 10) == 2000 by { assert "2000"[..3] == "200"; }
  }

  /** `00` and `000` denote 0. */
  lemma {:induction false} ZerosValue()
    ensures AllDigits("00", 10) && DigitsValue("00", 10) == 0
    ensures AllDigits("000", 10) && DigitsValue("000", 10) == 0
  {
    assert DigitsValue("0", 10) == 0 by { assert "0"[..0] == ""; }
    assert DigitsValue("00", 10) == 0 by { assert "00"[..1] == "0"; }
    assert DigitsValue("000", 10) == 0 by { assert "000"[..2] == "00"; }
  }

  /** Cents that read as 0 add nothing. */
  lemma {:induction false} ZeroCents(cs: string)
    requires AllDigits(cs, 10) && DigitsValue(cs, 10) == 0
    ensures FractionValue(cs) == 0.0
  {
  }

  /** As written: when the last three digits and the cents read as 0, the first pattern is skipped. */
  lemma {:induction false} ZeroTailSkipped(ds: string, cs: string)
    requires |ds| >= 4 && AllDigits(ds, 10) && |cs| == 2 && AllDigits(cs, 10)
    requires DigitsValue(ds[|ds| - 3..], 10) == 0 && DigitsValue(cs, 10) == 0
    ensures FirstAmount(Written(ds, Some(cs)), AmountPatterns, 0)
      == FirstAmount(Written(ds, Some(cs)), AmountPatterns, 1)
  {
    ZeroCents(cs);
    AmountFromLastThreeDigitsAndCents(ds, cs);
  }

  /** Intended: digits and cents whose value `v` is positive are read as `v`. */
  lemma {:induction false} IntendedReadsPositive(ds: string, cs: string, v: real)
    requires |ds| >= 1 && AllDigits(ds, 10) && |cs| == 2 && AllDigits(cs, 10)
    requires v == DigitsValue(ds, 10) as real + FractionValue(cs) && v > 0.0
    ensures FirstAmount(Written(ds, Some(cs)), IntendedAmountPatterns, 0) == Some(v)
  {
    IntendedAmountReadsWholeRunAndCents(ds, cs);
  }

  /** The text `000.00` is the last three digits of `2000` and its cents. */
  lemma {:induction false} TwoThousandTail()
    ensures "2000"[1..] + CentsText(Some("00")) == "000.00"
  {
    assert "2000"[1..] == "000";
  }

  /**
   * As written: in `2000.00 dungeer`, the form the comment on the first
   * amount pattern names, that pattern captures `000.00`, which reads as 0,
   * so the pattern is skipped.
   */
  lemma {:induction false} TwoThousandSkipped()
    ensures Group(Written("2000", Some("00")), NumeralBefore("dungeer", false)) == Some("000.00")
    ensures FirstAmount(Written("2000", Some("00")), AmountPatterns, 0)
      == FirstAmount(Written("2000", Some("00")), AmountPatterns, 1)
  {
    TwoThousandDigits();
    AmountKeepsLastThreeDigits("2000", Some("00"));
    TwoThousandTail();
    ZeroTailSkipped("2000", "00");
  }

  /** Intended: `2000.00 dungeer` is read as 2000. */
  lemma {:induction false} TwoThousandIntended()
    ensures FirstAmount(Written("2000", Some("00")), IntendedAmountPatterns, 0) == Some(2000.0)
  {
    TwoThousandDigits();
    IntendedReadsPositive("2000", "00", 2000.0);
  }

  // ---------------------------------------------------------------- `ref` shadows `reference`

  /** The code patterns with `reference` tried before `ref`. */
  const IntendedCodePatterns: seq<Capture> := [
    CodeAfter("utga:", false), CodeAfter("утга:", false), CodeAfter("reference", true), CodeAfter("ref", true)
  ]

  /** A character that folds to `e` is a code character, neither a colon nor white space. */
  lemma {:induction false} FoldsToE(c: char)
    requires Fold(c) == 'e'
    ensures IsCodeChar(c) && c != ':' && !IsSpace(c)
  {
  }

  /** Wherever `reference[:\s]*([A-Z0-9-]+)` matches, `ref[:\s]*([A-Z0-9-]+)` matches too. */
  lemma {:induction false} RefMatchesWhereReferenceDoes(s: string, i: nat)
    requires i <= |s|
    requires CaptureAt(s, i, CodeAfter("reference", true)).Some?
    ensures CaptureAt(s, i, CodeAfter("ref", true)).Some?
  {
    assert MatchesAt(s, i, "reference");
    forall k | 0 <= k < 3 ensures Fold(s[i + k]) == "ref"[k] {
      assert "ref"[k] == "reference"[k];
    }
    assert Fold(s[i + 3]) == "reference"[3];
    FoldsToE(s[i + 3]);
    assert SkipColonSpaces(s, i + 3) == i + 3;
  }

  /** When `ref` matches nowhere, neither does `reference`. */
  lemma {:induction false} ReferenceNeedsRef(s: string)
    requires Group(s, CodeAfter("ref", true)).None?
    ensures Group(s, CodeAfter("reference", true)).None?
  {
    GroupNone(s, CodeAfter("ref", true));
    forall j | 0 <= j <= |s| ensures CaptureAt(s, j, CodeAfter("reference", true)).None? {
      if CaptureAt(s, j, CodeAfter("reference", true)).Some? {
        RefMatchesWhereReferenceDoes(s, j);
      }
    }
    GroupNone(s, CodeAfter("reference", true));
  }

  /** As written: the last code pattern, `reference`, never decides the payment code. */
  lemma {:induction false} ReferenceNeverDecides(s: string)
    ensures FirstCode(s, CodePatterns, 0) == FirstCode(s, CodePatterns[..3], 0)
  {
    var short := CodePatterns[..3];
    FirstCodeStep(s, CodePatterns, 0);
    FirstCodeStep(s, CodePatterns, 1);
    FirstCodeStep(s, CodePatterns, 2);
    FirstCodeStep(s, short, 0);
    FirstCodeStep(s, short, 1);
    FirstCodeStep(s, short, 2);
    if Group(s, CodeAfter("ref", true)).None? {
      ReferenceNeedsRef(s);
      FirstCodeStep(s, CodePatterns, 3);
    }
  }

  /** Only a colon folds to a colon. */
  lemma {:induction false} FoldColon(c: char)
    ensures Fold(c) == ':' ==> c == ':'
  {
  }

  /** No `utga:` (Latin or Cyrillic) occurs in `Reference: ` followed by a code. */
  lemma {:induction false} NoUtgaInReference(code: string)
    requires CodeShaped(code)
    ensures Group("Reference: " + code, CodeAfter("utga:", false)).None?
    ensures Group("Reference: " + code, CodeAfter("утга:", false)).None?
  {
    var s := "Reference: " + code;
    assert "utga:"[4] == ':' && "утга:"[4] == ':';
    forall j | 0 <= j <= |s|
      ensures !MatchesAt(s, j, "utga:") && !MatchesAt(s, j, "утга:")
    {
      if j + 5 <= |s| {
        if j == 5 {
          assert s[j] == 'e';
          assert Fold(s[j]) != "utga:"[0] && Fold(s[j]) != "утга:"[0];
        } else {
          if j + 4 < 11 {
            assert s[j + 4] == "Reference: "[j + 4];
          } else {
            assert s[j + 4] == code[j + 4 - 11];
            assert IsPaymentCodeChar(code[j + 4 - 11]);
          }
          assert s[j + 4] != ':';
          FoldColon(s[j + 4]);
        }
      }
    }
    GroupNone(s, CodeAfter("utga:", false));
    GroupNone(s, CodeAfter("утга:", false));
  }

  /** `Reference: ` followed by a code: where the code starts, and what `ref` captures. */
  lemma {:induction false} ReferenceLayout(code: string)
    requires CodeShaped(code)
    ensures var s := "Reference: " + code;
      && CaptureAt(s, 0, CodeAfter("reference", true)) == Some((11, |s|))
      && CaptureAt(s, 0, CodeAfter("ref", true)) == Some((3, 9))
      && s[11..] == code && s[3..9] == "erence"
  {
    ReferenceCapture(code);
    RefCapture(code);
  }

  /** `reference[:\s]*([A-Z0-9-]+)` captures the code after `Reference: `. */
  lemma {:induction false} ReferenceCapture(code: string)
    requires CodeShaped(code)
    ensures var s := "Reference: " + code;
      CaptureAt(s, 0, CodeAfter("reference", true)) == Some((11, |s|)) && s[11..] == code
  {
    var s := "Reference: " + code;
    ReferenceMarker(code);
    assert IsPaymentCodeChar(code[0]);
    assert SkipColonSpaces(s, 11) == 11;
    assert SkipColonSpaces(s, 10) == SkipColonSpaces(s, 11);
    assert SkipColonSpaces(s, 9) == 11;
    forall k | 11 <= k < |s| ensures IsCodeChar(s[k]) {
      assert IsPaymentCodeChar(code[k - 11]);
    }
    CodeRunOf(s, 11, |code|);
    assert s[11..] == code;
  }

  /** `ref[:\s]*([A-Z0-9-]+)` captures `erence` from `Reference: `. */
  lemma {:induction false} RefCapture(code: string)
    requires CodeShaped(code)
    ensures var s := "Reference: " + code;
      CaptureAt(s, 0, CodeAfter("ref", true)) == Some((3, 9)) && s[3..9] == "erence"
  {
    var s := "Reference: " + code;
    ReferenceMarker(code);
    assert SkipColonSpaces(s, 3) == 3;
    CodeRunOf(s, 3, 6);
  }

  /** `Reference: ` starts with `reference`, and so with `ref`, ignoring case. */
  lemma {:induction false} ReferenceMarker(code: string)
    ensures MatchesAt("Reference: " + code, 0, "reference") && MatchesAt("Reference: " + code, 0, "ref")
  {
    var s := "Reference: " + code;
    forall k | 0 <= k < 9 ensures Fold(s[k]) == "reference"[k] {
      assert s[k] == "Reference"[k];
    }
  }

  /** The groups of `ref` and of `reference` in `Reference: ` followed by a code. */
  lemma {:induction false} ReferenceGroups(code: string)
    requires CodeShaped(code)
    ensures Group("Reference: " + code, CodeAfter("ref", true)) == Some("erence")
    ensures Group("Reference: " + code, CodeAfter("reference", true)) == Some(code)
  {
    var s := "Reference: " + code;
    ReferenceLayout(code);
    MatchFromFirst(s, CodeAfter("ref", true), 0, 0);
    GroupAtFirst(s, CodeAfter("ref", true), 0, (3, 9), "erence");
    MatchFromFirst(s, CodeAfter("reference", true), 0, 0);
    GroupAtFirst(s, CodeAfter("reference", true), 0, (11, |s|), code);
  }

  /** When only the third pattern of a table matches among the first three, it decides the code. */
  lemma {:induction false} ThirdPatternDecides(s: string, table: seq<Capture>)
    requires |table| >= 3
    requires Group(s, table[0]).None? && Group(s, table[1]).None? && Group(s, table[2]).Some?
    ensures FirstCode(s, table, 0) == Some(NormalizeCode(Group(s, table[2]).value))
  {
    FirstCodeStep(s, table, 0);
    FirstCodeStep(s, table, 1);
    FirstCodeStep(s, table, 2);
  }

  /** As written: after `Reference: ` the code recorded is `ERENCE`, whatever the reference says. */
  lemma {:induction false} ReferenceReadAsErence(code: string)
    requires CodeShaped(code)
    ensures FirstCode("Reference: " + code, CodePatterns, 0) == Some("ERENCE")
  {
    NoUtgaInReference(code);
    ReferenceGroups(code);
    ThirdPatternDecides("Reference: " + code, CodePatterns);
    UpperErence();
  }

  /** `ERENCE` is `erence` upper-cased and trimmed. */
  lemma {:induction false} UpperErence()
    ensures NormalizeCode("erence") == "ERENCE"
  {
    assert ToUpperAscii("erence") == "ERENCE";
    TrimUnchanged("ERENCE");
  }

  /** Intended: after `Reference: ` the code recorded is the reference itself. */
  lemma {:induction false} IntendedReferenceRead(code: string)
    requires CodeShaped(code)
    ensures FirstCode("Reference: " + code, IntendedCodePatterns, 0) == Some(code)
  {
    NoUtgaInReference(code);
    ReferenceGroups(code);
    ThirdPatternDecides("Reference: " + code, IntendedCodePatterns);
    NormalizeShaped(code);
  }
}

=== FILE: sms_numerals.dfy ===
/**
 * How the amount patterns read numbers. A bank writes an amount as one to
 * three leading digits, thousands groups `,ddd` and optionally cents `.dd`
 * (`2,000.00`); the pattern `\d{1,3}(?:,\d{3})*(?:\.\d{2})?` captures such a
 * numeral whole, and the parser reads it with the commas removed.
 */
module SmsNumerals {
  import opened Wrappers
  import opened JsText
  import opened SmsPatterns

  /** A numeral in the format the amount patterns expect. */
  datatype Numeral = Numeral(lead: string, groups: seq<string>, cents: Option<string>)

  predicate WellFormed(num: Numeral) {
    && 1 <= |num.lead| <= 3 && AllDigits(num.lead, 10)
    && (forall k :: 0 <= k < |num.groups| ==> |num.groups[k]| == 3 && AllDigits(num.groups[k], 10))
    && (num.cents.Some? ==> |num.cents.value| == 2 && AllDigits(num.cents.value, 10))
  }

  /** The thousands groups as written: each one after a comma. */
  function GroupsText(groups: seq<string>): (t: string)
    requires forall k :: 0 <= k < |groups| ==> |groups[k]| == 3
    ensures |t| == 4 * |groups|
  {
    if groups == [] then "" else "," + groups[0] + GroupsText(groups[1..])
  }

  /** The digits of the thousands groups, without the commas. */
  function Concat(groups: seq<string>): (t: string)
    requires forall k :: 0 <= k < |groups| ==> AllDigits(groups[k], 10)
    ensures AllDigits(t, 10)
  {
    if groups == [] then ""
    else
      var rest := Concat(groups[1..]);
      AllDigitsAppend(groups[0], rest, 10);
      groups[0] + rest
  }

  function CentsText(cents: Option<string>): string {
    if cents.Some? then "." + cents.value else ""
  }

  /** The numeral as it appears in a message. */
  function Text(num: Numeral): string
    requires WellFormed(num)
  {
    num.lead + GroupsText(num.groups) + CentsText(num.cents)
  }

  /** The digits before the decimal point, without separators. */
  function WholeDigits(num: Numeral): (t: string)
    requires WellFormed(num)
    ensures |t| >= 1 && AllDigits(t, 10)
  {
    AllDigitsAppend(num.lead, Concat(num.groups), 10);
    num.lead + Concat(num.groups)
  }

  /** The number a well-formed numeral denotes. */
  function Value(num: Numeral): (v: real)
    requires WellFormed(num)
    ensures v >= 0.0
  {
    DecimalValue(WholeDigits(num), num.cents)
  }

  /** The number that digits and, when there are any, cents after a point denote. */
  function DecimalValue(ds: string, cents: Option<string>): (v: real)
    requires AllDigits(ds, 10) && (cents.Some? ==> AllDigits(cents.value, 10))
    ensures v >= 0.0
  {
    DigitsValue(ds, 10) as real + (if cents.Some? then FractionValue(cents.value) else 0.0)
  }

  // ---------------------------------------------------------------- reading the text back

  /** Removing the commas from the groups leaves their digits. */
  lemma {:induction false} GroupsWithoutCommas(groups: seq<string>)
    requires forall k :: 0 <= k < |groups| ==> |groups[k]| == 3 && AllDigits(groups[k], 10)
    ensures Without(GroupsText(groups), ',') == Concat(groups)
  {
    if groups != [] {
      var g := groups[0];
      assert ',' !in g by {
        forall k | 0 <= k < |g| ensures g[k] != ',' {
          assert IsRadixDigit(g[k], 10);
        }
      }
      assert GroupsText(groups) == [','] + (g + GroupsText(groups[1..]));
      WithoutAppend([','], g + GroupsText(groups[1..]), ',');
      WithoutAppend(g, GroupsText(groups[1..]), ',');
      GroupsWithoutCommas(groups[1..]);
    }
  }

  /** A string of digits holds no comma. */
  lemma {:induction false} DigitsHaveNoComma(ds: string)
    requires AllDigits(ds, 10)
    ensures ',' !in ds
  {
    forall k | 0 <= k < |ds| ensures ds[k] != ',' {
      assert IsRadixDigit(ds[k], 10);
    }
  }

  /** Removing the commas from a numeral leaves its digits and its cents. */
  lemma {:induction false} NumeralWithoutCommas(num: Numeral)
    requires WellFormed(num)
    ensures Without(Text(num), ',') == WholeDigits(num) + CentsText(num.cents)
  {
    DigitsHaveNoComma(num.lead);
    GroupsWithoutCommas(num.groups);
    WithoutAppend(num.lead + GroupsText(num.groups), CentsText(num.cents), ',');
    WithoutAppend(num.lead, GroupsText(num.groups), ',');
    if num.cents.Some? {
      DigitsHaveNoComma(num.cents.value);
      WithoutAppend(".", num.cents.value, ',');
    }
  }

  /** Reading a numeral back: commas removed, then `parseFloat`, gives its value. */
  lemma {:induction false} ReadNumeral(num: Numeral)
    requires WellFormed(num)
    ensures ParseFloat(Without(Text(num), ',')) == Finite(Value(num))
  {
    NumeralWithoutCommas(num);
    ReadDigitsCents(Without(Text(num), ','), WholeDigits(num), num.cents);
  }

  /** `parseFloat` of digits, then a point and the cents when there are any, gives their value. */
  lemma {:induction false} ReadDigitsCents(t: string, ds: string, c: Option<string>)
    requires |ds| >= 1 && AllDigits(ds, 10)
    requires c.Some? ==> AllDigits(c.value, 10)
    requires t == ds + CentsText(c)
    ensures ParseFloat(t) == Finite(DecimalValue(ds, c))
  {
    if c.Some? {
      ReadDigitsPoint(t, ds, c.value);
    } else {
      ReadDigitsWhole(t, ds);
    }
  }

  /** `parseFloat` of digits alone gives their value. */
  lemma {:induction false} ReadDigitsWhole(t: string, ds: string)
    requires |ds| >= 1 && AllDigits(ds, 10)
    requires t == ds + CentsText(None)
    ensures ParseFloat(t) == Finite(DecimalValue(ds, None))
  {
    assert t == ds;
    ParseFloatWhole(ds);
  }

  /** `parseFloat` of digits, a point and more digits gives their value. */
  lemma {:induction false} ReadDigitsPoint(t: string, ds: string, cs: string)
    requires |ds| >= 1 && AllDigits(ds, 10) && AllDigits(cs, 10)
    requires t == ds + CentsText(Some(cs))
    ensures ParseFloat(t) == Finite(DecimalValue(ds, Some(cs)))
  {
    ParseFloatFraction(ds, cs);
  }

  // ---------------------------------------------------------------- capturing the text

  /** The groups of a numeral, placed at `p`, are the whole run of groups there. */
  lemma {:induction false} GroupRunOf(s: string, p: nat, groups: seq<string>)
    requires forall k :: 0 <= k < |groups| ==> |groups[k]| == 3 && AllDigits(groups[k], 10)
    requires p + 4 * |groups| <= |s| && s[p..p + 4 * |groups|] == GroupsText(groups)
    requires !IsGroupAt(s, p + 4 * |groups|)
    ensures GroupRun(s, p) == |groups|
    decreases |groups|
  {
    if groups != [] {
      var t := GroupsText(groups);
      var g := groups[0];
      assert t == [','] + g + GroupsText(groups[1..]);
      assert s[p] == t[0] == ',';
      assert s[p + 1] == t[1] == g[0] && s[p + 2] == t[2] == g[1] && s[p + 3] == t[3] == g[2];
      assert IsRadixDigit(g[0], 10) && IsRadixDigit(g[1], 10) && IsRadixDigit(g[2], 10);
      assert IsGroupAt(s, p);
      assert s[p + 4..p + 4 * |groups|] == t[4..] == GroupsText(groups[1..]);
      GroupRunOf(s, p + 4, groups[1..]);
    }
  }

  /**
   * What follows a numeral before `\s*keyword` can not extend it: it is the
   * end of the text, or white space, or the keyword's first letter.
   */
  lemma {:induction false} AfterNumeral(s: string, e: nat, kw: string)
    requires e <= |s|
    requires kw != [] && !IsDigit(kw[0]) && kw[0] != ',' && kw[0] != '.'
    requires MatchesAt(s, SkipSpaces(s, e), kw)
    ensures e == |s| || (!IsDigit(s[e]) && s[e] != ',' && s[e] != '.')
  {
    if e < |s| && SkipSpaces(s, e) == e {
      assert Fold(s[e]) == kw[0];
    }
  }

  /** Where the three parts of a numeral placed at `i` lie in `s`. */
  lemma {:induction false} NumeralParts(s: string, i: nat, num: Numeral)
    requires WellFormed(num)
    requires i + |Text(num)| <= |s| && s[i..i + |Text(num)|] == Text(num)
    ensures var p := i + |num.lead|; var q := p + 4 * |num.groups|;
      && q + |CentsText(num.cents)| == i + |Text(num)|
      && s[i..p] == num.lead && s[p..q] == GroupsText(num.groups)
      && s[q..i + |Text(num)|] == CentsText(num.cents)
  {
    SliceParts(s, i, num.lead, GroupsText(num.groups), CentsText(num.cents));
  }

  /** A slice that spells `a + b + c` spells `a`, `b` and `c` in turn. */
  lemma {:induction false} SliceParts(s: string, i: nat, a: string, b: string, c: string)
    requires i + |a| + |b| + |c| <= |s| && s[i..i + |a| + |b| + |c|] == a + b + c
    ensures s[i..i + |a|] == a && s[i + |a|..i + |a| + |b|] == b
    ensures s[i + |a| + |b|..i + |a| + |b| + |c|] == c
  {
    var t := s[i..i + |a| + |b| + |c|];
    forall k | 0 <= k < |a| ensures s[i..i + |a|][k] == a[k] {
      assert t[k] == (a + b + c)[k];
    }
    forall k | 0 <= k < |b| ensures s[i + |a|..i + |a| + |b|][k] == b[k] {
      assert t[|a| + k] == (a + b + c)[|a| + k];
    }
    forall k | 0 <= k < |c| ensures s[i + |a| + |b|..i + |a| + |b| + |c|][k] == c[k] {
      assert t[|a| + |b| + k] == (a + b + c)[|a| + |b| + k];
    }
  }

  /**
   * The first end the numeral pattern tries: all leading digits (at most
   * three), all groups, and the cents when there are any.
   */
  lemma {:induction false} FirstNumeralEnd(s: string, i: nat, lead: nat, groups: nat)
    requires 1 <= lead <= 3 && i + lead <= |s| && DigitRun(s, i, 10) == lead
    requires GroupRun(s, i + lead) == groups
    ensures var q := i + lead + 4 * groups;
      NumeralEnds(s, i) != [] && NumeralEnds(s, i)[0] == if HasCents(s, q) then q + 3 else q
  {
    assert NumeralEnds(s, i) == LeadEnds(s, i, lead);
    LeadEndsHead(s, i, lead);
    GroupEndsHead(s, i + lead, groups);
  }

  /** The longest lead is tried first. */
  lemma {:induction false} LeadEndsHead(s: string, i: nat, a: nat)
    requires 0 < a && i + a <= |s|
    ensures LeadEnds(s, i, a) != []
    ensures LeadEnds(s, i, a)[0] == GroupEnds(s, i + a, GroupRun(s, i + a))[0]
  {
    var ge := GroupEnds(s, i + a, GroupRun(s, i + a));
    assert LeadEnds(s, i, a) == ge + LeadEnds(s, i, a - 1);
    assert CentsEnds(s, i + a + 4 * GroupRun(s, i + a)) != [];
  }

  /** With every group taken, the cents are tried first. */
  lemma {:induction false} GroupEndsHead(s: string, p: nat, g: nat)
    requires p + 4 * g <= |s|
    ensures GroupEnds(s, p, g) != []
    ensures GroupEnds(s, p, g)[0] == if HasCents(s, p + 4 * g) then p + 4 * g + 3 else p + 4 * g
  {
    var ce := CentsEnds(s, p + 4 * g);
    assert GroupEnds(s, p, g) == ce + (if g == 0 then [] else GroupEnds(s, p, g - 1));
  }

  /**
   * A numeral placed at `i`, part by part, with a character after it that
   * does not continue it (not a digit, comma or point), or at the end.
   */
  predicate PlacedAt(s: string, i: nat, num: Numeral)
    requires WellFormed(num)
  {
    var p := i + |num.lead|;
    var q := p + 4 * |num.groups|;
    var e := q + |CentsText(num.cents)|;
    && e <= |s|
    && s[i..p] == num.lead && s[p..q] == GroupsText(num.groups) && s[q..e] == CentsText(num.cents)
    && (e == |s| || (!IsDigit(s[e]) && s[e] != ',' && s[e] != '.'))
  }

  /** The leading digits of a placed numeral are the whole digit run there. */
  lemma {:induction false} LeadRun(s: string, i: nat, num: Numeral)
    requires WellFormed(num) && PlacedAt(s, i, num)
    ensures DigitRun(s, i, 10) == |num.lead|
  {
    var p := i + |num.lead|;
    var q := p + 4 * |num.groups|;
    forall k | i <= k < p ensures IsRadixDigit(s[k], 10) {
      assert s[k] == s[i..p][k - i];
    }
    if num.groups != [] {
      assert GroupsText(num.groups)[0] == ',';
      assert s[p] == s[p..q][0] == ',';
    } else if num.cents.Some? {
      var e := q + |CentsText(num.cents)|;
      assert CentsText(num.cents)[0] == '.';
      assert s[p] == s[q..e][0] == '.';
    }
    assert p == |s| || !IsRadixDigit(s[p], 10);
    DigitRunExact(s, i, p, 10);
  }

  /** The groups of a placed numeral are the whole run of groups after its leading digits. */
  lemma {:induction false} GroupsRun(s: string, i: nat, num: Numeral)
    requires WellFormed(num) && PlacedAt(s, i, num)
    ensures GroupRun(s, i + |num.lead|) == |num.groups|
  {
    var p := i + |num.lead|;
    var q := p + 4 * |num.groups|;
    if num.cents.Some? {
      assert s[q] == s[q..q + 3][0];
    }
    GroupRunOf(s, p, num.groups);
  }

  /** After the groups of a placed numeral, `\.\d{2}` matches exactly when it has cents. */
  lemma {:induction false} CentsAfterGroups(s: string, i: nat, num: Numeral)
    requires WellFormed(num) && PlacedAt(s, i, num)
    ensures var q := i + |num.lead| + 4 * |num.groups|;
      && (HasCents(s, q) <==> num.cents.Some?)
      && (if HasCents(s, q) then q + 3 else q) == q + |CentsText(num.cents)|
  {
    var q := i + |num.lead| + 4 * |num.groups|;
    if num.cents.Some? {
      var c := num.cents.value;
      var t := s[q..q + 3];
      assert t == ['.'] + c;
      assert s[q] == t[0] && s[q + 1] == t[1] == c[0] && s[q + 2] == t[2] == c[1];
      assert IsRadixDigit(c[0], 10) && IsRadixDigit(c[1], 10);
    }
  }

  /**
   * From `i`: `lead` digits, the whole digit run and at most three; then a
   * run of `groups` groups; and `e` after the cents when there are any.
   */
  predicate RunsTo(s: string, i: nat, lead: nat, groups: nat, e: nat) {
    var q := i + lead + 4 * groups;
    && 1 <= lead <= 3 && i + lead <= |s| && DigitRun(s, i, 10) == lead
    && GroupRun(s, i + lead) == groups
    && e == if HasCents(s, q) then q + 3 else q
  }

  /**
   * Where a well-formed numeral is written, followed by white space and
   * `keyword`: its leading digits are the digit run there, its groups the
   * group run after them, and it ends after the cents when there are any.
   */
  lemma {:induction false} NumeralRuns(s: string, i: nat, num: Numeral, kw: string)
    requires WellFormed(num)
    requires i + |Text(num)| <= |s| && s[i..i + |Text(num)|] == Text(num)
    requires kw != [] && !IsDigit(kw[0]) && kw[0] != ',' && kw[0] != '.'
    requires MatchesAt(s, SkipSpaces(s, i + |Text(num)|), kw)
    ensures RunsTo(s, i, |num.lead|, |num.groups|, i + |Text(num)|)
  {
    AfterNumeral(s, i + |Text(num)|, kw);
    NumeralParts(s, i, num);
    assert PlacedAt(s, i, num);
    LeadRun(s, i, num);
    GroupsRun(s, i, num);
    CentsAfterGroups(s, i, num);
  }

  /**
   * `(\d{1,3}(?:,\d{3})*(?:\.\d{2})?)\s*keyword` matches at `i` up to the
   * end of the longest numeral there, when `keyword` follows that end.
   */
  lemma {:induction false} CaptureAfterRuns(s: string, i: nat, lead: nat, groups: nat, e: nat, kw: string)
    requires RunsTo(s, i, lead, groups, e)
    requires e <= |s| && MatchesAt(s, SkipSpaces(s, e), kw)
    ensures CaptureAt(s, i, NumeralBefore(kw, false)) == Some((i, e))
  {
    FirstNumeralEnd(s, i, lead, groups);
    var ends := NumeralEnds(s, i);
    assert ends[0] == e;
    FirstEndTaken(s, ends, kw);
  }

  /** No numeral starts at a character that is not a digit. */
  lemma {:induction false} NoNumeralAt(s: string, j: nat, kw: string)
    requires j < |s| && !IsDigit(s[j])
    ensures CaptureAt(s, j, NumeralBefore(kw, false)).None?
  {
    assert DigitRun(s, j, 10) == 0;
  }

  /**
   * A well-formed numeral followed by white space and `keyword`, with no
   * match of the pattern starting before it, is the group the pattern captures.
   */
  lemma {:induction false} NumeralBeforeFirst(s: string, i: nat, num: Numeral, kw: string)
    requires WellFormed(num)
    requires i + |Text(num)| <= |s| && s[i..i + |Text(num)|] == Text(num)
    requires kw != [] && !IsDigit(kw[0]) && kw[0] != ',' && kw[0] != '.'
    requires MatchesAt(s, SkipSpaces(s, i + |Text(num)|), kw)
    requires forall j :: 0 <= j < i ==> CaptureAt(s, j, NumeralBefore(kw, false)).None?
    ensures Group(s, NumeralBefore(kw, false)) == Some(Text(num))
  {
    assert NoCaptureBefore(s, i, kw);
    NumeralGroupSpan(s, i, num, kw);
  }

  /** The pattern `(numeral)\s*keyword` matches nowhere before `i`. */
  predicate NoCaptureBefore(s: string, i: nat, kw: string)
    requires i <= |s|
  {
    forall j :: 0 <= j < i ==> CaptureAt(s, j, NumeralBefore(kw, false)).None?
  }

  /** The group the pattern captures is the slice the numeral spans. */
  lemma {:induction false} NumeralGroupSpan(s: string, i: nat, num: Numeral, kw: string)
    requires WellFormed(num)
    requires i + |Text(num)| <= |s| && s[i..i + |Text(num)|] == Text(num)
    requires kw != [] && !IsDigit(kw[0]) && kw[0] != ',' && kw[0] != '.'
    requires MatchesAt(s, SkipSpaces(s, i + |Text(num)|), kw)
    requires NoCaptureBefore(s, i, kw)
    ensures Group(s, NumeralBefore(kw, false)).Some?
    ensures Group(s, NumeralBefore(kw, false)).value == s[i..i + |Text(num)|]
  {
    NumeralRuns(s, i, num, kw);
    GroupAfterRuns(s, i, |num.lead|, |num.groups|, i + |Text(num)|, kw);
  }

  /** The longest numeral at `i`, followed by `keyword` and with no match before it, is the group `match` reports. */
  lemma {:induction false} GroupAfterRuns(s: string, i: nat, lead: nat, groups: nat, e: nat, kw: string)
    requires RunsTo(s, i, lead, groups, e)
    requires e <= |s| && MatchesAt(s, SkipSpaces(s, e), kw)
    requires NoCaptureBefore(s, i, kw)
    ensures Group(s, NumeralBefore(kw, false)).Some?
    ensures Group(s, NumeralBefore(kw, false)).value == s[i..e]
  {
    CaptureAfterRuns(s, i, lead, groups, e, kw);
    FirstCaptureGroup(s, NumeralBefore(kw, false), i, e, s[i..e]);
  }

  /**
   * In a message whose text before a well-formed numeral holds no digit, and
   * where the numeral is followed by white space and `keyword`, the pattern
   * captures exactly that numeral.
   */
  lemma {:induction false} NumeralBeforeGroup(s: string, i: nat, num: Numeral, kw: string)
    requires WellFormed(num)
    requires i + |Text(num)| <= |s| && s[i..i + |Text(num)|] == Text(num)
    requires kw != [] && !IsDigit(kw[0]) && kw[0] != ',' && kw[0] != '.'
    requires MatchesAt(s, SkipSpaces(s, i + |Text(num)|), kw)
    requires forall j :: 0 <= j < i ==> !IsDigit(s[j])
    ensures Group(s, NumeralBefore(kw, false)) == Some(Text(num))
  {
    forall j | 0 <= j < i ensures CaptureAt(s, j, NumeralBefore(kw, false)).None? {
      NoNumeralAt(s, j, kw);
    }
    NumeralBeforeFirst(s, i, num, kw);
  }

  // ---------------------------------------------------------------- where no numeral is captured

  /** A character the numeral pattern can consume: a digit, a comma or a point. */
  predicate IsNumChar(c: char) {
    IsDigit(c) || c == ',' || c == '.'
  }

  /** The end of the longest run of digits, commas and points from `i`. */
  function NumRunEnd(s: string, i: nat): (r: nat)
    requires i <= |s|
    ensures i <= r <= |s|
    ensures forall m {:trigger IsNumChar(s[m])} :: i <= m < r ==> IsNumChar(s[m])
    ensures r == |s| || !IsNumChar(s[r])
    decreases |s| - i
  {
    if i < |s| && IsNumChar(s[i]) then NumRunEnd(s, i + 1) else i
  }

  /** Every character from `i` up to `e` is a digit, a comma or a point. */
  predicate NumSpan(s: string, i: nat, e: nat) {
    i <= e <= |s| && forall m :: i <= m < e ==> IsNumChar(s[m])
  }

  /** `g` groups from `p` are made of digits and commas. */
  lemma {:induction false} GroupsSpan(s: string, p: nat, g: nat)
    requires p + 4 * g <= |s| && GroupsAt(s, p, g)
    ensures NumSpan(s, p, p + 4 * g)
    decreases g
  {
    if g > 0 {
      GroupsSpan(s, p + 4, g - 1);
      assert IsGroupAt(s, p);
      forall m | p <= m < p + 4 * g ensures IsNumChar(s[m]) {
        if m >= p + 4 {
          assert NumSpan(s, p + 4, p + 4 * g);
        }
      }
    }
  }

  /** `g` groups in a row hold `g - 1` groups in a row. */
  lemma {:induction false} GroupsFewer(s: string, p: nat, g: nat)
    requires g > 0 && GroupsAt(s, p, g)
    ensures GroupsAt(s, p, g - 1)
    decreases g
  {
    if g > 1 {
      GroupsFewer(s, p + 4, g - 1);
    }
  }

  /** Every end in `ends` closes a run of numeral characters from `i`. */
  predicate EndsSpan(s: string, i: nat, ends: seq<nat>) {
    forall k :: 0 <= k < |ends| ==> NumSpan(s, i, ends[k])
  }

  /** Spans put one after the other still all close runs from `i`. */
  lemma {:induction false} EndsSpanConcat(s: string, i: nat, a: seq<nat>, b: seq<nat>)
    requires EndsSpan(s, i, a) && EndsSpan(s, i, b)
    ensures EndsSpan(s, i, a + b)
  {
    forall k | 0 <= k < |a + b| ensures NumSpan(s, i, (a + b)[k]) {
      if k >= |a| {
        assert (a + b)[k] == b[k - |a|];
      }
    }
  }

  /** Runs from `p` that a run from `i` reaches are runs from `i`. */
  lemma {:induction false} EndsSpanWiden(s: string, i: nat, p: nat, ends: seq<nat>)
    requires NumSpan(s, i, p) && EndsSpan(s, p, ends)
    ensures EndsSpan(s, i, ends)
  {
    forall k | 0 <= k < |ends| ensures NumSpan(s, i, ends[k]) {
      assert NumSpan(s, p, ends[k]);
    }
  }

  /** After numeral characters up to `q`, the cents ends close runs from `p`. */
  lemma {:induction false} CentsEndsSpan(s: string, p: nat, q: nat)
    requires q <= |s| && NumSpan(s, p, q)
    ensures EndsSpan(s, p, CentsEnds(s, q))
  {
    if HasCents(s, q) {
      assert IsNumChar(s[q]) && IsNumChar(s[q + 1]) && IsNumChar(s[q + 2]);
      assert NumSpan(s, p, q + 3);
    }
  }

  /** The ends of the groups-and-cents part all lie within a run of numeral characters from `p`. */
  lemma {:induction false} GroupEndsSpan(s: string, p: nat, g: nat)
    requires p + 4 * g <= |s| && GroupsAt(s, p, g)
    ensures EndsSpan(s, p, GroupEnds(s, p, g))
    decreases g
  {
    var q := p + 4 * g;
    var ce := CentsEnds(s, q);
    GroupsSpan(s, p, g);
    CentsEndsSpan(s, p, q);
    if g > 0 {
      GroupsFewer(s, p, g);
      GroupEndsSpan(s, p, g - 1);
      EndsSpanConcat(s, p, ce, GroupEnds(s, p, g - 1));
    } else {
      assert GroupEnds(s, p, g) == ce + [];
    }
  }

  /** The ends of the numeral pattern from `i` lie within a run of numeral characters. */
  lemma {:induction false} LeadEndsSpan(s: string, i: nat, a: nat)
    requires i + a <= |s| && forall m :: i <= m < i + a ==> IsDigit(s[m])
    ensures EndsSpan(s, i, LeadEnds(s, i, a))
    decreases a
  {
    if a > 0 {
      LeadEndsSpan(s, i, a - 1);
      LeadEndsSpanStep(s, i, a);
    }
  }

  /** One more leading digit adds the ends of the groups after it. */
  lemma {:induction false} LeadEndsSpanStep(s: string, i: nat, a: nat)
    requires 0 < a && i + a <= |s| && forall m :: i <= m < i + a ==> IsDigit(s[m])
    requires EndsSpan(s, i, LeadEnds(s, i, a - 1))
    ensures EndsSpan(s, i, LeadEnds(s, i, a))
  {
    var p := i + a;
    var ge := GroupEnds(s, p, GroupRun(s, p));
    GroupEndsSpan(s, p, GroupRun(s, p));
    assert NumSpan(s, i, p);
    EndsSpanWiden(s, i, p, ge);
    EndsSpanConcat(s, i, ge, LeadEnds(s, i, a - 1));
    assert LeadEnds(s, i, a) == ge + LeadEnds(s, i, a - 1);
  }

  /**
   * No numeral starting at `j` is followed by `keyword` when the run of
   * numeral characters from `j` is not: the pattern can only stop inside
   * that run, where the next character is not white space and cannot start
   * the keyword, or at its end.
   */
  lemma {:induction false} NoCaptureBeforeKeyword(s: string, j: nat, kw: string)
    requires j <= |s|
    requires kw != [] && !IsNumChar(kw[0])
    requires !MatchesAt(s, SkipSpaces(s, NumRunEnd(s, j)), kw)
    ensures CaptureAt(s, j, NumeralBefore(kw, false)).None?
  {
    var ends := NumeralEnds(s, j);
    var run := DigitRun(s, j, 10);
    var a := if run < 3 then run else 3;
    forall m | j <= m < j + a ensures IsDigit(s[m]) {
      assert IsRadixDigit(s[m], 10);
    }
    LeadEndsSpan(s, j, a);
    forall e | e in ends ensures !MatchesAt(s, SkipSpaces(s, e), kw) {
      EndInRun(s, j, e, kw);
    }
  }

  /** An end inside the run of numeral characters from `j` is not followed by the keyword. */
  lemma {:induction false} EndInRun(s: string, j: nat, e: nat, kw: string)
    requires NumSpan(s, j, e)
    requires kw != [] && !IsNumChar(kw[0])
    requires !MatchesAt(s, SkipSpaces(s, NumRunEnd(s, j)), kw)
    ensures !MatchesAt(s, SkipSpaces(s, e), kw)
  {
    var r := NumRunEnd(s, j);
    if e < r {
      assert IsNumChar(s[e]);
      assert SkipSpaces(s, e) == e;
      assert Fold(s[e]) == s[e];
    }
  }

  /** The last of `g` groups in a row is a group. */
  lemma {:induction false} GroupsAtLast(s: string, p: nat, g: nat)
    requires g > 0 && GroupsAt(s, p, g)
    ensures IsGroupAt(s, p + 4 * (g - 1))
    decreases g
  {
    if g > 1 {
      GroupsAtLast(s, p + 4, g - 1);
    }
  }

  /** A numeral's text is made of digits, commas and points, and ends with a digit. */
  lemma {:induction false} TextNumChars(num: Numeral)
    requires WellFormed(num)
    ensures NumSpan(Text(num), 0, |Text(num)|)
    ensures IsDigit(Text(num)[|Text(num)| - 1])
  {
    var a := num.lead;
    var b := GroupsText(num.groups);
    var c := CentsText(num.cents);
    var t := Text(num);
    assert t == a + b + c;
    GroupsTextChars(num.groups);
    forall k | 0 <= k < |t| ensures IsNumChar(t[k]) {
      if k < |a| {
        assert t[k] == a[k] && IsRadixDigit(a[k], 10);
      } else if k < |a| + |b| {
        assert t[k] == b[k - |a|];
      } else {
        assert t[k] == c[k - |a| - |b|];
        if k > |a| + |b| {
          assert c[k - |a| - |b|] == num.cents.value[k - |a| - |b| - 1];
          assert IsRadixDigit(num.cents.value[k - |a| - |b| - 1], 10);
        }
      }
    }
    if num.cents.Some? {
      assert t[|t| - 1] == c[2] == num.cents.value[1] && IsRadixDigit(num.cents.value[1], 10);
    } else if num.groups != [] {
      assert t[|t| - 1] == b[|b| - 1];
    } else {
      assert t[|t| - 1] == a[|a| - 1] && IsRadixDigit(a[|a| - 1], 10);
    }
  }

  /** The thousands groups as written are digits and commas, and end with a digit. */
  lemma {:induction false} GroupsTextChars(groups: seq<string>)
    requires forall k :: 0 <= k < |groups| ==> |groups[k]| == 3 && AllDigits(groups[k], 10)
    ensures forall k :: 0 <= k < |GroupsText(groups)| ==> IsNumChar(GroupsText(groups)[k])
    ensures groups != [] ==> IsDigit(GroupsText(groups)[4 * |groups| - 1])
    decreases |groups|
  {
    if groups != [] {
      var r := GroupsText(groups[1..]);
      var t := GroupsText(groups);
      GroupsTextChars(groups[1..]);
      assert t == "," + groups[0] + r;
      forall k | 0 <= k < |t| ensures IsNumChar(t[k]) {
        if 1 <= k < 4 {
          assert t[k] == groups[0][k - 1] && IsRadixDigit(groups[0][k - 1], 10);
        } else if k >= 4 {
          assert t[k] == r[k - 4];
        }
      }
      if |groups| == 1 {
        assert t[3] == groups[0][2] && IsRadixDigit(groups[0][2], 10);
      } else {
        assert t[|t| - 1] == r[|r| - 1];
      }
    }
  }
}

=== FILE: sms_parser.dfy ===
/**
 * `parsePaymentSMS` and `generatePaymentCode`: reading a bank's payment
 * notification into a payment record, and making the reference code a
 * customer writes into the transfer's description.
 */
module SmsParser {
  import opened Wrappers
  import opened JsText
  import opened SmsPatterns
  import opened SmsNumerals

  /** The record the parser returns. */
  datatype Payment = Payment(
    isValid: bool,
    isIncoming: bool,
    amount: Option<real>,
    paymentCode: Option<string>,
    bankName: Option<string>,
    date: Option<string>,
    rawMessage: Option<string>,
    from: string)

  /** The record before anything is read: nothing found, not incoming, not valid. */
  function Initial(message: Option<string>, from: string): Payment {
    Payment(false, false, None, None, None, None, message, from)
  }

  /** The number of banks in the detection table. */
  const BankCount: nat := 6

  /** The `b`-th bank's pattern matches the message or the sender. */
  predicate BankHit(clean: string, from: string, b: nat)
    requires b < BankCount
  {
    Detects(clean, BankPatterns[b]) || Detects(from, BankPatterns[b])
  }

  /** The first bank, from the `k`-th on, whose pattern matches the message or the sender. */
  function FirstBank(clean: string, from: string, k: nat): (r: Option<string>)
    requires k <= BankCount
    ensures r.Some? ==> exists b: nat :: (k <= b < BankCount && r.value == BankNames[b]
      && BankHit(clean, from, b) && forall c: nat :: k <= c < b ==> !BankHit(clean, from, c))
    ensures r.None? ==> forall c: nat :: k <= c < BankCount ==> !BankHit(clean, from, c)
    decreases BankCount - k
  {
    if k == BankCount then None
    else if BankHit(clean, from, k) then Some(BankNames[k])
    else FirstBank(clean, from, k + 1)
  }

  /**
   * The amount an amount group denotes: commas removed, then `parseFloat`,
   * kept only when it is a positive number. `amount > 0` would also keep an
   * infinite reading, but no amount group reads as one (AmountGroupFinite).
   */
  function PositiveAmount(t: string): (r: Option<real>)
    ensures r.Some? <==> ParseFloat(Without(t, ',')).Finite? && ParseFloat(Without(t, ',')).value > 0.0
    ensures r.Some? ==> ParseFloat(Without(t, ',')) == Finite(r.value)
  {
    match ParseFloat(Without(t, ','))
    case Finite(v) => if v > 0.0 then Some(v) else None
    case Infinite(_) => None
    case NaN => None
  }

  /** Pattern `p` matches and its group reads as a positive amount. */
  predicate AmountHit(clean: string, p: Capture) {
    Group(clean, p).Some? && PositiveAmount(Group(clean, p).value).Some?
  }

  /**
   * The first positive amount, trying the patterns of `table` from the
   * `k`-th on: the reading of the first pattern whose group reads as a
   * positive number; a pattern that does not match, or reads as zero or
   * `NaN`, is passed over.
   */
  function FirstAmount(clean: string, table: seq<Capture>, k: nat): (r: Option<real>)
    requires k <= |table|
    ensures r.Some? ==> r.value > 0.0
    decreases |table| - k
  {
    if k == |table| then None
    else
      var m := Group(clean, table[k]);
      if m.Some? && PositiveAmount(m.value).Some? then PositiveAmount(m.value)
      else FirstAmount(clean, table, k + 1)
  }

  /** `match[1].toUpperCase().trim()` for a payment-code group. */
  function NormalizeCode(t: string): string {
    Trim(ToUpperAscii(t))
  }

  /**
   * The code of the first pattern of `table`, from the `k`-th on, that
   * matches; later patterns are not consulted.
   */
  function FirstCode(clean: string, table: seq<Capture>, k: nat): Option<string>
    requires k <= |table|
    decreases |table| - k
  {
    if k == |table| then None
    else if Group(clean, table[k]).Some? then Some(NormalizeCode(Group(clean, table[k]).value))
    else FirstCode(clean, table, k + 1)
  }

  /**
   * The date of the first date pattern, from the `k`-th on, that matches;
   * later patterns are not consulted.
   */
  function FirstDate(clean: string, k: nat): Option<string>
    requires k <= |DatePatterns|
    decreases |DatePatterns| - k
  {
    if k == |DatePatterns| then None
    else if Group(clean, DatePatterns[k]).Some? then Group(clean, DatePatterns[k])
    else FirstDate(clean, k + 1)
  }

  /**
   * The amount search returns the reading of the first pattern, from the
   * `k`-th on, whose group reads as a positive number, and finds none
   * exactly when no pattern from the `k`-th on gives one.
   */
  lemma {:induction false} FirstAmountFirst(clean: string, table: seq<Capture>, k: nat)
    requires k <= |table|
    ensures var r := FirstAmount(clean, table, k);
      && (r.Some? ==> exists j :: (k <= j < |table| && AmountHit(clean, table[j])
        && r == PositiveAmount(Group(clean, table[j]).value)
        && forall i :: k <= i < j ==> !AmountHit(clean, table[i])))
      && (r.None? <==> forall i :: k <= i < |table| ==> !AmountHit(clean, table[i]))
    decreases |table| - k
  {
    if k < |table| {
      var r := FirstAmount(clean, table, k);
      if AmountHit(clean, table[k]) {
        assert r == PositiveAmount(Group(clean, table[k]).value);
        assert r.Some?;
        assert !(forall i :: k <= i < |table| ==> !AmountHit(clean, table[i])) by {
          assert AmountHit(clean, table[k]);
        }
      } else {
        assert r == FirstAmount(clean, table, k + 1);
        FirstAmountFirst(clean, table, k + 1);
        if r.Some? {
          var j :| k + 1 <= j < |table| && AmountHit(clean, table[j])
            && r == PositiveAmount(Group(clean, table[j]).value)
            && forall i :: k + 1 <= i < j ==> !AmountHit(clean, table[i]);
          assert forall i :: k <= i < j ==> !AmountHit(clean, table[i]);
          assert !(forall i :: k <= i < |table| ==> !AmountHit(clean, table[i])) by {
            assert AmountHit(clean, table[j]);
          }
        } else {
          assert forall i :: k + 1 <= i < |table| ==> !AmountHit(clean, table[i]);
        }
      }
    }
  }

  /**
   * The code search returns the normalised group of the first pattern, from
   * the `k`-th on, that matches, and finds none exactly when no pattern from
   * the `k`-th on matches.
   */
  lemma {:induction false} FirstCodeFirst(clean: string, table: seq<Capture>, k: nat)
    requires k <= |table|
    ensures var r := FirstCode(clean, table, k);
      && (r.Some? ==> exists j :: (k <= j < |table| && Group(clean, table[j]).Some?
        && r.value == NormalizeCode(Group(clean, table[j]).value)
        && forall i :: k <= i < j ==> Group(clean, table[i]).None?))
      && (r.None? <==> forall i :: k <= i < |table| ==> Group(clean, table[i]).None?)
    decreases |table| - k
  {
    if k < |table| {
      var r := FirstCode(clean, table, k);
      var t := Group(clean, table[k]);
      if t.Some? {
        assert r == Some(NormalizeCode(t.value));
        assert !(forall i :: k <= i < |table| ==> Group(clean, table[i]).None?) by {
          assert Group(clean, table[k]).Some?;
        }
      } else {
        assert r == FirstCode(clean, table, k + 1);
        FirstCodeFirst(clean, table, k + 1);
        if r.Some? {
          var j :| k + 1 <= j < |table| && Group(clean, table[j]).Some?
            && r.value == NormalizeCode(Group(clean, table[j]).value)
            && forall i :: k + 1 <= i < j ==> Group(clean, table[i]).None?;
          assert forall i :: k <= i < j ==> Group(clean, table[i]).None?;
          assert !(forall i :: k <= i < |table| ==> Group(clean, table[i]).None?) by {
            assert Group(clean, table[j]).Some?;
          }
        } else {
          assert forall i :: k + 1 <= i < |table| ==> Group(clean, table[i]).None?;
        }
      }
    }
  }

  /**
   * The date search returns the group of the first date pattern, from the
   * `k`-th on, that matches, and finds none exactly when no date pattern
   * from the `k`-th on matches.
   */
  lemma {:induction false} FirstDateFirst(clean: string, k: nat)
    requires k <= |DatePatterns|
    ensures var r := FirstDate(clean, k);
      && (r.Some? ==> exists j :: (k <= j < |DatePatterns| && Group(clean, DatePatterns[j]) == r
        && forall i :: k <= i < j ==> Group(clean, DatePatterns[i]).None?))
      && (r.None? <==> forall i :: k <= i < |DatePatterns| ==> Group(clean, DatePatterns[i]).None?)
    decreases |DatePatterns| - k
  {
    if k < |DatePatterns| {
      var r := FirstDate(clean, k);
      var t := Group(clean, DatePatterns[k]);
      if t.Some? {
        assert r == t;
        assert !(forall i :: k <= i < |DatePatterns| ==> Group(clean, DatePatterns[i]).None?) by {
          assert Group(clean, DatePatterns[k]).Some?;
        }
      } else {
        assert r == FirstDate(clean, k + 1);
        FirstDateFirst(clean, k + 1);
        if r.Some? {
          var j :| k + 1 <= j < |DatePatterns| && Group(clean, DatePatterns[j]) == r
            && forall i :: k + 1 <= i < j ==> Group(clean, DatePatterns[i]).None?;
          assert forall i :: k <= i < j ==> Group(clean, DatePatterns[i]).None?;
          assert !(forall i :: k <= i < |DatePatterns| ==> Group(clean, DatePatterns[i]).None?) by {
            assert Group(clean, DatePatterns[j]).Some?;
          }
        } else {
          assert forall i :: k + 1 <= i < |DatePatterns| ==> Group(clean, DatePatterns[i]).None?;
        }
      }
    }
  }

  /**
   * What `parsePaymentSMS(message, from)` returns. `None` stands for a message
   * that is not a string; the empty string is rejected the same way.
   */
  function Parse(message: Option<string>, from: string): Payment {
    if message.None? || message.value == "" then Initial(message, from)
    else
      var clean := Trim(message.value);
      var incoming := Detects(clean, IncomingPattern);
      if Detects(clean, OutgoingPattern) && !incoming then Initial(message, from)
      else
        var amount := FirstAmount(clean, AmountPatterns, 0);
        Payment(
          incoming && amount.Some? && amount.value > 0.0,
          incoming,
          amount,
          FirstCode(clean, CodePatterns, 0),
          FirstBank(clean, from, 0),
          FirstDate(clean, 0),
          message,
          from)
  }

  /** The bank loop of `parsePaymentSMS`: the first bank whose pattern matches, in table order. */
  method FindBank(clean: string, from: string) returns (bank: Option<string>)
    ensures bank == FirstBank(clean, from, 0)
  {
    bank := None;
    var k := 0;
    while k < BankCount
      invariant k <= BankCount
      invariant FirstBank(clean, from, k) == FirstBank(clean, from, 0)
    {
      if BankHit(clean, from, k) {
        bank := Some(BankNames[k]);
        return;
      }
      k := k + 1;
    }
  }

  /** One step of the amount search: a positive reading stops it, anything else moves on. */
  lemma {:induction false} FirstAmountStep(clean: string, table: seq<Capture>, k: nat)
    requires k < |table|
    ensures var m := Group(clean, table[k]);
      FirstAmount(clean, table, k) ==
        if m.Some? && ParseFloat(Without(m.value, ',')).Finite? && ParseFloat(Without(m.value, ',')).value > 0.0
        then Some(ParseFloat(Without(m.value, ',')).value)
        else FirstAmount(clean, table, k + 1)
  {
  }

  /** The amount loop of `parsePaymentSMS`: the first pattern whose group reads as a positive number. */
  method FindAmount(clean: string) returns (amount: Option<real>)
    ensures amount == FirstAmount(clean, AmountPatterns, 0)
    ensures amount.Some? ==> exists j :: (0 <= j < |AmountPatterns| && AmountHit(clean, AmountPatterns[j])
      && amount == PositiveAmount(Group(clean, AmountPatterns[j]).value)
      && forall i :: 0 <= i < j ==> !AmountHit(clean, AmountPatterns[i]))
    ensures amount.None? <==> forall i :: 0 <= i < |AmountPatterns| ==> !AmountHit(clean, AmountPatterns[i])
  {
    amount := None;
    var k := 0;
    while k < |AmountPatterns|
      invariant k <= |AmountPatterns| && amount.None?
      invariant FirstAmount(clean, AmountPatterns, k) == FirstAmount(clean, AmountPatterns, 0)
    {
      var m := Group(clean, AmountPatterns[k]);
      FirstAmountStep(clean, AmountPatterns, k);
      if m.Some? {
        var v := ParseFloat(Without(m.value, ','));
        if v.Finite? && v.value > 0.0 {
          amount := Some(v.value);
          break;
        }
      }
      k := k + 1;
    }
    FirstAmountFirst(clean, AmountPatterns, 0);
  }

  /** One step of the code search: a match stops it, no match moves on. */
  lemma {:induction false} FirstCodeStep(clean: string, table: seq<Capture>, k: nat)
    requires k < |table|
    ensures var m := Group(clean, table[k]);
      FirstCode(clean, table, k) == if m.Some? then Some(Trim(ToUpperAscii(m.value))) else FirstCode(clean, table, k + 1)
  {
  }

  /** The payment-code loop of `parsePaymentSMS`: the first pattern that matches decides. */
  method FindCode(clean: string) returns (code: Option<string>)
    ensures code == FirstCode(clean, CodePatterns, 0)
    ensures code.Some? ==> exists j :: (0 <= j < |CodePatterns| && Group(clean, CodePatterns[j]).Some?
      && code.value == NormalizeCode(Group(clean, CodePatterns[j]).value)
      && forall i :: 0 <= i < j ==> Group(clean, CodePatterns[i]).None?)
    ensures code.None? <==> forall i :: 0 <= i < |CodePatterns| ==> Group(clean, CodePatterns[i]).None?
  {
    FirstCodeFirst(clean, CodePatterns, 0);
    code := None;
    var k := 0;
    while k < |CodePatterns|
      invariant k <= |CodePatterns|
      invariant FirstCode(clean, CodePatterns, k) == FirstCode(clean, CodePatterns, 0)
    {
      var m := Group(clean, CodePatterns[k]);
      FirstCodeStep(clean, CodePatterns, k);
      if m.Some? {
        code := Some(Trim(ToUpperAscii(m.value)));
        return;
      }
      k := k + 1;
    }
  }

  /** The date loop of `parsePaymentSMS`: the first pattern that matches decides. */
  method FindDate(clean: string) returns (date: Option<string>)
    ensures date == FirstDate(clean, 0)
    ensures date.Some? ==> exists j :: (0 <= j < |DatePatterns| && Group(clean, DatePatterns[j]) == date
      && forall i :: 0 <= i < j ==> Group(clean, DatePatterns[i]).None?)
    ensures date.None? <==> forall i :: 0 <= i < |DatePatterns| ==> Group(clean, DatePatterns[i]).None?
  {
    FirstDateFirst(clean, 0);
    date := None;
    var k := 0;
    while k < |DatePatterns|
      invariant k <= |DatePatterns|
      invariant FirstDate(clean, k) == FirstDate(clean, 0)
    {
      var m := Group(clean, DatePatterns[k]);
      if m.Some? {
        date := m;
        return;
      }
      k := k + 1;
    }
  }

  /** `parsePaymentSMS`: the record is filled in the source's order. */
  method ParsePaymentSMS(message: Option<string>, from: string) returns (r: Payment)
    ensures r == Parse(message, from)
  {
    r := Initial(message, from);
    if message.None? || message.value == "" {
      return;
    }
    var clean := Trim(message.value);
    var incoming := Detects(clean, IncomingPattern);
    r := r.(isIncoming := incoming);
    if Detects(clean, OutgoingPattern) && !incoming {
      r := r.(isIncoming := false);
      return;
    }
    var bank := FindBank(clean, from);
    var amount := FindAmount(clean);
    var code := FindCode(clean);
    var date := FindDate(clean);
    r := r.(bankName := bank, amount := amount, paymentCode := code, date := date);
    r := r.(isValid := r.isIncoming && r.amount.Some? && r.amount.value > 0.0);
  }

  // ---------------------------------------------------------------- what the record says

  /** Nothing is read from a missing, non-string or empty message; the inputs are echoed. */
  lemma {:induction false} NoMessage(message: Option<string>, from: string)
    requires message.None? || message.value == ""
    ensures var r := Parse(message, from);
      && !r.isValid && !r.isIncoming
      && r.amount.None? && r.paymentCode.None? && r.bankName.None? && r.date.None?
      && r.rawMessage == message && r.from == from
  {
  }

  /** The inputs are echoed back whatever the message says. */
  lemma {:induction false} EchoesInputs(message: Option<string>, from: string)
    ensures Parse(message, from).rawMessage == message && Parse(message, from).from == from
  {
  }

  /**
   * A message with an outgoing word and no incoming word is dropped: nothing
   * is extracted. An incoming word anywhere cancels the drop.
   */
  lemma {:induction false} OutgoingDropped(m: string, from: string)
    requires m != []
    ensures Detects(Trim(m), OutgoingPattern) && !Detects(Trim(m), IncomingPattern) ==>
      Parse(Some(m), from) == Initial(Some(m), from)
    ensures Detects(Trim(m), IncomingPattern) ==>
      Parse(Some(m), from).isIncoming
      && Parse(Some(m), from).amount == FirstAmount(Trim(m), AmountPatterns, 0)
      && Parse(Some(m), from).paymentCode == FirstCode(Trim(m), CodePatterns, 0)
  {
  }

  /** `isValid` holds exactly for an incoming message from which a positive amount was read. */
  lemma {:induction false} ValidIff(message: Option<string>, from: string)
    ensures var r := Parse(message, from);
      r.isValid <==> r.isIncoming && r.amount.Some? && r.amount.value > 0.0
    ensures Parse(message, from).isValid <==>
      message.Some? && message.value != []
      && Detects(Trim(message.value), IncomingPattern) && FirstAmount(Trim(message.value), AmountPatterns, 0).Some?
  {
  }

  /**
   * A recorded amount is the positive reading of the group of the first
   * amount pattern whose group reads as a positive number, with its commas
   * removed; every earlier pattern fails to match or reads as zero or `NaN`.
   */
  lemma {:induction false} AmountFromGroup(message: string, from: string)
    requires Parse(Some(message), from).amount.Some?
    ensures var clean := Trim(message); var v := Parse(Some(message), from).amount.value;
      && v > 0.0
      && exists j :: (0 <= j < |AmountPatterns| && Group(clean, AmountPatterns[j]).Some?
        && ParseFloat(Without(Group(clean, AmountPatterns[j]).value, ',')) == Finite(v)
        && forall i :: 0 <= i < j ==> !AmountHit(clean, AmountPatterns[i]))
  {
    var clean := Trim(message);
    var v := Parse(Some(message), from).amount.value;
    assert Some(v) == FirstAmount(clean, AmountPatterns, 0);
    FirstAmountFirst(clean, AmountPatterns, 0);
    var j :| 0 <= j < |AmountPatterns| && AmountHit(clean, AmountPatterns[j])
      && Some(v) == PositiveAmount(Group(clean, AmountPatterns[j]).value)
      && forall i :: 0 <= i < j ==> !AmountHit(clean, AmountPatterns[i]);
  }

  /** The numeral ends from `i` all close runs of digits, commas and points. */
  lemma {:induction false} LeadingEndsSpan(s: string, i: nat, whole: bool)
    requires i <= |s|
    ensures EndsSpan(s, i, LeadingEnds(s, i, whole))
  {
    var run := DigitRun(s, i, 10);
    var a := if whole then run else if run < 3 then run else 3;
    forall m | i <= m < i + a ensures IsDigit(s[m]) {
      assert IsRadixDigit(s[m], 10);
    }
    LeadEndsSpan(s, i, a);
  }

  /** The span a numeral pattern captures at `i` is a run of digits, commas and points. */
  lemma {:induction false} NumeralCaptureSpan(s: string, i: nat, p: Capture)
    requires p.NumeralBefore? || p.NumeralAfter?
    requires i <= |s| && CaptureAt(s, i, p).Some?
    ensures NumSpan(s, CaptureAt(s, i, p).value.0, CaptureAt(s, i, p).value.1)
  {
    var span := CaptureAt(s, i, p).value;
    var q := if p.NumeralBefore? then i else SkipColonSpaces(s, i + |p.keyword|);
    var ends := LeadingEnds(s, q, p.whole);
    assert span.0 == q && span.1 in ends;
    LeadingEndsSpan(s, q, p.whole);
    var k :| 0 <= k < |ends| && ends[k] == span.1;
    assert NumSpan(s, q, ends[k]);
  }

  /** The group of a numeral pattern is made of digits, commas and points. */
  lemma {:induction false} AmountGroupChars(s: string, p: Capture)
    requires p.NumeralBefore? || p.NumeralAfter?
    requires Group(s, p).Some?
    ensures forall k :: 0 <= k < |Group(s, p).value| ==> IsNumChar(Group(s, p).value[k])
  {
    GroupSpan(s, p);
    var i := MatchFrom(s, p, 0).value;
    var span := CaptureAt(s, i, p).value;
    NumeralCaptureSpan(s, i, p);
    var t := Group(s, p).value;
    assert t == s[span.0..span.1];
    forall m | 0 <= m < |t| ensures IsNumChar(t[m]) {
      assert t[m] == s[span.0 + m];
    }
  }

  /**
   * No amount group reads as an infinity: an infinite reading needs the
   * letter `I`, and a group holds only digits, commas and points. Keeping
   * only finite positive readings therefore loses nothing.
   */
  lemma {:induction false} AmountGroupFinite(s: string, j: nat)
    requires j < |AmountPatterns| && Group(s, AmountPatterns[j]).Some?
    ensures !ParseFloat(Without(Group(s, AmountPatterns[j]).value, ',')).Infinite?
  {
    var p := AmountPatterns[j];
    var t := Group(s, p).value;
    assert p.NumeralBefore? || p.NumeralAfter?;
    AmountGroupChars(s, p);
    assert 'I' !in t by {
      forall k | 0 <= k < |t| ensures t[k] != 'I' {
        assert IsNumChar(t[k]);
      }
    }
    WithoutSubset(t, ',', 'I');
    ParseFloatInfinite(Without(t, ','));
  }

  /** A character of a recorded payment code: `A`-`Z`, `0`-`9` or `-`. */
  predicate IsPaymentCodeChar(c: char) {
    ('A' <= c <= 'Z') || IsDigit(c) || c == '-'
  }

  /** A non-empty string of payment-code characters. */
  predicate CodeShaped(code: string) {
    code != [] && forall k :: 0 <= k < |code| ==> IsPaymentCodeChar(code[k])
  }

  /** Normalising a code group upper-cases it and has no white space to trim. */
  lemma {:induction false} NormalizeShape(t: string)
    requires t != [] && forall k :: 0 <= k < |t| ==> IsCodeChar(t[k])
    ensures CodeShaped(NormalizeCode(t))
  {
    var u := ToUpperAscii(t);
    assert forall k :: 0 <= k < |u| ==> IsPaymentCodeChar(u[k]);
    TrimUnchanged(u);
  }

  /** Every code the table search returns is upper case and made of `A`-`Z`, `0`-`9` and `-`. */
  lemma {:induction false} FirstCodeShape(clean: string, k: nat)
    requires k <= |CodePatterns|
    ensures FirstCode(clean, CodePatterns, k).Some? ==> CodeShaped(FirstCode(clean, CodePatterns, k).value)
    decreases |CodePatterns| - k
  {
    if k < |CodePatterns| {
      var p := CodePatterns[k];
      var t := Group(clean, p);
      if t.Some? {
        assert FirstCode(clean, CodePatterns, k) == Some(NormalizeCode(t.value));
        CodeGroupShape(clean, p.marker, p.colons);
        NormalizeShape(t.value);
      } else {
        assert FirstCode(clean, CodePatterns, k) == FirstCode(clean, CodePatterns, k + 1);
        FirstCodeShape(clean, k + 1);
      }
    }
  }

  /** A recorded payment code is non-empty and upper case, over `A`-`Z`, `0`-`9` and `-`. */
  lemma {:induction false} PaymentCodeShape(message: Option<string>, from: string)
    ensures Parse(message, from).paymentCode.Some? ==> CodeShaped(Parse(message, from).paymentCode.value)
  {
    if message.Some? && message.value != [] {
      FirstCodeShape(Trim(message.value), 0);
    }
  }

  /** Every date the table search returns has the shape of a date. */
  lemma {:induction false} FirstDateShape(clean: string, k: nat)
    requires k <= |DatePatterns|
    ensures FirstDate(clean, k).Some? ==> DateShaped(FirstDate(clean, k).value)
    decreases |DatePatterns| - k
  {
    if k < |DatePatterns| {
      if Group(clean, DatePatterns[k]).Some? {
        DateGroupShape(clean, DatePatterns[k]);
      } else {
        FirstDateShape(clean, k + 1);
      }
    }
  }

  /** A recorded date is ten characters: digits with `-` or `/` separators. */
  lemma {:induction false} DateShape(message: Option<string>, from: string)
    ensures Parse(message, from).date.Some? ==> DateShaped(Parse(message, from).date.value)
  {
    if message.Some? && message.value != [] {
      FirstDateShape(Trim(message.value), 0);
    }
  }

  // ---------------------------------------------------------------- reading a notification

  /** Whether the literal `w` occurs anywhere in `s`, compared case-insensitively. */
  predicate Mentions(s: string, w: string) {
    exists j :: 0 <= j <= |s| && MatchesAt(s, j, w)
  }

  /** `dungeer` in a message marks it as incoming. */
  lemma {:induction false} DungeerIncoming(s: string, j: nat)
    requires MatchesAt(s, j, "dungeer")
    ensures Detects(s, IncomingPattern)
  {
    assert ["dungeer"][1..] == [];
    assert AltAt(s, j, Words(["dungeer"]));
    assert AnyAltAt(s, j, IncomingPattern);
    DetectsAt(s, IncomingPattern, j);
  }

  /** `s` states the numeral `num` at `i`, followed by white space and `dungeer`. */
  predicate NumeralThenDungeer(s: string, i: nat, num: Numeral) {
    && WellFormed(num)
    && i + |Text(num)| <= |s| && s[i..i + |Text(num)|] == Text(num)
    && MatchesAt(s, SkipSpaces(s, i + |Text(num)|), "dungeer")
  }

  /** A numeral written out and followed by ` dungeer` is followed by the keyword `dungeer`. */
  lemma {:induction false} DungeerAfterNumeral(s: string, i: nat, num: Numeral)
    requires WellFormed(num)
    requires i + |Text(num)| + 8 <= |s|
    requires s[i..i + |Text(num)|] == Text(num) && s[i + |Text(num)|..i + |Text(num)| + 8] == " dungeer"
    ensures NumeralThenDungeer(s, i, num)
  {
    DungeerFolded();
    SpaceThenWord(s, i + |Text(num)|, "dungeer");
  }

  /** Every letter of `dungeer` folds to itself. */
  lemma {:induction false} DungeerFolded()
    ensures forall k :: 0 <= k < |"dungeer"| ==> Fold("dungeer"[k]) == "dungeer"[k]
  {
  }

  /** A space and then the literal `w`, which starts with no space and folds to itself: `w` is matched past the space. */
  lemma {:induction false} SpaceThenWord(s: string, e: nat, w: string)
    requires e + 1 + |w| <= |s| && s[e..e + 1 + |w|] == " " + w
    requires w != [] && !IsSpace(w[0])
    requires forall k :: 0 <= k < |w| ==> Fold(w[k]) == w[k]
    ensures SkipSpaces(s, e) == e + 1 && MatchesAt(s, e + 1, w)
  {
    assert s[e] == (" " + w)[0];
    assert s[e + 1] == (" " + w)[1];
    forall k | 0 <= k < |w| ensures Fold(s[e + 1 + k]) == w[k] {
      assert s[e + 1 + k] == (" " + w)[1 + k];
    }
  }

  /**
   * A well-formed positive numeral followed by `dungeer`, with no digit
   * before it, is the amount the parser reads.
   */
  lemma {:induction false} AmountBeforeDungeer(s: string, i: nat, num: Numeral)
    requires NumeralThenDungeer(s, i, num) && Value(num) > 0.0
    requires forall j :: 0 <= j < i ==> !IsDigit(s[j])
    ensures FirstAmount(s, AmountPatterns, 0) == Some(Value(num))
  {
    forall j | 0 <= j < i ensures CaptureAt(s, j, NumeralBefore("dungeer", false)).None? {
      NoNumeralAt(s, j, "dungeer");
    }
    FirstAmountIs(s, i, num);
  }

  /**
   * A positive numeral followed by `dungeer`, where no match of the first
   * amount pattern starts before it, is the amount the parser reads.
   */
  lemma {:induction false} FirstAmountIs(s: string, i: nat, num: Numeral)
    requires NumeralThenDungeer(s, i, num) && Value(num) > 0.0
    requires forall j :: 0 <= j < i ==> CaptureAt(s, j, NumeralBefore("dungeer", false)).None?
    ensures FirstAmount(s, AmountPatterns, 0) == Some(Value(num))
  {
    DungeerGroup(s, i, num);
    ReadNumeral(num);
    FirstAmountStep(s, AmountPatterns, 0);
  }

  /** A numeral followed by `dungeer`, with no match of the pattern before it, is the group it captures. */
  lemma {:induction false} DungeerGroup(s: string, i: nat, num: Numeral)
    requires NumeralThenDungeer(s, i, num)
    requires forall j :: 0 <= j < i ==> CaptureAt(s, j, NumeralBefore("dungeer", false)).None?
    ensures Group(s, NumeralBefore("dungeer", false)) == Some(Text(num))
  {
    NumeralBeforeFirst(s, i, num, "dungeer");
  }

  /** The code run from `p` is exactly `n` long when `n` code characters are followed by a non-code one. */
  lemma {:induction false} CodeRunOf(s: string, p: nat, n: nat)
    requires p + n <= |s|
    requires forall k :: p <= k < p + n ==> IsCodeChar(s[k])
    requires p + n == |s| || !IsCodeChar(s[p + n])
    ensures CodeRun(s, p) == n
  {
  }

  /** A code that is already upper case is recorded as written. */
  lemma {:induction false} NormalizeShaped(code: string)
    requires CodeShaped(code)
    ensures NormalizeCode(code) == code
  {
    assert ToUpperAscii(code) == code;
    TrimUnchanged(code);
  }

  /** No `utga:` starts before `head` ends when `head` holds none and `U` follows it. */
  lemma {:induction false} NoUtgaBefore(head: string, rest: string, j: nat)
    requires !Mentions(head, "utga:")
    requires rest != [] && rest[0] == 'U'
    requires j < |head|
    ensures !MatchesAt(head + rest, j, "utga:")
    ensures CaptureAt(head + rest, j, CodeAfter("utga:", false)).None?
  {
    var s := head + rest;
    if j + 5 <= |head| {
      if MatchesAt(s, j, "utga:") {
        forall k | 0 <= k < 5 ensures Fold(head[j + k]) == "utga:"[k] {
          assert s[j + k] == head[j + k];
        }
        assert MatchesAt(head, j, "utga:");
      }
    } else if j + 5 <= |s| {
      var k := |head| - j;
      assert s[j + k] == 'U';
      assert Fold(s[j + k]) != "utga:"[k];
    }
  }

  /** `Utga:\s*([A-Z0-9-]+)` at `i` captures the run of code characters after `Utga: `. */
  lemma {:induction false} CaptureAfterUtga(s: string, i: nat, n: nat)
    requires i + 6 + n <= |s| && s[i..i + 6] == "Utga: " && n > 0
    requires forall k :: i + 6 <= k < i + 6 + n ==> IsCodeChar(s[k])
    requires i + 6 + n == |s| || !IsCodeChar(s[i + 6 + n])
    ensures CaptureAt(s, i, CodeAfter("utga:", false)) == Some((i + 6, i + 6 + n))
  {
    UtgaMarker(s, i);
    CodeRunOf(s, i + 6, n);
    CodeAfterMarker(s, i, "utga:", n);
  }

  /** `Utga: ` at `i` matches `utga:`, then one space. */
  lemma {:induction false} UtgaMarker(s: string, i: nat)
    requires i + 6 <= |s| && s[i..i + 6] == "Utga: "
    ensures MatchesAt(s, i, "utga:") && s[i + 5] == ' '
  {
    forall k | 0 <= k < 6 ensures s[i + k] == "Utga: "[k] {
      assert s[i + k] == s[i..i + 6][k];
    }
  }

  /** `marker\s*([A-Z0-9-]+)` at `i`, with one space after the marker, captures the code run after it. */
  lemma {:induction false} CodeAfterMarker(s: string, i: nat, marker: string, n: nat)
    requires i + |marker| + 1 + n <= |s| && MatchesAt(s, i, marker) && s[i + |marker|] == ' '
    requires n > 0 && CodeRun(s, i + |marker| + 1) == n
    ensures CaptureAt(s, i, CodeAfter(marker, false)) == Some((i + |marker| + 1, i + |marker| + 1 + n))
  {
    var q := i + |marker| + 1;
    assert IsCodeChar(s[q]);
    assert SkipSpaces(s, i + |marker|) == q;
  }

  /** The parts of `head + "Utga: " + code + tail`, position by position. */
  lemma {:induction false} UtgaLayout(head: string, code: string, tail: string)
    requires CodeShaped(code)
    requires tail == [] || !IsCodeChar(tail[0])
    ensures var s := head + "Utga: " + code + tail; var i := |head|; var e := i + 6 + |code|;
      && e <= |s| && s[i..i + 6] == "Utga: " && s[i + 6..e] == code
      && (forall k :: i + 6 <= k < e ==> IsCodeChar(s[k]))
      && (e == |s| || !IsCodeChar(s[e]))
  {
    var s := head + "Utga: " + code + tail;
    var i := |head|;
    var e := i + 6 + |code|;
    assert s == head + "Utga: " + code + tail;
    assert s[i + 6..e] == code;
    forall k | i + 6 <= k < e ensures IsCodeChar(s[k]) {
      assert s[k] == code[k - i - 6];
    }
    if tail != [] {
      assert s[e] == tail[0];
    }
  }

  /** The first code pattern captures a code written after `Utga: ` when no `utga:` comes before. */
  lemma {:induction false} UtgaGroup(head: string, code: string, tail: string)
    requires CodeShaped(code)
    requires !Mentions(head, "utga:")
    requires tail == [] || !IsCodeChar(tail[0])
    ensures Group(head + "Utga: " + code + tail, CodeAfter("utga:", false)) == Some(code)
  {
    var s := head + "Utga: " + code + tail;
    var i := |head|;
    UtgaFirst(head, code, tail);
    UtgaCapture(head, code, tail);
    UtgaLayout(head, code, tail);
    GroupAtFirst(s, CodeAfter("utga:", false), i, (i + 6, i + 6 + |code|), code);
  }

  /** The first code pattern matches at the `Utga: ` after `head`, capturing the code. */
  lemma {:induction false} UtgaCapture(head: string, code: string, tail: string)
    requires CodeShaped(code)
    requires tail == [] || !IsCodeChar(tail[0])
    ensures var i := |head|;
      CaptureAt(head + "Utga: " + code + tail, i, CodeAfter("utga:", false)) == Some((i + 6, i + 6 + |code|))
  {
    UtgaLayout(head, code, tail);
    CaptureAfterUtga(head + "Utga: " + code + tail, |head|, |code|);
  }

  /** The leftmost match of the first code pattern is at the `Utga: ` after `head`. */
  lemma {:induction false} UtgaFirst(head: string, code: string, tail: string)
    requires CodeShaped(code)
    requires !Mentions(head, "utga:")
    requires tail == [] || !IsCodeChar(tail[0])
    ensures MatchFrom(head + "Utga: " + code + tail, CodeAfter("utga:", false), 0) == Some(|head|)
  {
    var s := head + "Utga: " + code + tail;
    NoUtgaCaptureBefore(head, "Utga: " + code + tail);
    assert s == head + ("Utga: " + code + tail);
    UtgaCapture(head, code, tail);
    MatchFromFirst(s, CodeAfter("utga:", false), 0, |head|);
  }

  /** Where `head` does not mention `utga:`, the first code pattern matches nowhere inside it. */
  lemma {:induction false} NoUtgaCaptureBefore(head: string, rest: string)
    requires !Mentions(head, "utga:")
    requires rest != [] && rest[0] == 'U'
    ensures forall j :: 0 <= j < |head| ==> CaptureAt(head + rest, j, CodeAfter("utga:", false)).None?
  {
    forall j | 0 <= j < |head| ensures CaptureAt(head + rest, j, CodeAfter("utga:", false)).None? {
      NoUtgaBefore(head, rest, j);
    }
  }

  /**
   * A code written after `Utga: ` is the payment code read, when no `utga:`
   * occurs before it and a non-code character (or the end) follows it.
   */
  lemma {:induction false} CodeAfterUtga(head: string, code: string, tail: string)
    requires CodeShaped(code)
    requires !Mentions(head, "utga:")
    requires tail == [] || !IsCodeChar(tail[0])
    ensures FirstCode(head + "Utga: " + code + tail, CodePatterns, 0) == Some(code)
  {
    UtgaGroup(head, code, tail);
    NormalizeShaped(code);
  }

  /**
   * A notification that states a positive amount before `dungeer` and a code
   * after `Utga: ` is valid and incoming, and yields that amount and that
   * code, whatever white space surrounds it: no digit may come before the
   * amount, no `utga:` before the code, and the code must be followed by a
   * character outside `[A-Za-z0-9-]` or by the end of the message.
   */
  lemma {:induction false} NotificationRead(head: string, num: Numeral, mid: string, code: string, tail: string, from: string)
    requires WellFormed(num) && Value(num) > 0.0 && CodeShaped(code)
    requires forall j :: 0 <= j < |head| ==> !IsDigit(head[j])
    requires !Mentions(head + Text(num) + " dungeer" + mid, "utga:")
    requires tail == [] || !IsCodeChar(tail[0])
    ensures var r := Parse(Some(head + Text(num) + " dungeer" + mid + "Utga: " + code + tail), from);
      r.isIncoming && r.isValid && r.amount == Some(Value(num)) && r.paymentCode == Some(code)
  {
    var m := head + Text(num) + " dungeer" + mid + "Utga: " + code + tail;
    var h := TrimStart(head);
    var t := TrimEnd(tail);
    NotificationTrim(head, num, mid, code, tail);
    TrimmedHead(head);
    NotificationHeadNoUtga(head, Text(num), mid);
    TrimmedTail(tail);
    NotificationFields(h, num, mid, code, t);
    ParseFound(m, from, Value(num), code);
  }

  /** Trimming a notification trims only what comes before the amount and after the code. */
  lemma {:induction false} NotificationTrim(head: string, num: Numeral, mid: string, code: string, tail: string)
    requires WellFormed(num) && CodeShaped(code)
    ensures Trim(head + Text(num) + " dungeer" + mid + "Utga: " + code + tail)
      == TrimStart(head) + Text(num) + " dungeer" + mid + "Utga: " + code + TrimEnd(tail)
  {
    var x := Text(num) + " dungeer" + mid + "Utga: " + code;
    NotificationBody(num, mid, code);
    Regroup5(head, Text(num), " dungeer", mid, "Utga: ", code, tail);
    Regroup5(TrimStart(head), Text(num), " dungeer", mid, "Utga: ", code, TrimEnd(tail));
    TrimAround(head, x, tail);
  }

  /** Concatenation regrouped around its five middle parts. */
  lemma {:induction false} Regroup5(h: string, a: string, b: string, c: string, d: string, e: string, t: string)
    ensures h + a + b + c + d + e + t == h + (a + b + c + d + e) + t
  {
  }

  /** No `utga:` before the code survives trimming the start of the message. */
  lemma {:induction false} NotificationHeadNoUtga(head: string, t: string, mid: string)
    ensures !Mentions(head + t + " dungeer" + mid, "utga:") ==> !Mentions(TrimStart(head) + t + " dungeer" + mid, "utga:")
  {
    var rest := t + " dungeer" + mid;
    MentionsSuffix(head, rest, "utga:");
    assert head + rest == head + t + " dungeer" + mid;
    assert TrimStart(head) + rest == TrimStart(head) + t + " dungeer" + mid;
  }

  /** The part of a notification from the amount to the code starts and ends with no white space. */
  lemma {:induction false} NotificationBody(num: Numeral, mid: string, code: string)
    requires WellFormed(num) && CodeShaped(code)
    ensures var x := Text(num) + " dungeer" + mid + "Utga: " + code;
      x != [] && !IsSpace(x[0]) && !IsSpace(x[|x| - 1])
  {
    var x := Text(num) + " dungeer" + mid + "Utga: " + code;
    assert x[0] == num.lead[0];
    assert IsRadixDigit(num.lead[0], 10);
    assert x[|x| - 1] == code[|code| - 1];
    assert IsPaymentCodeChar(code[|code| - 1]);
  }

  /** What trimming the start of a head leaves keeps no white space at its start and no digit the head lacked. */
  lemma {:induction false} TrimmedHead(head: string)
    ensures var h := TrimStart(head);
      && (h == [] || !IsSpace(h[0]))
      && head == head[..|head| - |h|] + h
      && forall j :: 0 <= j < |h| ==> h[j] == head[|head| - |h| + j]
  {
    TrimStartSuffix(head);
    var h := TrimStart(head);
    assert head == head[..|head| - |h|] + head[|head| - |h|..];
  }

  /** What trimming the end of a tail leaves starts with the tail's first character and ends with no white space. */
  lemma {:induction false} TrimmedTail(tail: string)
    ensures var t := TrimEnd(tail);
      && (t == [] || (t[0] == tail[0] && !IsSpace(t[|t| - 1])))
  {
  }

  /** A word that `s` does not mention is not mentioned by a suffix of `s` followed by `rest`. */
  lemma {:induction false} MentionsSuffix(s: string, rest: string, w: string)
    ensures var h := TrimStart(s);
      !Mentions(s + rest, w) ==> !Mentions(h + rest, w)
  {
    var h := TrimStart(s);
    TrimmedHead(s);
    var d := |s| - |h|;
    assert s + rest == s[..d] + (h + rest);
    if Mentions(h + rest, w) {
      var j :| 0 <= j <= |h + rest| && MatchesAt(h + rest, j, w);
      MatchesAtShift(s[..d], h + rest, j, w);
    }
  }

  /** A match in `t` is a match in `p + t`, shifted by the length of `p`. */
  lemma {:induction false} MatchesAtShift(p: string, t: string, j: nat, w: string)
    requires MatchesAt(t, j, w)
    ensures MatchesAt(p + t, |p| + j, w)
  {
    forall k | 0 <= k < |w| ensures Fold((p + t)[|p| + j + k]) == w[k] {
      assert (p + t)[|p| + j + k] == t[j + k];
    }
  }

  /** The amount and the code of a notification, and that it is trimmed and incoming. */
  lemma {:induction false} NotificationFields(head: string, num: Numeral, mid: string, code: string, tail: string)
    requires WellFormed(num) && Value(num) > 0.0 && CodeShaped(code)
    requires head == [] || !IsSpace(head[0])
    requires forall j :: 0 <= j < |head| ==> !IsDigit(head[j])
    requires !Mentions(head + Text(num) + " dungeer" + mid, "utga:")
    requires tail == [] || (!IsCodeChar(tail[0]) && !IsSpace(tail[|tail| - 1]))
    ensures var m := head + Text(num) + " dungeer" + mid + "Utga: " + code + tail;
      && m != [] && Trim(m) == m && Detects(m, IncomingPattern)
      && FirstAmount(m, AmountPatterns, 0) == Some(Value(num)) && FirstCode(m, CodePatterns, 0) == Some(code)
  {
    var before := head + Text(num) + " dungeer" + mid;
    NotificationTrimmed(head, num, mid, code, tail);
    NotificationAmount(head, num, mid, code, tail);
    CodeAfterUtga(before, code, tail);
  }

  /** A notification is trimmed already and reads as incoming. */
  lemma {:induction false} NotificationTrimmed(head: string, num: Numeral, mid: string, code: string, tail: string)
    requires WellFormed(num) && CodeShaped(code)
    requires head == [] || !IsSpace(head[0])
    requires forall j :: 0 <= j < |head| ==> !IsDigit(head[j])
    requires tail == [] || !IsSpace(tail[|tail| - 1])
    ensures var m := head + Text(num) + " dungeer" + mid + "Utga: " + code + tail;
      m != [] && Trim(m) == m && Detects(m, IncomingPattern)
  {
    var m := head + Text(num) + " dungeer" + mid + "Utga: " + code + tail;
    NotificationEnds(head, num, mid, code, tail);
    NotificationNumeral(head, num, mid, code, tail);
    TrimUnchanged(m);
    DungeerIncoming(m, SkipSpaces(m, |head| + |Text(num)|));
  }

  /** The amount of a notification is the numeral before ` dungeer`. */
  lemma {:induction false} NotificationAmount(head: string, num: Numeral, mid: string, code: string, tail: string)
    requires WellFormed(num) && Value(num) > 0.0 && CodeShaped(code)
    requires head == [] || !IsSpace(head[0])
    requires forall j :: 0 <= j < |head| ==> !IsDigit(head[j])
    requires tail == [] || !IsSpace(tail[|tail| - 1])
    ensures var m := head + Text(num) + " dungeer" + mid + "Utga: " + code + tail;
      FirstAmount(m, AmountPatterns, 0) == Some(Value(num))
  {
    var m := head + Text(num) + " dungeer" + mid + "Utga: " + code + tail;
    NotificationNumeral(head, num, mid, code, tail);
    AmountBeforeDungeer(m, |head|, num);
  }

  /** In a notification, the numeral follows a head without digits and precedes ` dungeer`. */
  lemma {:induction false} NotificationNumeral(head: string, num: Numeral, mid: string, code: string, tail: string)
    requires WellFormed(num) && CodeShaped(code)
    requires head == [] || !IsSpace(head[0])
    requires forall j :: 0 <= j < |head| ==> !IsDigit(head[j])
    requires tail == [] || !IsSpace(tail[|tail| - 1])
    ensures var m := head + Text(num) + " dungeer" + mid + "Utga: " + code + tail;
      NumeralThenDungeer(m, |head|, num) && forall j :: 0 <= j < |head| ==> !IsDigit(m[j])
  {
    var m := head + Text(num) + " dungeer" + mid + "Utga: " + code + tail;
    NotificationLayout(head, num, mid, code, tail);
    DungeerAfterNumeral(m, |head|, num);
  }

  /** Where the numeral and ` dungeer` lie in a notification. */
  lemma {:induction false} NotificationLayout(head: string, num: Numeral, mid: string, code: string, tail: string)
    requires WellFormed(num)
    requires forall j :: 0 <= j < |head| ==> !IsDigit(head[j])
    ensures var m := head + Text(num) + " dungeer" + mid + "Utga: " + code + tail;
      var i := |head|; var e := i + |Text(num)|;
      && e + 8 <= |m| && m[i..e] == Text(num) && m[e..e + 8] == " dungeer"
      && (forall j :: 0 <= j < i ==> !IsDigit(m[j]))
  {
    var p := head + Text(num) + " dungeer";
    PrefixOf(p, mid, "Utga: ", code, tail);
    NumeralLayout(head, Text(num), p + mid + "Utga: " + code + tail);
  }

  /** A notification starts and ends with a character that is not white space. */
  lemma {:induction false} NotificationEnds(head: string, num: Numeral, mid: string, code: string, tail: string)
    requires WellFormed(num) && CodeShaped(code)
    requires head == [] || !IsSpace(head[0])
    requires tail == [] || !IsSpace(tail[|tail| - 1])
    ensures var m := head + Text(num) + " dungeer" + mid + "Utga: " + code + tail;
      m != [] && !IsSpace(m[0]) && !IsSpace(m[|m| - 1])
  {
    var p := head + Text(num) + " dungeer";
    PrefixOf(p, mid, "Utga: ", code, tail);
    var m := p + mid + "Utga: " + code + tail;
    assert m[0] == m[0..|p|][0];
    if head == [] {
      assert IsRadixDigit(num.lead[0], 10);
      assert p[0] == num.lead[0];
    } else {
      assert p[0] == head[0];
    }
    CodeEnds(p + mid, code, tail);
  }

  /** `p` is where `p + a + b + c + d` starts. */
  lemma {:induction false} PrefixOf(p: string, a: string, b: string, c: string, d: string)
    ensures |p| <= |p + a + b + c + d| && (p + a + b + c + d)[0..|p|] == p
  {
    var m := p + a + b + c + d;
    forall k | 0 <= k < |p| ensures m[0..|p|][k] == p[k] {
    }
  }

  /** Where a numeral followed by ` dungeer` lies in a message that starts `head + t + " dungeer"`. */
  lemma {:induction false} NumeralLayout(head: string, t: string, m: string)
    requires |head| + |t| + 8 <= |m| && m[0..|head| + |t| + 8] == head + t + " dungeer"
    ensures var i := |head|; var e := i + |t|;
      && m[i..e] == t && m[e..e + 8] == " dungeer"
      && (forall j :: 0 <= j < i ==> m[j] == head[j])
  {
    SliceParts(m, 0, head, t, " dungeer");
    forall j | 0 <= j < |head| ensures m[j] == head[j] {
      assert m[0..|head|][j] == m[j];
    }
  }

  /** The last character of `… + "Utga: " + code + tail` is that of `tail`, or of `code` when `tail` is empty. */
  lemma {:induction false} CodeEnds(mid: string, code: string, tail: string)
    requires code != []
    ensures var u := mid + "Utga: " + code + tail;
      u[|u| - 1] == if tail == [] then code[|code| - 1] else tail[|tail| - 1]
  {
  }

  // ---------------------------------------------------------------- the documented notification

  /** No `x` is directly followed by a `y`, comparing case-insensitively. */
  predicate PairFree(s: string, x: char, y: char) {
    forall k :: 0 <= k < |s| - 1 ==> !(Fold(s[k]) == x && Fold(s[k + 1]) == y)
  }

  /** `x` does not occur in `s`, comparing case-insensitively. */
  predicate Lacks(s: string, x: char) {
    forall k :: 0 <= k < |s| ==> Fold(s[k]) != x
  }

  /** Two pair-free strings make one when the first does not end with `x`. */
  lemma {:induction false} PairFreeAppend(a: string, b: string, x: char, y: char)
    requires PairFree(a, x, y) && PairFree(b, x, y)
    requires a == [] || Fold(a[|a| - 1]) != x
    ensures PairFree(a + b, x, y)
  {
    forall k | 0 <= k < |a + b| - 1 ensures !(Fold((a + b)[k]) == x && Fold((a + b)[k + 1]) == y) {
      if k + 1 < |a| {
        assert (a + b)[k] == a[k] && (a + b)[k + 1] == a[k + 1];
      } else if k + 1 == |a| {
        assert (a + b)[k] == a[k];
      } else {
        assert (a + b)[k] == b[k - |a|] && (a + b)[k + 1] == b[k + 1 - |a|];
      }
    }
  }

  /** A literal cannot occur where its first two letters never occur together. */
  lemma {:induction false} PairFreeNoMention(s: string, w: string)
    requires |w| >= 2 && PairFree(s, w[0], w[1])
    ensures !Mentions(s, w)
  {
    forall j | 0 <= j <= |s| ensures !MatchesAt(s, j, w) {
    }
  }

  /** No `ognoo:` starts before `head` ends when `gn` never occurs in `head` and `O` follows it. */
  lemma {:induction false} NoOgnooBefore(head: string, rest: string, j: nat)
    requires PairFree(head, 'g', 'n')
    requires rest != [] && rest[0] == 'O'
    requires j < |head|
    ensures CaptureAt(head + rest, j, DateAfter("ognoo:")).None?
  {
    var s := head + rest;
    if j + 2 < |head| {
      assert s[j + 1] == head[j + 1] && s[j + 2] == head[j + 2];
      assert !(Fold(s[j + 1]) == "ognoo:"[1] && Fold(s[j + 2]) == "ognoo:"[2]);
    } else if j + 2 == |head| {
      assert s[j + 2] == rest[0];
      assert Fold(s[j + 2]) != "ognoo:"[2];
    } else {
      assert s[j + 1] == rest[0];
      assert Fold(s[j + 1]) != "ognoo:"[1];
    }
  }

  /** `Ognoo:\s*(\d{4}-\d{2}-\d{2})` at `i` captures the date written after `Ognoo: `. */
  lemma {:induction false} CaptureAfterOgnoo(s: string, i: nat, date: string)
    requires |date| == 10 && IsoAt(date, 0, false)
    requires i + 17 <= |s| && s[i..i + 7] == "Ognoo: " && s[i + 7..i + 17] == date
    ensures CaptureAt(s, i, DateAfter("ognoo:")) == Some((i + 7, i + 17))
  {
    OgnooMarker(s, i);
    IsoCopied(s, i + 7, date);
    DateAfterMarker(s, i, "ognoo:");
  }

  /** `Ognoo: ` at `i` matches `ognoo:`, then one space. */
  lemma {:induction false} OgnooMarker(s: string, i: nat)
    requires i + 7 <= |s| && s[i..i + 7] == "Ognoo: "
    ensures MatchesAt(s, i, "ognoo:") && s[i + 6] == ' '
  {
    forall k | 0 <= k < 7 ensures s[i + k] == "Ognoo: "[k] {
      assert s[i + k] == s[i..i + 7][k];
    }
  }

  /** A date copied to `q` is a date there too. */
  lemma {:induction false} IsoCopied(s: string, q: nat, date: string)
    requires |date| == 10 && IsoAt(date, 0, false)
    requires q + 10 <= |s| && s[q..q + 10] == date
    ensures IsoAt(s, q, false)
  {
    forall k | 0 <= k < 10 ensures s[q + k] == date[k] {
      assert s[q + k] == s[q..q + 10][k];
    }
    assert DigitsAt(s, q, 4) && DigitsAt(s, q + 5, 2) && DigitsAt(s, q + 8, 2) by {
      assert DigitsAt(date, 0, 4) && DigitsAt(date, 5, 2) && DigitsAt(date, 8, 2);
    }
  }

  /** `marker\s*(\d{4}-\d{2}-\d{2})` at `i`, with one space after the marker, captures the date. */
  lemma {:induction false} DateAfterMarker(s: string, i: nat, marker: string)
    requires i + |marker| + 1 <= |s| && MatchesAt(s, i, marker) && s[i + |marker|] == ' '
    requires IsoAt(s, i + |marker| + 1, false)
    ensures CaptureAt(s, i, DateAfter(marker)) == Some((i + |marker| + 1, i + |marker| + 11))
  {
    var q := i + |marker| + 1;
    assert IsDigit(s[q]);
    assert SkipSpaces(s, i + |marker|) == q;
  }

  /** A date written after `Ognoo: ` is the date read, when `gn` never occurs before it. */
  lemma {:induction false} DateAfterOgnoo(head: string, date: string, tail: string)
    requires |date| == 10 && IsoAt(date, 0, false)
    requires PairFree(head, 'g', 'n')
    ensures FirstDate(head + "Ognoo: " + date + tail, 0) == Some(date)
  {
    var rest := "Ognoo: " + date + tail;
    var s := head + "Ognoo: " + date + tail;
    assert s == head + rest;
    var p := DateAfter("ognoo:");
    var i := |head|;
    forall j | 0 <= j < i ensures CaptureAt(s, j, p).None? {
      NoOgnooBefore(head, rest, j);
    }
    assert s[i..i + 7] == "Ognoo: ";
    assert s[i + 7..i + 17] == date;
    CaptureAfterOgnoo(s, i, date);
    MatchFromFirst(s, p, 0, i);
    GroupAtFirst(s, p, i, (i + 7, i + 17), date);
  }

  /** A masked account number: digits and `*`. */
  predicate IsAccount(acct: string) {
    acct != [] && forall k :: 0 <= k < |acct| ==> IsDigit(acct[k]) || acct[k] == '*'
  }

  /**
   * The notification of the documented example with its variable parts: a
   * masked account, the amount, the date, the description (`Utga`) and the
   * balance (`Uldegdel`).
   */
  function Notice(acct: string, num: Numeral, date: string, code: string, bal: Numeral): string
    requires WellFormed(num) && WellFormed(bal)
  {
    acct + " dansand " + Text(num) + " dungeer" + " orlogiin" + " guilgee hiigdlee. "
    + "Ognoo: " + date + ", " + "Utga: " + code + " Uldegdel: " + Text(bal)
  }

  /** Characters that are neither letters nor white space: digits, `,`, `.`, `*` and `-`. */
  predicate Plain(s: string) {
    forall k :: 0 <= k < |s| ==> IsNumChar(s[k]) || s[k] == '*' || s[k] == '-'
  }

  /** A plain string has no letter, so no pair of letters. */
  lemma {:induction false} PlainPairFree(s: string, x: char, y: char)
    requires Plain(s) && 'a' <= x <= 'z'
    ensures PairFree(s, x, y) && (s == [] || Fold(s[|s| - 1]) != x)
  {
    assert forall k :: 0 <= k < |s| ==> Fold(s[k]) == s[k];
  }

  /** A date `dddd-dd-dd` is plain. */
  lemma {:induction false} DatePlain(date: string)
    requires |date| == 10 && IsoAt(date, 0, false)
    ensures Plain(date)
  {
    forall k | 0 <= k < 10 ensures IsNumChar(date[k]) || date[k] == '-' {
      if k < 4 {
        assert DigitsAt(date, 0, 4);
      } else if 5 <= k < 7 {
        assert DigitsAt(date, 5, 2);
      } else if 8 <= k {
        assert DigitsAt(date, 8, 2);
      }
    }
  }

  /** The fixed words of a notice before `Ognoo:` hold no `gn`. */
  lemma {:induction false} LiteralsNoGn()
    ensures PairFree(" dansand ", 'g', 'n') && PairFree(" dungeer", 'g', 'n')
    ensures PairFree(" orlogiin", 'g', 'n') && PairFree(" guilgee hiigdlee. ", 'g', 'n')
  {
    PairFreeLetters(" dansand ", 'g', 'n');
    PairFreeLetters(" dungeer", 'g', 'n');
    PairFreeLetters(" orlogiin", 'g', 'n');
    PairFreeLetters(" guilgee hiigdlee. ", 'g', 'n');
  }

  /** The fixed words of a notice before `Utga:` hold no `ut`. */
  lemma {:induction false} LiteralsNoUt()
    ensures PairFree(" dansand ", 'u', 't') && PairFree(" dungeer", 'u', 't')
    ensures PairFree(" orlogiin", 'u', 't') && PairFree(" guilgee hiigdlee. ", 'u', 't')
    ensures PairFree("Ognoo: ", 'u', 't') && PairFree(", ", 'u', 't')
  {
    PairFreeLetters(" dansand ", 'u', 't');
    PairFreeLetters(" dungeer", 'u', 't');
    PairFreeLetters(" orlogiin", 'u', 't');
    PairFreeLetters(" guilgee hiigdlee. ", 'u', 't');
    PairFreeLetters("Ognoo: ", 'u', 't');
    PairFreeLetters(", ", 'u', 't');
  }

  /** Only a Latin letter and its capital fold to that letter. */
  lemma {:induction false} FoldToLetter(c: char, x: char)
    requires 'a' <= x <= 'z'
    ensures Fold(c) == x <==> c == x || c as int == x as int - 32
  {
  }

  /** A pair of Latin letters occurs, ignoring case, only where it is written in either case. */
  lemma {:induction false} PairFreeLetters(s: string, x: char, y: char)
    requires 'a' <= x <= 'z' && 'a' <= y <= 'z'
    requires forall k :: 0 <= k < |s| - 1 ==> !((s[k] == x || s[k] as int == x as int - 32) && (s[k + 1] == y || s[k + 1] as int == y as int - 32))
    ensures PairFree(s, x, y)
  {
    forall k | 0 <= k < |s| - 1 ensures !(Fold(s[k]) == x && Fold(s[k + 1]) == y) {
      FoldToLetter(s[k], x);
      FoldToLetter(s[k + 1], y);
    }
  }

  /** The part of a notice before `Ognoo:` holds no `gn`. */
  lemma {:induction false} NoticeHeadNoGn(acct: string, t: string)
    requires Plain(acct) && Plain(t)
    ensures PairFree(acct + " dansand " + t + " dungeer" + " orlogiin" + " guilgee hiigdlee. ", 'g', 'n')
  {
    PlainPairFree(acct, 'g', 'n');
    PlainPairFree(t, 'g', 'n');
    LiteralsNoGn();
    PairFreeAppend(acct, " dansand ", 'g', 'n');
    PairFreeAppend(acct + " dansand ", t, 'g', 'n');
    PairFreeAppend(acct + " dansand " + t, " dungeer", 'g', 'n');
    PairFreeAppend(acct + " dansand " + t + " dungeer", " orlogiin", 'g', 'n');
    PairFreeAppend(acct + " dansand " + t + " dungeer" + " orlogiin", " guilgee hiigdlee. ", 'g', 'n');
  }

  /** The part of a notice before `Utga:` holds no `ut`. */
  lemma {:induction false} NoticeHeadNoUt(acct: string, t: string, date: string)
    requires Plain(acct) && Plain(t) && Plain(date)
    ensures PairFree(acct + " dansand " + t + " dungeer" + " orlogiin" + " guilgee hiigdlee. "
      + "Ognoo: " + date + ", ", 'u', 't')
  {
    var a := acct + " dansand " + t;
    PlainPairFree(acct, 'u', 't');
    PlainPairFree(t, 'u', 't');
    PlainPairFree(date, 'u', 't');
    LiteralsNoUt();
    PairFreeAppend(acct, " dansand ", 'u', 't');
    PairFreeAppend(acct + " dansand ", t, 'u', 't');
    PairFreeAppend(a, " dungeer", 'u', 't');
    PairFreeAppend(a + " dungeer", " orlogiin", 'u', 't');
    PairFreeAppend(a + " dungeer" + " orlogiin", " guilgee hiigdlee. ", 'u', 't');
    var b := a + " dungeer" + " orlogiin" + " guilgee hiigdlee. ";
    PairFreeAppend(b, "Ognoo: ", 'u', 't');
    PairFreeAppend(b + "Ognoo: ", date, 'u', 't');
    PairFreeAppend(b + "Ognoo: " + date, ", ", 'u', 't');
  }

  /** No numeral before the amount of a notice is followed by `dungeer`. */
  lemma {:induction false} NoticeNoEarlierAmount(acct: string, m: string, j: nat)
    requires IsAccount(acct)
    requires |acct| + 9 <= |m| && m[0..|acct| + 9] == acct + " dansand "
    requires j < |acct| + 9
    ensures CaptureAt(m, j, NumeralBefore("dungeer", false)).None?
  {
    var n := |acct|;
    var h := acct + " dansand ";
    assert forall k :: 0 <= k < n + 9 ==> m[k] == h[k] by {
      forall k | 0 <= k < n + 9 ensures m[k] == h[k] {
        assert m[0..n + 9][k] == m[k];
      }
    }
    assert m[n] == ' ' && m[n + 1] == 'd' && m[n + 2] == 'a';
    if j >= n {
      assert m[j] == " dansand "[j - n];
      NoNumeralAt(m, j, "dungeer");
    } else {
      var r := NumRunEnd(m, j);
      if r < n {
        assert m[r] == acct[r] == '*';
        assert SkipSpaces(m, r) == r;
      } else {
        assert !IsNumChar(m[n]);
        assert r == n;
        assert SkipSpaces(m, n) == n + 1;
        assert Fold(m[n + 2]) != "dungeer"[1];
      }
      NoCaptureBeforeKeyword(m, j, "dungeer");
    }
  }

  /** In a notice the numeral after `dansand ` is followed by `dungeer`. */
  lemma {:induction false} NoticeNumeral(acct: string, num: Numeral, rest: string)
    requires WellFormed(num)
    ensures var m := acct + " dansand " + Text(num) + " dungeer" + rest;
      && NumeralThenDungeer(m, |acct| + 9, num)
      && |acct| + 9 <= |m| && m[0..|acct| + 9] == acct + " dansand "
  {
    var head := acct + " dansand ";
    var p := head + Text(num) + " dungeer";
    var m := p + rest;
    forall k | 0 <= k < |p| ensures m[0..|p|][k] == p[k] {
    }
    NumeralLayout(head, Text(num), m);
    forall k | 0 <= k < |head| ensures m[0..|head|][k] == head[k] {
    }
    DungeerAfterNumeral(m, |head|, num);
  }

  /** The amount of a notice is the numeral before `dungeer`, the account's digits notwithstanding. */
  lemma {:induction false} NoticeAmount(acct: string, num: Numeral, rest: string)
    requires IsAccount(acct) && WellFormed(num) && Value(num) > 0.0
    ensures var m := acct + " dansand " + Text(num) + " dungeer" + rest;
      FirstAmount(m, AmountPatterns, 0) == Some(Value(num)) && Detects(m, IncomingPattern)
  {
    var m := acct + " dansand " + Text(num) + " dungeer" + rest;
    NoticeNumeral(acct, num, rest);
    DungeerIncoming(m, SkipSpaces(m, |acct| + 9 + |Text(num)|));
    NoticeFirstAmount(acct, num, m);
  }

  /** The amount of a message that starts as a notice does is the numeral after `dansand `. */
  lemma {:induction false} NoticeFirstAmount(acct: string, num: Numeral, m: string)
    requires IsAccount(acct) && NumeralThenDungeer(m, |acct| + 9, num) && Value(num) > 0.0
    requires |acct| + 9 <= |m| && m[0..|acct| + 9] == acct + " dansand "
    ensures FirstAmount(m, AmountPatterns, 0) == Some(Value(num))
  {
    NoticeNoEarlierAmounts(acct, m);
    FirstAmountIs(m, |acct| + 9, num);
  }

  /** No numeral before the amount of a notice is followed by `dungeer`. */
  lemma {:induction false} NoticeNoEarlierAmounts(acct: string, m: string)
    requires IsAccount(acct)
    requires |acct| + 9 <= |m| && m[0..|acct| + 9] == acct + " dansand "
    ensures forall j :: 0 <= j < |acct| + 9 ==> CaptureAt(m, j, NumeralBefore("dungeer", false)).None?
  {
    forall j | 0 <= j < |acct| + 9 ensures CaptureAt(m, j, NumeralBefore("dungeer", false)).None? {
      NoticeNoEarlierAmount(acct, m, j);
    }
  }

  /** The date of a notice is the one written after `Ognoo: `. */
  lemma {:induction false} NoticeDate(acct: string, num: Numeral, date: string, code: string, bal: Numeral)
    requires IsAccount(acct) && WellFormed(num) && WellFormed(bal)
    requires |date| == 10 && IsoAt(date, 0, false)
    ensures FirstDate(Notice(acct, num, date, code, bal), 0) == Some(date)
  {
    var a := acct + " dansand " + Text(num) + " dungeer" + " orlogiin" + " guilgee hiigdlee. ";
    var tail := ", " + "Utga: " + code + " Uldegdel: " + Text(bal);
    var m := Notice(acct, num, date, code, bal);
    assert m == a + "Ognoo: " + date + tail;
    TextNumChars(num);
    NoticeHeadNoGn(acct, Text(num));
    DateAfterOgnoo(a, date, tail);
  }

  /** The payment code of a notice is the code written after `Utga: `. */
  lemma {:induction false} NoticeCode(acct: string, num: Numeral, date: string, code: string, bal: Numeral)
    requires IsAccount(acct) && WellFormed(num) && WellFormed(bal) && CodeShaped(code)
    requires |date| == 10 && IsoAt(date, 0, false)
    ensures FirstCode(Notice(acct, num, date, code, bal), CodePatterns, 0) == Some(code)
  {
    var d := acct + " dansand " + Text(num) + " dungeer" + " orlogiin" + " guilgee hiigdlee. "
      + "Ognoo: " + date + ", ";
    var tail := " Uldegdel: " + Text(bal);
    TextNumChars(num);
    DatePlain(date);
    NoticeHeadNoUt(acct, Text(num), date);
    PairFreeNoMention(d, "utga:");
    CodeAfterUtga(d, code, tail);
    assert Notice(acct, num, date, code, bal) == d + "Utga: " + code + tail;
  }

  /** A notice is its own trimmed text: it starts with the account and ends with a digit of the balance. */
  lemma {:induction false} NoticeTrimmed(acct: string, num: Numeral, date: string, code: string, bal: Numeral)
    requires IsAccount(acct) && WellFormed(num) && WellFormed(bal)
    ensures Trim(Notice(acct, num, date, code, bal)) == Notice(acct, num, date, code, bal)
  {
    var m := Notice(acct, num, date, code, bal);
    var u := acct + " dansand " + Text(num) + " dungeer" + " orlogiin" + " guilgee hiigdlee. "
      + "Ognoo: " + date + ", " + "Utga: " + code + " Uldegdel: ";
    TextNumChars(bal);
    assert m == u + Text(bal);
    assert m[|m| - 1] == Text(bal)[|Text(bal)| - 1];
    assert m[0] == acct[0];
    TrimUnchanged(m);
  }

  /**
   * A notice laid out like the documented example is read as a valid
   * incoming payment with its amount, description code and date.
   */
  lemma {:induction false} NoticeRead(acct: string, num: Numeral, date: string, code: string, bal: Numeral, from: string)
    requires IsAccount(acct) && WellFormed(num) && Value(num) > 0.0 && WellFormed(bal)
    requires |date| == 10 && IsoAt(date, 0, false) && CodeShaped(code)
    ensures var r := Parse(Some(Notice(acct, num, date, code, bal)), from);
      && r.isValid && r.isIncoming && r.amount == Some(Value(num))
      && r.paymentCode == Some(code) && r.date == Some(date)
  {
    var m := Notice(acct, num, date, code, bal);
    NoticeTrimmed(acct, num, date, code, bal);
    NoticeIncomingAmount(acct, num, date, code, bal);
    NoticeDate(acct, num, date, code, bal);
    NoticeCode(acct, num, date, code, bal);
    ParseTrimmed(m, from);
  }

  /** The amount of a notice, and its being incoming. */
  lemma {:induction false} NoticeIncomingAmount(acct: string, num: Numeral, date: string, code: string, bal: Numeral)
    requires IsAccount(acct) && WellFormed(num) && Value(num) > 0.0 && WellFormed(bal)
    ensures var m := Notice(acct, num, date, code, bal);
      FirstAmount(m, AmountPatterns, 0) == Some(Value(num)) && Detects(m, IncomingPattern)
  {
    var rest := " orlogiin" + " guilgee hiigdlee. " + "Ognoo: " + date + ", " + "Utga: " + code
      + " Uldegdel: " + Text(bal);
    NoticeAmount(acct, num, rest);
    Regroup(acct + " dansand " + Text(num) + " dungeer", " orlogiin", " guilgee hiigdlee. ", "Ognoo: ",
      date, ", ", "Utga: ", code, " Uldegdel: ", Text(bal));
  }

  /** Concatenation regrouped to the right after its first part. */
  lemma {:induction false} Regroup(p: string, a: string, b: string, c: string, d: string, e: string, f: string, g: string, h: string, k: string)
    ensures p + a + b + c + d + e + f + g + h + k == p + (a + b + c + d + e + f + g + h + k)
  {
  }

  /** An incoming message that is already trimmed is read field by field from its own text. */
  lemma {:induction false} ParseTrimmed(m: string, from: string)
    requires m != [] && Trim(m) == m && Detects(m, IncomingPattern)
    ensures var r := Parse(Some(m), from);
      && r.isIncoming && r.isValid == FirstAmount(m, AmountPatterns, 0).Some?
      && r.amount == FirstAmount(m, AmountPatterns, 0) && r.paymentCode == FirstCode(m, CodePatterns, 0) && r.date == FirstDate(m, 0)
  {
  }

  /** An incoming message whose trimmed text has a positive amount and a code is a valid payment with both. */
  lemma {:induction false} ParseFound(m: string, from: string, amount: real, code: string)
    requires m != [] && Detects(Trim(m), IncomingPattern)
    requires FirstAmount(Trim(m), AmountPatterns, 0) == Some(amount) && FirstCode(Trim(m), CodePatterns, 0) == Some(code)
    ensures var r := Parse(Some(m), from);
      r.isIncoming && r.isValid && r.amount == Some(amount) && r.paymentCode == Some(code)
  {
  }

  /** The message given as the example of the format the parser reads, written in its parts. */
  const DocumentedNotice: string :=
    "210*****82" + " dansand " + "2,000.00" + " dungeer" + " orlogiin" + " guilgee hiigdlee. "
    + "Ognoo: " + "2026-01-07" + ", " + "Utga: " + "ORD-A7X9" + " Uldegdel: " + "183,055.09"

  /** The amount of the documented example, `2,000.00`. */
  const DocumentedAmount: Numeral := Numeral("2", ["000"], Some("00"))

  /** The balance of the documented example, `183,055.09`. */
  const DocumentedBalance: Numeral := Numeral("183", ["055"], Some("09"))

  /** The documented amount is well formed, reads `2,000.00` and is worth 2000. */
  lemma {:induction false} DocumentedAmountValue()
    ensures WellFormed(DocumentedAmount) && Text(DocumentedAmount) == "2,000.00"
    ensures Value(DocumentedAmount) == 2000.0
  {
    var num := DocumentedAmount;
    assert AllDigits("2", 10) && AllDigits("000", 10) && AllDigits("00", 10);
    assert GroupsText(["000"]) == ",000" by {
      assert ["000"][1..] == [];
    }
    assert Concat(["000"]) == "000" by {
      assert ["000"][1..] == [];
    }
    assert WholeDigits(num) == "2000";
    assert DigitsValue("2", 10) == 2 by {
      assert "2"[..0] == "";
    }
    assert DigitsValue("20", 10) == 20 by {
      assert "20"[..1] == "2";
    }
    assert DigitsValue("200", 10) == 200 by {
      assert "200"[..2] == "20";
    }
    assert DigitsValue("2000", 10) == 2000 by {
      assert "2000"[..3] == "200";
    }
    assert DigitsValue("00", 10) == 0 by {
      assert "00"[..1] == "0";
      assert "0"[..0] == "";
    }
  }

  /** The documented balance is well formed and reads `183,055.09`. */
  lemma {:induction false} DocumentedBalanceText()
    ensures WellFormed(DocumentedBalance) && Text(DocumentedBalance) == "183,055.09"
  {
    assert AllDigits("183", 10) && AllDigits("055", 10) && AllDigits("09", 10);
    assert GroupsText(["055"]) == ",055" by {
      assert ["055"][1..] == [];
    }
  }

  /** The documented example is a notice with account `210*****82`, date `2026-01-07` and code `ORD-A7X9`. */
  lemma {:induction false} DocumentedLayout()
    ensures WellFormed(DocumentedAmount) && WellFormed(DocumentedBalance)
    ensures DocumentedNotice == Notice("210*****82", DocumentedAmount, "2026-01-07", "ORD-A7X9", DocumentedBalance)
  {
    DocumentedAmountValue();
    DocumentedBalanceText();
  }

  /**
   * The example message is read as a valid incoming payment of 2000 with
   * payment code `ORD-A7X9` and date `2026-01-07`.
   */
  lemma {:induction false} DocumentedExample(from: string)
    ensures var r := Parse(Some(DocumentedNotice), from);
      && r.isValid && r.isIncoming && r.amount == Some(2000.0)
      && r.paymentCode == Some("ORD-A7X9") && r.date == Some("2026-01-07")
  {
    DocumentedLayout();
    DocumentedAmountValue();
    assert IsAccount("210*****82");
    assert CodeShaped("ORD-A7X9");
    assert IsoAt("2026-01-07", 0, false);
    NoticeRead("210*****82", DocumentedAmount, "2026-01-07", "ORD-A7X9", DocumentedBalance, from);
  }

  // ---------------------------------------------------------------- generatePaymentCode

  /** The characters of a generated code: `0`, `O`, `1` and `I`, which read alike, are left out. */
  const CodeAlphabet: string := "ABCDEFGHJKLMNPQRSTUVWXYZ23456789"

  /** Four draws of `Math.random()`, each in [0, 1). */
  predicate IsDraws(draws: seq<real>) {
    |draws| == 4 && forall k :: 0 <= k < |draws| ==> 0.0 <= draws[k] < 1.0
  }

  /** `Math.floor(r * chars.length)`: the alphabet position a draw selects. */
  function Pick(r: real): (i: nat)
    requires 0.0 <= r < 1.0
    ensures i < |CodeAlphabet|
  {
    (r * |CodeAlphabet| as real).Floor
  }

  /** The code `generatePaymentCode` makes from its four draws. */
  function CodeOf(draws: seq<real>): string
    requires IsDraws(draws)
  {
    "ORD-" + seq(4, k requires 0 <= k < 4 => CodeAlphabet[Pick(draws[k])])
  }

  /** `generatePaymentCode`, with the calls to `Math.random()` supplied as `draws`. */
  method GeneratePaymentCode(draws: seq<real>) returns (code: string)
    requires IsDraws(draws)
    ensures code == CodeOf(draws)
  {
    code := "ORD-";
    for i := 0 to 4
      invariant code == "ORD-" + seq(i, k requires 0 <= k < i => CodeAlphabet[Pick(draws[k])])
    {
      code := code + [CodeAlphabet[Pick(draws[i])]];
    }
  }

  /** A generated code is `ORD-` and four alphabet characters, so it has the payment-code shape. */
  lemma {:induction false} GeneratedCodeShape(draws: seq<real>)
    requires IsDraws(draws)
    ensures var code := CodeOf(draws);
      && |code| == 8 && code[..4] == "ORD-"
      && (forall k :: 4 <= k < 8 ==> code[k] in CodeAlphabet)
      && CodeShaped(code)
  {
    var code := CodeOf(draws);
    forall k | 4 <= k < 8 ensures code[k] in CodeAlphabet {
      assert code[k] == CodeAlphabet[Pick(draws[k - 4])];
    }
    forall k | 0 <= k < 8 ensures IsPaymentCodeChar(code[k]) {
      if k >= 4 {
        assert code[k] == CodeAlphabet[Pick(draws[k - 4])];
      }
    }
  }

  /** The alphabet has 32 characters, none of them `0`, `O`, `1` or `I`. */
  lemma {:induction false} AlphabetOmitsLookalikes()
    ensures |CodeAlphabet| == 32
    ensures '0' !in CodeAlphabet && 'O' !in CodeAlphabet && '1' !in CodeAlphabet && 'I' !in CodeAlphabet
  {
    AlphabetRanges();
    forall k | 0 <= k < |CodeAlphabet|
      ensures CodeAlphabet[k] != '0' && CodeAlphabet[k] != 'O' && CodeAlphabet[k] != '1' && CodeAlphabet[k] != 'I'
    {
      assert InCodeRanges(CodeAlphabet[k]);
    }
  }

  /** `A`-`H`, `J`-`N`, `P`-`Z` and `2`-`9`: the ranges the alphabet is drawn from. */
  predicate InCodeRanges(c: char) {
    'A' <= c <= 'H' || 'J' <= c <= 'N' || 'P' <= c <= 'Z' || '2' <= c <= '9'
  }

  /** Every character of the alphabet lies in one of its four ranges. */
  lemma {:induction false} AlphabetRanges()
    ensures forall k :: 0 <= k < |CodeAlphabet| ==> InCodeRanges(CodeAlphabet[k])
  {
    var parts := ["ABCDEFGH", "JKLMN", "PQRSTUVWXYZ", "23456789"];
    AlphabetParts();
    forall k | 0 <= k < |CodeAlphabet| ensures InCodeRanges(CodeAlphabet[k]) {
      if k < 8 {
        assert CodeAlphabet[k] == parts[0][k];
      } else if k < 13 {
        assert CodeAlphabet[k] == parts[1][k - 8];
      } else if k < 24 {
        assert CodeAlphabet[k] == parts[2][k - 13];
      } else {
        assert CodeAlphabet[k] == parts[3][k - 24];
      }
    }
  }

  /** The alphabet is its four ranges one after the other. */
  lemma AlphabetParts()
    ensures CodeAlphabet == "ABCDEFGH" + "JKLMN" + "PQRSTUVWXYZ" + "23456789"
  {
  }

  /** Every code of four alphabet characters is generated by some draws. */
  lemma {:induction false} EveryCodeGenerated(picks: seq<nat>)
    requires |picks| == 4 && forall k :: 0 <= k < 4 ==> picks[k] < |CodeAlphabet|
    ensures var draws := seq(4, k requires 0 <= k < 4 => picks[k] as real / 32.0);
      IsDraws(draws) && CodeOf(draws) == "ORD-" + seq(4, k requires 0 <= k < 4 => CodeAlphabet[picks[k]])
  {
    var draws := seq(4, k requires 0 <= k < 4 => picks[k] as real / 32.0);
    forall k | 0 <= k < 4 ensures 0.0 <= draws[k] < 1.0 && Pick(draws[k]) == picks[k] {
      assert draws[k] * 32.0 == picks[k] as real;
    }
  }

  /**
   * A generated code written after `Utga: ` is read back unchanged from any
   * message the parser does not drop as outgoing, when no `utga:` comes
   * before it and a character outside `[A-Za-z0-9-]` (or the end of the
   * message) follows it.
   */
  lemma {:induction false} GeneratedCodeRecovered(draws: seq<real>, head: string, tail: string, from: string)
    requires IsDraws(draws)
    requires !Mentions(head, "utga:")
    requires tail == [] || !IsCodeChar(tail[0])
    requires var clean := Trim(head + "Utga: " + CodeOf(draws) + tail);
      Detects(clean, IncomingPattern) || !Detects(clean, OutgoingPattern)
    ensures Parse(Some(head + "Utga: " + CodeOf(draws) + tail), from).paymentCode == Some(CodeOf(draws))
  {
    var code := CodeOf(draws);
    var m := head + "Utga: " + code + tail;
    var h := TrimStart(head);
    var t := TrimEnd(tail);
    GeneratedCodeShape(draws);
    assert IsPaymentCodeChar(code[7]);
    UtgaTrim(head, code, tail);
    NoUtgaInTrimmedHead(head);
    TrimmedTail(tail);
    CodeAfterUtga(h, code, t);
    ParseKeepsCode(m, from);
  }

  /** Trimming `head + "Utga: " + code + tail` trims only `head` and `tail`. */
  lemma {:induction false} UtgaTrim(head: string, code: string, tail: string)
    requires code != [] && !IsSpace(code[|code| - 1])
    ensures Trim(head + "Utga: " + code + tail) == TrimStart(head) + "Utga: " + code + TrimEnd(tail)
  {
    var x := "Utga: " + code;
    assert x[|x| - 1] == code[|code| - 1];
    assert head + "Utga: " + code + tail == head + x + tail;
    TrimAround(head, x, tail);
  }

  /** Trimming the start of a head that does not mention `utga:` leaves one that does not either. */
  lemma {:induction false} NoUtgaInTrimmedHead(head: string)
    ensures !Mentions(head, "utga:") ==> !Mentions(TrimStart(head), "utga:")
  {
    MentionsSuffix(head, [], "utga:");
    assert head + [] == head && TrimStart(head) + [] == TrimStart(head);
  }

  /** A non-empty message not dropped as outgoing yields the code its trimmed text holds. */
  lemma {:induction false} ParseKeepsCode(m: string, from: string)
    requires m != []
    requires Detects(Trim(m), IncomingPattern) || !Detects(Trim(m), OutgoingPattern)
    ensures Parse(Some(m), from).paymentCode == FirstCode(Trim(m), CodePatterns, 0)
  {
  }
}

=== FILE: sms_patterns.dfy ===
/**
 * The regular expressions of the bank-SMS parser, each modelled by what it
 * matches rather than by a general regular-expression engine.
 *
 * All patterns carry the `i` flag, so literals are compared under `Fold`
 * and are written here in lower case. A `\s*` between two literals is
 * modelled by skipping the longest run of white space: the literal after
 * it starts with a character that is not white space, so backtracking to a
 * shorter run can never succeed. A `match` without the `g` flag reports the
 * leftmost position at which the pattern matches and, at that position, the
 * first way to match in the backtracking order of the quantifiers.
 *
 * The Cyrillic keywords (хаан банк, голомт, худалдаа … хөгжил, хас банк,
 * төрийн банк, капитрон, орлого, зарлага, төгрөг, утга:, огноо:) are the
 * Mongolian words the source's patterns spell.
 */
module SmsPatterns {
  import opened Wrappers
  import opened JsText

  // ---------------------------------------------------------------- detection

  /** One alternative of a detection pattern (the parts between `|`). */
  datatype Alt =
    | Words(words: seq<string>)               // w0\s*w1\s*…
    | Gap(first: string, second: string)      // first.*second
    | WithDigits(prefix: string, count: nat)  // prefix\d{count}

  /** The literals `words` occur from `i` on, with white space allowed between them. */
  predicate WordsAt(s: string, i: nat, words: seq<string>)
    requires i <= |s|
    decreases |words|
  {
    words == []
    || (MatchesAt(s, i, words[0]) && WordsAt(s, SkipSpaces(s, i + |words[0]|), words[1..]))
  }

  /** `.*second` from `j`: `second` occurs at `j` or later with no line break before it. */
  predicate LineGapAt(s: string, j: nat, second: string)
    requires j <= |s|
    decreases |s| - j
  {
    MatchesAt(s, j, second) || (j < |s| && !IsLineTerminator(s[j]) && LineGapAt(s, j + 1, second))
  }

  /** `\d{n}` at `i`. */
  predicate DigitsAt(s: string, i: nat, n: nat) {
    i + n <= |s| && forall k :: i <= k < i + n ==> IsDigit(s[k])
  }

  predicate AltAt(s: string, i: nat, a: Alt)
    requires i <= |s|
  {
    match a
    case Words(ws) => ws != [] && WordsAt(s, i, ws)
    case Gap(f, g) => MatchesAt(s, i, f) && LineGapAt(s, i + |f|, g)
    case WithDigits(p, n) => MatchesAt(s, i, p) && DigitsAt(s, i + |p|, n)
  }

  predicate AnyAltAt(s: string, i: nat, alts: seq<Alt>)
    requires i <= |s|
  {
    exists a :: a in alts && AltAt(s, i, a)
  }

  // ---------------------------------------------------------------- leftmost search

  /** The first index at or after `i` where `b` holds. */
  function Leftmost(b: seq<bool>, i: nat): Option<nat>
    requires i <= |b|
    decreases |b| - i
  {
    if i == |b| then None else if b[i] then Some(i) else Leftmost(b, i + 1)
  }

  /** What `Leftmost` finds holds in `b`, and nothing holds before it. */
  lemma {:induction false} LeftmostFound(b: seq<bool>, i: nat)
    requires i <= |b| && Leftmost(b, i).Some?
    ensures i <= Leftmost(b, i).value < |b| && b[Leftmost(b, i).value]
    ensures forall j :: i <= j < Leftmost(b, i).value ==> !b[j]
    decreases |b| - i
  {
    if !b[i] {
      LeftmostFound(b, i + 1);
    }
  }

  /** `Leftmost` finds nothing exactly when nothing at or after `i` holds. */
  lemma {:induction false} LeftmostNone(b: seq<bool>, i: nat)
    requires i <= |b|
    ensures Leftmost(b, i).None? <==> forall j :: i <= j < |b| ==> !b[j]
    decreases |b| - i
  {
    if i < |b| {
      LeftmostNone(b, i + 1);
    }
  }

  /** An index that holds, with none holding between `k` and it, is the one `Leftmost` finds. */
  lemma {:induction false} LeftmostFirst(b: seq<bool>, k: nat, i: nat)
    requires k <= i < |b| && b[i]
    requires forall j :: k <= j < i ==> !b[j]
    ensures Leftmost(b, k) == Some(i)
    decreases i - k
  {
    if k < i {
      LeftmostFirst(b, k + 1, i);
    }
  }

  // ---------------------------------------------------------------- detection, continued

  /** Whether some alternative of `alts` matches at each position `0 … |s|` of `s`. */
  function Hits(s: string, alts: seq<Alt>): (b: seq<bool>)
    ensures |b| == |s| + 1
  {
    seq(|s| + 1, j requires 0 <= j <= |s| => AnyAltAt(s, j, alts))
  }

  /** `RegExp.prototype.test` on the part of `s` from `i` on: some alternative matches there. */
  predicate DetectsFrom(s: string, alts: seq<Alt>, i: nat)
    requires i <= |s|
  {
    Leftmost(Hits(s, alts), i).Some?
  }

  /** `pattern.test(s)`. */
  predicate Detects(s: string, alts: seq<Alt>) {
    DetectsFrom(s, alts, 0)
  }

  /** `test` succeeds exactly when some alternative matches at some position. */
  lemma {:induction false} DetectsFromExists(s: string, alts: seq<Alt>, i: nat)
    requires i <= |s|
    ensures DetectsFrom(s, alts, i) <==> exists j :: i <= j <= |s| && AnyAltAt(s, j, alts)
  {
    var b := Hits(s, alts);
    LeftmostNone(b, i);
    if exists j :: i <= j <= |s| && AnyAltAt(s, j, alts) {
      var j :| i <= j <= |s| && AnyAltAt(s, j, alts);
      assert b[j];
    } else {
      forall j | i <= j < |b| ensures !b[j] {
      }
    }
  }

  /** An alternative matching somewhere makes `test` succeed. */
  lemma {:induction false} DetectsAt(s: string, alts: seq<Alt>, j: nat)
    requires j <= |s| && AnyAltAt(s, j, alts)
    ensures Detects(s, alts)
  {
    var b := Hits(s, alts);
    assert b[j];
    LeftmostNone(b, 0);
  }

  /** `dungeer|orlog|орлого|received|credited`: money came in. */
  const IncomingPattern: seq<Alt> :=
    [Words(["dungeer"]), Words(["orlog"]), Words(["орлого"]), Words(["received"]), Words(["credited"])]

  /** `zarlaga|зарлага|debit|sent|paid|payment\s*to`: money went out. */
  const OutgoingPattern: seq<Alt> :=
    [Words(["zarlaga"]), Words(["зарлага"]), Words(["debit"]), Words(["sent"]), Words(["paid"]),
     Words(["payment", "to"])]

  /** The bank names, in the order the parser tries them. */
  const BankNames: seq<string> := ["Khan Bank", "Golomt Bank", "TDB", "XacBank", "State Bank", "Capitron"]

  /** The detection pattern of each bank, in the order of `BankNames`. */
  const BankPatterns: seq<seq<Alt>> := [
    [Words(["khan", "bank"]), Words(["хаан", "банк"]), Words(["5765"]), WithDigits("5765", 4)],
    [Words(["golomt"]), Words(["голомт"])],
    [Words(["tdb"]), Gap("худалдаа", "хөгжил"), Words(["худалдаа", "хогжлийн"])],
    [Words(["xac", "bank"]), Words(["хас", "банк"])],
    [Words(["төрийн", "банк"]), Words(["state", "bank"])],
    [Words(["capitron"]), Words(["капитрон"])]
  ]

  /** The Khan Bank alternative `5765\d{4}` never matches where `5765` does not. */
  lemma {:induction false} KhanDigitsRedundant(s: string, i: nat)
    requires i <= |s|
    ensures AltAt(s, i, WithDigits("5765", 4)) ==> AltAt(s, i, Words(["5765"]))
  {
    if AltAt(s, i, WithDigits("5765", 4)) {
      assert MatchesAt(s, i, "5765");
      assert ["5765"][1..] == [];
    }
  }

  // ---------------------------------------------------------------- captures

  /**
   * A pattern with one capturing group, as used by `String.prototype.match`.
   * A numeral is `\d{1,3}(?:,\d{3})*(?:\.\d{2})?`, or the same led by `\d+`
   * when `whole`.
   */
  datatype Capture =
    | NumeralBefore(keyword: string, whole: bool) // (numeral)\s*keyword
    | NumeralAfter(keyword: string, whole: bool)  // keyword[:\s]*(numeral)
    | CodeAfter(marker: string, colons: bool)     // marker\s*([A-Z0-9-]+), or marker[:\s]*(…) when colons
    | DateAfter(marker: string)                // marker\s*(\d{4}-\d{2}-\d{2})
    | IsoDate                                 // (\d{4}[-/]\d{2}[-/]\d{2})
    | DmyDate                                 // (\d{2}[-/]\d{2}[-/]\d{4})

  /** `[A-Z0-9-]` under the `i` flag. */
  predicate IsCodeChar(c: char) {
    IsAsciiLetter(c) || IsDigit(c) || c == '-'
  }

  /** The length of the longest run of code characters from `p`. */
  function CodeRun(s: string, p: nat): (n: nat)
    requires p <= |s|
    ensures p + n <= |s|
    ensures forall k {:trigger IsCodeChar(s[k])} :: p <= k < p + n ==> IsCodeChar(s[k])
    ensures p + n == |s| || !IsCodeChar(s[p + n])
    decreases |s| - p
  {
    if p < |s| && IsCodeChar(s[p]) then 1 + CodeRun(s, p + 1) else 0
  }

  /** `[:\s]*`: the first position from `i` on that is neither a colon nor white space. */
  function SkipColonSpaces(s: string, i: nat): (j: nat)
    requires i <= |s|
    ensures i <= j <= |s|
    ensures forall k :: i <= k < j ==> s[k] == ':' || IsSpace(s[k])
    ensures j == |s| || (s[j] != ':' && !IsSpace(s[j]))
    decreases |s| - i
  {
    if i < |s| && (s[i] == ':' || IsSpace(s[i])) then SkipColonSpaces(s, i + 1) else i
  }

  /** `,\d{3}` at `p`. */
  predicate IsGroupAt(s: string, p: nat) {
    p + 4 <= |s| && s[p] == ',' && IsDigit(s[p + 1]) && IsDigit(s[p + 2]) && IsDigit(s[p + 3])
  }

  /** `\.\d{2}` at `q`. */
  predicate HasCents(s: string, q: nat) {
    q + 3 <= |s| && s[q] == '.' && IsDigit(s[q + 1]) && IsDigit(s[q + 2])
  }

  /** `(?:,\d{3}){g}` at `p`: `g` groups one after another. */
  predicate GroupsAt(s: string, p: nat, g: nat)
    decreases g
  {
    g == 0 || (IsGroupAt(s, p) && GroupsAt(s, p + 4, g - 1))
  }

  /** How many `,\d{3}` groups follow one another from `p`. */
  function GroupRun(s: string, p: nat): (g: nat)
    requires p <= |s|
    ensures p + 4 * g <= |s|
    ensures GroupsAt(s, p, g) && !IsGroupAt(s, p + 4 * g)
    decreases |s| - p
  {
    if IsGroupAt(s, p) then 1 + GroupRun(s, p + 4) else 0
  }

  /** `(?:\.\d{2})?` at `q`, in the order it is tried: with the cents first. */
  function CentsEnds(s: string, q: nat): (ends: seq<nat>)
    requires q <= |s|
    ensures forall k :: 0 <= k < |ends| ==> q <= ends[k] <= |s|
  {
    if HasCents(s, q) then [q + 3, q] else [q]
  }

  /** `(?:,\d{3})*(?:\.\d{2})?` from `p`, using at most `g` groups, most groups first. */
  function GroupEnds(s: string, p: nat, g: nat): (ends: seq<nat>)
    requires p + 4 * g <= |s|
    ensures forall k :: 0 <= k < |ends| ==> p <= ends[k] <= |s|
    decreases g
  {
    CentsEnds(s, p + 4 * g) + (if g == 0 then [] else GroupEnds(s, p, g - 1))
  }

  /** `\d{1,3}(?:,\d{3})*(?:\.\d{2})?` from `i`, with at most `a` leading digits, most first. */
  function LeadEnds(s: string, i: nat, a: nat): (ends: seq<nat>)
    requires i + a <= |s|
    ensures forall k :: 0 <= k < |ends| ==> i < ends[k] <= |s|
    decreases a
  {
    if a == 0 then []
    else GroupEnds(s, i + a, GroupRun(s, i + a)) + LeadEnds(s, i, a - 1)
  }

  /**
   * Every end at which the numeral `\d{1,3}(?:,\d{3})*(?:\.\d{2})?` starting at
   * `i` can stop, in the order the backtracking matcher tries them.
   */
  function NumeralEnds(s: string, i: nat): (ends: seq<nat>)
    requires i <= |s|
    ensures forall k :: 0 <= k < |ends| ==> i < ends[k] <= |s|
  {
    var run := DigitRun(s, i, 10);
    LeadEnds(s, i, if run < 3 then run else 3)
  }

  /**
   * The ends of `\d+(?:,\d{3})*(?:\.\d{2})?` from `i`: the leading digits
   * may be the whole run of digits, and are tried longest first.
   */
  function WholeNumeralEnds(s: string, i: nat): (ends: seq<nat>)
    requires i <= |s|
    ensures forall k :: 0 <= k < |ends| ==> i < ends[k] <= |s|
  {
    LeadEnds(s, i, DigitRun(s, i, 10))
  }

  /** The ends of the numeral from `i`: `\d+` leads it when `whole`, `\d{1,3}` otherwise. */
  function LeadingEnds(s: string, i: nat, whole: bool): (ends: seq<nat>)
    requires i <= |s|
    ensures forall k :: 0 <= k < |ends| ==> i < ends[k] <= |s|
  {
    if whole then WholeNumeralEnds(s, i) else NumeralEnds(s, i)
  }

  /** The first end in `ends` after which white space and then `keyword` follow. */
  function FirstEndBefore(s: string, ends: seq<nat>, keyword: string): (r: Option<nat>)
    requires forall k :: 0 <= k < |ends| ==> ends[k] <= |s|
    ensures r.Some? ==> r.value in ends && MatchesAt(s, SkipSpaces(s, r.value), keyword)
    ensures r.None? ==> forall e :: e in ends ==> !MatchesAt(s, SkipSpaces(s, e), keyword)
  {
    if ends == [] then None
    else if MatchesAt(s, SkipSpaces(s, ends[0]), keyword) then Some(ends[0])
    else FirstEndBefore(s, ends[1..], keyword)
  }

  /** The first end is taken when the keyword follows it. */
  lemma {:induction false} FirstEndTaken(s: string, ends: seq<nat>, keyword: string)
    requires forall k :: 0 <= k < |ends| ==> ends[k] <= |s|
    requires ends != [] && MatchesAt(s, SkipSpaces(s, ends[0]), keyword)
    ensures FirstEndBefore(s, ends, keyword) == Some(ends[0])
  {
  }

  /** `\d{4}[-/]\d{2}[-/]\d{2}` at `i` (`-` only when `slashes` is false). */
  predicate IsoAt(s: string, i: nat, slashes: bool) {
    i + 10 <= |s| && DigitsAt(s, i, 4) && DigitsAt(s, i + 5, 2) && DigitsAt(s, i + 8, 2)
    && (s[i + 4] == '-' || (slashes && s[i + 4] == '/'))
    && (s[i + 7] == '-' || (slashes && s[i + 7] == '/'))
  }

  /** `\d{2}[-/]\d{2}[-/]\d{4}` at `i`. */
  predicate DmyAt(s: string, i: nat) {
    i + 10 <= |s| && DigitsAt(s, i, 2) && DigitsAt(s, i + 3, 2) && DigitsAt(s, i + 6, 4)
    && (s[i + 2] == '-' || s[i + 2] == '/') && (s[i + 5] == '-' || s[i + 5] == '/')
  }

  /** `(numeral)\s*keyword` at `i`: the numeral runs to the first end that `keyword` follows. */
  function NumeralBeforeAt(s: string, i: nat, kw: string, whole: bool): (r: Option<(nat, nat)>)
    requires i <= |s|
    ensures r.Some? ==> i <= r.value.0 <= r.value.1 <= |s|
  {
    match FirstEndBefore(s, LeadingEnds(s, i, whole), kw)
    case None => None
    case Some(e) => Some((i, e))
  }

  /** `keyword[:\s]*(numeral)` at `i`: the numeral stops at its first end. */
  function NumeralAfterAt(s: string, i: nat, kw: string, whole: bool): (r: Option<(nat, nat)>)
    requires i <= |s|
    ensures r.Some? ==> i <= r.value.0 <= r.value.1 <= |s|
  {
    if !MatchesAt(s, i, kw) then None
    else
      var q := SkipColonSpaces(s, i + |kw|);
      var ends := LeadingEnds(s, q, whole);
      if ends == [] then None else Some((q, ends[0]))
  }

  /** `marker\s*([A-Z0-9-]+)` (or `marker[:\s]*(…)` when `colons`) at `i`. */
  function CodeAfterAt(s: string, i: nat, marker: string, colons: bool): (r: Option<(nat, nat)>)
    requires i <= |s|
    ensures r.Some? ==> i <= r.value.0 <= r.value.1 <= |s|
  {
    if !MatchesAt(s, i, marker) then None
    else
      var q := if colons then SkipColonSpaces(s, i + |marker|) else SkipSpaces(s, i + |marker|);
      var n := CodeRun(s, q);
      if n == 0 then None else Some((q, q + n))
  }

  /** `marker\s*(\d{4}-\d{2}-\d{2})` at `i`. */
  function DateAfterAt(s: string, i: nat, marker: string): (r: Option<(nat, nat)>)
    requires i <= |s|
    ensures r.Some? ==> i <= r.value.0 <= r.value.1 <= |s|
  {
    if !MatchesAt(s, i, marker) then None
    else
      var q := SkipSpaces(s, i + |marker|);
      if IsoAt(s, q, false) then Some((q, q + 10)) else None
  }

  /**
   * The span of the capturing group when pattern `p` matches at position `i`,
   * or `None` when no match starts there.
   */
  function CaptureAt(s: string, i: nat, p: Capture): (r: Option<(nat, nat)>)
    requires i <= |s|
    ensures r.Some? ==> i <= r.value.0 <= r.value.1 <= |s|
  {
    match p
    case NumeralBefore(kw, whole) => NumeralBeforeAt(s, i, kw, whole)
    case NumeralAfter(kw, whole) => NumeralAfterAt(s, i, kw, whole)
    case CodeAfter(marker, colons) => CodeAfterAt(s, i, marker, colons)
    case DateAfter(marker) => DateAfterAt(s, i, marker)
    case IsoDate => if IsoAt(s, i, true) then Some((i, i + 10)) else None
    case DmyDate => if DmyAt(s, i) then Some((i, i + 10)) else None
  }

  /** Whether `p` matches at each position `0 … |s|` of `s`. */
  function Starts(s: string, p: Capture): (b: seq<bool>)
    ensures |b| == |s| + 1
  {
    seq(|s| + 1, j requires 0 <= j <= |s| => CaptureAt(s, j, p).Some?)
  }

  /** The leftmost position at or after `i` where `p` matches. */
  function MatchFrom(s: string, p: Capture, i: nat): Option<nat>
    requires i <= |s|
  {
    Leftmost(Starts(s, p), i)
  }

  /** `MatchFrom` reports a match, and none starts between `i` and it. */
  lemma {:induction false} MatchFromFound(s: string, p: Capture, i: nat)
    requires i <= |s| && MatchFrom(s, p, i).Some?
    ensures var v := MatchFrom(s, p, i).value;
      i <= v <= |s| && CaptureAt(s, v, p).Some? && forall j :: i <= j < v ==> CaptureAt(s, j, p).None?
  {
    var b := Starts(s, p);
    LeftmostFound(b, i);
    var v := MatchFrom(s, p, i).value;
    assert b[v];
    forall j | i <= j < v ensures CaptureAt(s, j, p).None? {
      assert !b[j];
    }
  }

  /** A match at `i` with none between `k` and it is the one `MatchFrom` reports from `k`. */
  lemma {:induction false} MatchFromFirst(s: string, p: Capture, k: nat, i: nat)
    requires k <= i <= |s|
    requires forall j :: k <= j < i ==> CaptureAt(s, j, p).None?
    requires CaptureAt(s, i, p).Some?
    ensures MatchFrom(s, p, k) == Some(i)
  {
    var b := Starts(s, p);
    assert b[i];
    forall j | k <= j < i ensures !b[j] {
    }
    LeftmostFirst(b, k, i);
  }

  /** `s.match(p)[1]`: the text of the group in the leftmost match, if any. */
  function Group(s: string, p: Capture): Option<string> {
    match MatchFrom(s, p, 0)
    case None => None
    case Some(j) =>
      MatchFromFound(s, p, 0);
      var span := CaptureAt(s, j, p).value;
      Some(s[span.0..span.1])
  }

  /** The group `match` reports is the one at the leftmost match. */
  lemma {:induction false} GroupAtFirst(s: string, p: Capture, i: nat, span: (nat, nat), t: string)
    requires i <= |s| && MatchFrom(s, p, 0) == Some(i) && CaptureAt(s, i, p) == Some(span)
    requires span.0 <= span.1 <= |s| && s[span.0..span.1] == t
    ensures Group(s, p).Some? && Group(s, p).value == t
  {
  }

  /** A match at `i` with none before it yields its group. */
  lemma {:induction false} FirstCaptureGroup(s: string, p: Capture, i: nat, e: nat, t: string)
    requires i <= e <= |s| && s[i..e] == t
    requires forall j :: 0 <= j < i ==> CaptureAt(s, j, p).None?
    requires CaptureAt(s, i, p) == Some((i, e))
    ensures Group(s, p).Some? && Group(s, p).value == t
  {
    MatchFromFirst(s, p, 0, i);
  }

  /** A group that `match` reports is the span captured where the leftmost match starts. */
  lemma {:induction false} GroupSpan(s: string, p: Capture)
    requires Group(s, p).Some?
    ensures MatchFrom(s, p, 0).Some? && MatchFrom(s, p, 0).value <= |s|
    ensures var i := MatchFrom(s, p, 0).value;
      CaptureAt(s, i, p).Some?
      && Group(s, p).value == s[CaptureAt(s, i, p).value.0..CaptureAt(s, i, p).value.1]
  {
    MatchFromFound(s, p, 0);
  }

  /** `match` fails exactly when the pattern matches nowhere. */
  lemma {:induction false} GroupNone(s: string, p: Capture)
    ensures Group(s, p).None? <==> forall j :: 0 <= j <= |s| ==> CaptureAt(s, j, p).None?
  {
    var b := Starts(s, p);
    LeftmostNone(b, 0);
    if forall j :: 0 <= j <= |s| ==> CaptureAt(s, j, p).None? {
      forall j | 0 <= j < |b| ensures !b[j] {
      }
    } else {
      var j :| 0 <= j <= |s| && CaptureAt(s, j, p).Some?;
      assert b[j];
    }
  }

  /** The amount patterns, in the order the parser tries them. */
  const AmountPatterns: seq<Capture> := [
    NumeralBefore("dungeer", false), NumeralBefore("төгрөг", false), NumeralBefore("togrog", false), NumeralBefore("mnt", false),
    NumeralAfter("орлого", false), NumeralAfter("amount", false)
  ]

  /** The payment-code patterns, in the order the parser tries them. */
  const CodePatterns: seq<Capture> := [
    CodeAfter("utga:", false), CodeAfter("утга:", false), CodeAfter("ref", true), CodeAfter("reference", true)
  ]

  /** The date patterns, in the order the parser tries them. */
  const DatePatterns: seq<Capture> := [DateAfter("ognoo:"), DateAfter("огноо:"), IsoDate, DmyDate]

  // ---------------------------------------------------------------- what the groups hold

  /** A payment-code group is a non-empty run of `[A-Za-z0-9-]`. */
  lemma {:induction false} CodeGroupShape(s: string, marker: string, colons: bool)
    requires Group(s, CodeAfter(marker, colons)).Some?
    ensures var t := Group(s, CodeAfter(marker, colons)).value;
      t != [] && forall k :: 0 <= k < |t| ==> IsCodeChar(t[k])
  {
    var p := CodeAfter(marker, colons);
    GroupSpan(s, p);
    var i := MatchFrom(s, p, 0).value;
    var span := CaptureAt(s, i, p).value;
    CodeCaptureChars(s, i, marker, colons);
    var t := s[span.0..span.1];
    forall k | 0 <= k < |t| ensures IsCodeChar(t[k]) {
      assert t[k] == s[span.0 + k];
    }
  }

  /** What `marker[:\s]*([A-Z0-9-]+)` captures is a non-empty run of code characters. */
  lemma {:induction false} CodeCaptureChars(s: string, i: nat, marker: string, colons: bool)
    requires i <= |s| && CaptureAt(s, i, CodeAfter(marker, colons)).Some?
    ensures var span := CaptureAt(s, i, CodeAfter(marker, colons)).value;
      span.0 < span.1 && forall k :: span.0 <= k < span.1 ==> IsCodeChar(s[k])
  {
  }

  /** Whether `d` has the shape of a date group: ten characters, digits and two separators. */
  predicate DateShaped(d: string) {
    |d| == 10 && (IsoAt(d, 0, true) || DmyAt(d, 0))
  }

  /** Every date group has the shape of a date. */
  lemma {:induction false} DateGroupShape(s: string, p: Capture)
    requires p.DateAfter? || p.IsoDate? || p.DmyDate?
    requires Group(s, p).Some?
    ensures DateShaped(Group(s, p).value)
  {
    MatchFromFound(s, p, 0);
    var i := MatchFrom(s, p, 0).value;
    var span := CaptureAt(s, i, p).value;
    var d := s[span.0..span.1];
    assert Group(s, p) == Some(d);
    var q := span.0;
    assert span.1 == q + 10;
    forall k | 0 <= k < 10 ensures d[k] == s[q + k] {
    }
    if p.DmyDate? {
      assert DmyAt(s, q);
      assert DmyAt(d, 0);
    } else {
      assert IsoAt(s, q, true);
      assert IsoAt(d, 0, true);
    }
  }
}

=== FILE: user.dfy ===
/**
 * The user account: its role, the business owner's bundle sub-record with
 * its purchase history, the defaults a new account starts from, and the
 * unique, normalised username and email.
 */
module Users {
  import opened Wrappers
  import opened JsText
  import opened Bundles

  /** `role`. */
  datatype Role = Customer | Admin | ProductManager | BusinessOwner

  function RoleName(r: Role): string {
    match r
    case Customer => "customer"
    case Admin => "admin"
    case ProductManager => "product_manager"
    case BusinessOwner => "business_owner"
  }

  /** The enumeration check on `role`; an absent role takes the default `customer`. */
  function RoleOf(v: Option<string>): (r: Option<Role>)
    ensures v.None? ==> r == Some(Customer)
    ensures v.Some? ==> (r.Some? <==> v.value in {"customer", "admin", "product_manager", "business_owner"})
    ensures v.Some? && r.Some? ==> RoleName(r.value) == v.value
  {
    match v
    case None => Some(Customer)
    case Some(s) =>
      if s == "customer" then Some(Customer)
      else if s == "admin" then Some(Admin)
      else if s == "product_manager" then Some(ProductManager)
      else if s == "business_owner" then Some(BusinessOwner)
      else None
  }

  /** `businessBundle.tier`: `none`, or one of the five bundle tiers. */
  datatype BundleTier = NoBundle | Bought(tier: Tier)

  function BundleTierName(t: BundleTier): string {
    match t
    case NoBundle => "none"
    case Bought(k) => TierKey(k)
  }

  /** The enumeration check on `businessBundle.tier`; an absent tier takes the default `none`. */
  function BundleTierOf(v: Option<string>): (r: Option<BundleTier>)
    ensures v.None? ==> r == Some(NoBundle)
    ensures v.Some? ==> (r.Some? <==> v.value == "none" || v.value in TierKeys)
    ensures v.Some? && r.Some? ==> BundleTierName(r.value) == v.value
  {
    match v
    case None => Some(NoBundle)
    case Some(s) =>
      if s == "none" then Some(NoBundle)
      else match TierOfKey(s)
        case Some(k) => Some(Bought(k))
        case None => None
  }

  /** Every role and tier is accepted back under its own name. */
  lemma UserEnumRoundTrip(r: Role, t: BundleTier)
    ensures RoleOf(Some(RoleName(r))) == Some(r)
    ensures BundleTierOf(Some(BundleTierName(t))) == Some(t)
  {
  }

  /** One `purchaseHistory` entry. Times are milliseconds since the epoch. */
  datatype HistoryEntry = HistoryEntry(tier: string, productsAllowed: nat, price: nat, purchaseDate: int)

  /** `businessBundle`. */
  datatype BusinessBundle = BusinessBundle(
    tier: BundleTier,
    productsAllowed: nat,
    productsUsed: nat,
    purchaseDate: Option<int>,
    expiryDate: Option<int>,
    purchaseHistory: seq<HistoryEntry>)

  /** The bundle sub-record of an account that never bought one. */
  const DefaultBundle: BusinessBundle := BusinessBundle(NoBundle, 0, 0, None, None, [])

  /** An account as stored. The password is kept as given; hashing is not modelled. */
  datatype User = User(
    username: string,
    email: string,
    password: string,
    role: Role,
    permissions: seq<string>,
    isActive: bool,
    isVerified: bool,
    businessBundle: BusinessBundle)

  /** Why a new account is refused. */
  datatype Refusal = MissingField(field: string) | BadRole | DuplicateKey(field: string)

  /** The `username` setter: `trim`. */
  function NormalUsername(s: string): string {
    Trim(s)
  }

  /** The `email` setters: `trim` and `lowercase`. */
  function NormalEmail(s: string): string {
    Lower(Trim(s))
  }

  /**
   * `new User({...})` followed by validation: the setters run, each required
   * string must be non-empty afterwards, the role must be one of the
   * enumeration, and every other field takes its default.
   */
  function NewUser(username: string, email: string, password: string, role: Option<string>): (r: Result<User, Refusal>)
    ensures r.Ok? <==> Trim(username) != [] && Trim(email) != [] && password != [] && RoleOf(role).Some?
    ensures r.Ok? ==> r.value.username == Trim(username) && r.value.email == Lower(Trim(email))
    ensures r.Ok? ==> (r.value.businessBundle == DefaultBundle && r.value.isActive && !r.value.isVerified
      && r.value.permissions == [] && Some(r.value.role) == RoleOf(role))
  {
    var u := NormalUsername(username);
    var e := NormalEmail(email);
    if u == [] then Err(MissingField("username"))
    else if e == [] then Err(MissingField("email"))
    else if password == [] then Err(MissingField("password"))
    else match RoleOf(role)
      case None => Err(BadRole)
      case Some(k) => Ok(User(u, e, password, k, [], true, false, DefaultBundle))
  }

  /** No two accounts share a username or an email. */
  predicate UniqueAccounts(users: seq<User>) {
    forall i, j :: 0 <= i < j < |users| ==>
      users[i].username != users[j].username && users[i].email != users[j].email
  }

  predicate UsernameTaken(users: seq<User>, name: string) {
    exists i :: 0 <= i < |users| && users[i].username == name
  }

  predicate EmailTaken(users: seq<User>, email: string) {
    exists i :: 0 <= i < |users| && users[i].email == email
  }

  /** Inserting an account under the two unique indexes. */
  function Insert(users: seq<User>, u: User): (r: Result<seq<User>, Refusal>)
    ensures r.Ok? <==> !UsernameTaken(users, u.username) && !EmailTaken(users, u.email)
    ensures r.Ok? ==> r.value == users + [u]
    ensures r.Ok? && UniqueAccounts(users) ==> UniqueAccounts(r.value)
  {
    if UsernameTaken(users, u.username) then Err(DuplicateKey("username"))
    else if EmailTaken(users, u.email) then Err(DuplicateKey("email"))
    else Ok(users + [u])
  }

  /** Registering: building the account, then inserting it. */
  function Register(users: seq<User>, username: string, email: string, password: string,
                    role: Option<string>): Result<seq<User>, Refusal>
  {
    match NewUser(username, email, password, role)
    case Err(e) => Err(e)
    case Ok(u) => Insert(users, u)
  }

  /**
   * Two addresses that differ only in surrounding white space or letter case
   * are one address: once one is registered, the other is refused.
   */
  lemma EmailCaseInsensitive(users: seq<User>, username: string, email: string, password: string,
                             role: Option<string>, i: nat)
    requires i < |users| && users[i].email == Lower(Trim(email))
    ensures Register(users, username, email, password, role).Err?
  {
  }

  /** A fresh account has no bundle: tier `none`, nothing allowed, nothing used, no history. */
  lemma FreshAccountDefaults(username: string, email: string, password: string)
    requires NewUser(username, email, password, None).Ok?
    ensures NewUser(username, email, password, None).value.role == Customer
    ensures NewUser(username, email, password, None).value.businessBundle.tier == NoBundle
    ensures NewUser(username, email, password, None).value.businessBundle.productsAllowed == 0
    ensures NewUser(username, email, password, None).value.businessBundle.productsUsed == 0
    ensures NewUser(username, email, password, None).value.businessBundle.purchaseHistory == []
  {
  }
}

=== FILE: wrappers.dfy ===
/** Option and Result, the two failure-carrying shapes the rest of the model uses. */
module Wrappers {

  /** A value that may be absent: JavaScript's `null`/`undefined`, or a missing field. */
  datatype Option<+T> = None | Some(value: T)

  /** The outcome of a request handler: the new value, or the error response it sends. */
  datatype Result<+T, +E> = Ok(value: T) | Err(error: E)
}
